=== FILE: README.md ===
# ITT Discord bot — a Dafny model of its core

The bot serves the Island Troll Tribes (ITT) community on Discord. This project models its core and proves properties of it:

- the `/games`, `/join` and `/leave` slash commands;
- the join and leave buttons, and the game select menus built from the ITT backend's scheduled games;
- the two-step scheduling wizard, whose per-user state lives in Firestore;
- the in-memory reminder registry;
- the two background monitors: open wc3stats lobbies, and completed games from the ITT API. Each monitor is meant to announce new entities in a channel and keep "already notified" records in Firestore. As written, neither can: their configuration names and embed builders are not exported (see Findings);
- the helpers these use: team-size parsing (`"2v2"` allows 4 players), `parseTime`, the 25 half-hour time options, the relative-time formatter and the logger's line format.

Everything outside the process is passed in as a value:

- Discord, the ITT backend and wc3stats;
- Firestore's results;
- the clock and the JavaScript runtime's date parsing and locale rendering.

Each handler is therefore a pure function of what it saw. JavaScript values are modelled by `Js.Value`, with JavaScript's own truthiness, `||` and `String()`.

Modules, following the source files:

| module | file of the bot |
|---|---|
| `Games`, `Admission`, `Participation` | `utils/game.js`, and the checks shared by the join and leave handlers |
| `CommandHandler` | `handlers/commands.js` |
| `ButtonHandler` | `handlers/buttons.js` |
| `SelectMenuHandler` | `handlers/selectMenus.js` |
| `ScheduleWizard` | `handlers/schedule.js` |
| `Reminders` | `handlers/reminders.js` |
| `LobbyMonitor`, `Wc3Stats` | `handlers/lobbyMonitor.js`, `services/wc3stats.js` |
| `CompletedGamesMonitor`, `StableSort` | `handlers/completedGamesMonitor.js` (its sort is stable) |
| `NotificationStore` | the Firestore record collections and the per-entity loop both monitors share |
| `Menus`, `Embeds` | `components/menus.js`, `components/embeds.js` |
| `TimeUtil`, `Format`, `Logger` | `utils/time.js`, `utils/format.js`, `utils/logger.js` |
| `Config`, `Text`, `Seqs`, `Js`, `Wrappers` | constants of `config.js`, and support |

## Model

| member | source | states |
|---|---|---|
| Games.MaxPlayersFromTeamSize | src/utils/game.js:2-13 | null for a team size that is not a string; never a negative cap |
| Games.MaxPlayersIsLeftmostSum | src/utils/game.js:2-13 | for a string team size: no cap exactly when no position starts a match of `(\d+)\s*v\s*(\d+)`; otherwise the sum of the two numbers of the leftmost match |
| Games.FirstMatchNone | src/utils/game.js:5-6 | `match` finds nothing exactly when no position at or after the start begins a match |
| Games.FirstMatchAt | src/utils/game.js:5 | the match found starts at a position where a match begins, with none before it |
| Games.CapOfMatchAfterPrefix | src/utils/game.js:5-12 | a match after a stretch without digits is the one used for the cap |
| Games.TeamSizeSum | src/utils/game.js:5-12 | a team size "\<n\>\<spaces\>v\<spaces\>\<m\>" (either case of v), after a digit-free prefix, allows n + m players |
| Games.NoDigitNoCap | src/utils/game.js:5-6 | a team size without a digit imposes no cap |
| Games.SymmetricCap | src/utils/game.js:2-13 | "kvk" allows 2k players |
| Games.OneVersusOneCap | src/utils/game.js:2-13 | "1v1" allows 2 players |
| Games.TwoVersusTwoCap | src/utils/game.js:2-13 | "2v2" allows 4 players |
| Games.TeamSizeOptionsAgree | src/config.js:14-21 | every wizard team-size option "kvk" allows 2k players, the number its description announces |
| Games.OptionText | src/config.js:14-21 | the i-th team-size option reads "kvk" for k = i + 1 and is described as 2k players total |
| Games.PlayersText | src/components/embeds.js:10-13 | "count/max" when the cap is truthy, else the bare count |
| Games.FirstMatchSkips | src/utils/game.js:5 | the leftmost match is found after any prefix where no match starts |
| Games.RunEnds | src/utils/game.js:5 | where the greedy `\d+` and `\s*` runs of the pattern end in a team size made of those runs |
| Games.MatchAtIs | src/utils/game.js:5-9 | a match of the pattern reads the values of its two digit runs |
| Admission.CheckJoin | src/handlers/buttons.js:105-131 | a join is admitted iff the game is scheduled, the user is not a participant and the cap is not reached; each refusal names the first check that failed |
| Admission.CheckLeave | src/handlers/buttons.js:151-168 | a leave is allowed iff the game is scheduled and the user takes part |
| Admission.LeaveIffAlreadyJoined | src/handlers/buttons.js:115-122 | on a scheduled game, leaving is allowed exactly when a join says "already participating" |
| Admission.UnscheduledRefusesBoth | src/handlers/buttons.js:107-113 | a game not in state 'scheduled' refuses both joins and leaves, whatever the cap |
| Admission.LargerCapAdmitsMore | src/handlers/buttons.js:124-131 | raising the cap never turns an admission into a refusal, and having no cap admits the most |
| Admission.UnparsableTeamSizeNoCap | src/handlers/buttons.js:124-125 | a team size with no "n v m" part leaves a button join uncapped |
| Admission.CapsDisagreeOnTwoVersusTwo | src/handlers/commands.js:159-164 | on a "2v2" game with two players, the command refuses a third while the button admits them |
| Admission.TwoOfFourLacksUser | src/handlers/commands.js:151-157 | the witness game of that disagreement does not already hold the user |
| Admission.CapsAgreeOnOneVersusOne | src/handlers/commands.js:159-164 | on "1v1" games, the command's fixed cap of two and the team-size cap decide alike |
| Participation.JoinFlow | src/handlers/buttons.js:105-149 | joined iff the fetched game is admitted; the shown game is the refreshed one; refusal iff fetched and not admitted |
| Participation.LeaveFlow | src/handlers/buttons.js:151-184 | left iff the fetched game allows the leave; the shown game is the refreshed one |
| Participation.RefusalPrecedesJoinCall | src/handlers/buttons.js:106-133 | a refused join gives the same answer whatever the backend's join endpoint would do |
| Participation.RefusalPrecedesLeaveCall | src/handlers/buttons.js:152-170 | a refused leave never reaches the backend's leave endpoint |
| Participation.ReminderIsTheOnlyDifference | src/handlers/selectMenus.js:74 | arming the reminder or not changes nothing about a join except the reminder |
| Participation.ButtonsOfferTheOpposite | src/handlers/buttons.js:141 | after a join the buttons offer "leave_\<id\>", after a leave "join_\<id\>" |
| Embeds.CreateGameButtons | src/components/embeds.js:39-67 | two buttons: leave or join with the game id in its custom id, then the details link to the game's page |
| Embeds.ButtonsShareLink | src/components/embeds.js:42-64 | the joined and not-joined rows share the link and differ in the action button |
| Embeds.CreateGameEmbed | src/components/embeds.js:6-37 | the title "Game #\<gameId\>"; the description is the team size, a space and the upper-cased game type, with no lower-case letter after the team size; the footer names the creator; four inline fields: the time ("Unknown Time" for a missing date) followed by " UTC", the relative start, the players text, and the status defaulting to "scheduled"; a fifth "Players" list exactly when somebody joined |
| Embeds.DescriptionIsUpperCase | src/components/embeds.js:18 | after the team size, the description holds no ASCII lower-case letter |
| Embeds.NameList | src/components/embeds.js:31 | one name per participant |
| Embeds.PlayersListNames | src/components/embeds.js:28-34 | the "Players" field splits at line breaks into the participants' names, in order, when no name holds a line break |
| Embeds.NoneYetOnlyForOneNameless | src/components/embeds.js:28-34 | "None yet" replaces the list only for a single participant whose name renders empty; one named participant is shown alone; two or more always give a list holding a line break |
| Embeds.JoinHasSeparator | src/components/embeds.js:31 | joining two or more names puts the separator right after the first |
| Embeds.StatusDefault | src/components/embeds.js:23 | a missing state shows "scheduled", and "completed" shows as itself |
| Embeds.DescriptionWithoutType | src/components/embeds.js:18 | a missing game type leaves the team size and a space |
| Menus.BuildGamesSelectMenu | src/components/menus.js:5-39 | no menu iff no game is listable; otherwise the options of the first 25 listable games in order |
| Menus.Options | src/components/menus.js:20-24 | one option per game, in order |
| Menus.MenuSoFar | src/components/menus.js:8-31 | where the loop stops, the games collected are the first 25 listable ones, and none were collected iff none is listable |
| Menus.CapReached | src/components/menus.js:26 | once 25 options exist, later games change nothing |
| Menus.NextOption | src/components/menus.js:9-24 | one more game adds its option exactly when it is listable |
| Menus.OptionsComeFromListableGames | src/components/menus.js:9-24 | every option names a listable game of the input by its `String(id)` |
| Menus.OptionValuesNonEmpty | src/components/menus.js:23 | a listable game with a string or number id never gets an empty option value |
| CommandHandler.HandleSlashCommand | src/handlers/commands.js:17-40 | "games", "join" and "leave" reach their handlers; any other name does nothing |
| CommandHandler.GamesCommand | src/handlers/commands.js:42-103 | failure iff the listing throws; "no games" iff it is empty; otherwise the first ten games' lines and the games menu |
| CommandHandler.DescribeGames | src/handlers/commands.js:74-89 | the description is the line of each of the first ten games, in order |
| CommandHandler.Summary | src/handlers/commands.js:88 | a listing line before its tag ends in ')' |
| CommandHandler.TagMarksOwnGames | src/handlers/commands.js:84-88 | a line ends with the "(You are in this game)" tag iff the caller takes part |
| CommandHandler.TagIsRecognisable | src/handlers/commands.js:84-88 | a line ending in ')' ends with the tag exactly when the tag was appended |
| CommandHandler.ConcatAppend | src/handlers/commands.js:75-89 | the lines of two runs of games are those of the first run, then those of the second |
| CommandHandler.ConcatAt | src/handlers/commands.js:75-89 | each game's line sits between the lines of the games before it and after it |
| CommandHandler.ListingIgnoresLaterGames | src/handlers/commands.js:75 | games after the tenth change nothing in the description |
| CommandHandler.DescriptionListsEachShownGame | src/handlers/commands.js:75-89 | each of the first ten games has its line in the description, in position |
| CommandHandler.MenuOutrunsListing | src/handlers/commands.js:75-97 | with more than ten listable games, the menu offers games the description does not list |
| CommandHandler.Resolve | src/handlers/commands.js:133-142 | an all-digit id is looked up as a public number and replaced by the game's internal id; anything else is fetched directly and kept when the game has no truthy id |
| CommandHandler.Fetched | src/handlers/commands.js:133-142 | the game of a resolution, and an error iff the resolution failed |
| CommandHandler.JoinCommand | src/handlers/commands.js:105-189 | no id gives the join menu or the listing error; a join goes through under the fixed cap of two, on the resolved internal id, with a reminder |
| CommandHandler.LeaveCommand | src/handlers/commands.js:191-245 | left iff the resolved game allows the leave |
| CommandHandler.PublicIdRoundTrip | src/handlers/commands.js:136-138 | a public number written in decimal resolves to that scheduled game and its internal id |
| CommandHandler.InternalIdKeptWhenGameHasNone | src/handlers/commands.js:139-142 | an internal id whose game carries no truthy `id` is used as typed |
| CommandHandler.CommandAdmitsAtMostTwo | src/handlers/commands.js:159-164 | the command admits no third player, whatever the team size says |
| CommandHandler.PublicJoinUsesInternalId | src/handlers/commands.js:136-138 | a join by public number acts on the internal id, not the number |
| ButtonHandler.ActionOf | src/handlers/buttons.js:82 | the first two '_'-separated pieces of the custom id, with undefined for a missing second piece |
| ButtonHandler.RouteButton | src/handlers/buttons.js:25-91 | the wizard ids exactly, then "join" and "leave" actions with the second piece as the game id |
| ButtonHandler.HandleButton | src/handlers/buttons.js:19-103 | `schedule_game` clears the wizard state; step 2 offers at most 25 times; an unrouted id does nothing |
| ButtonHandler.NotAWizardId | src/handlers/buttons.js:25-57 | "join_…" and "leave_…" are never one of the wizard ids |
| ButtonHandler.ButtonRoundTrip | src/handlers/buttons.js:82-91 | the custom ids of the game buttons route back to their action and id, when the id has no '_' |
| ButtonHandler.UnderscoreIdIsTruncated | src/handlers/buttons.js:82 | an id holding '_' is cut at that '_', so the button acts on the wrong id |
| ButtonHandler.SubmitButtonIsIgnored | src/handlers/buttons.js:82-91 | the wizard's `schedule_submit` button does nothing |
| ButtonHandler.ContinueOffersAllTimeSlots | src/handlers/buttons.js:57-80 | step 2 offers the 25 time options, and the slice removes none of them |
| ButtonHandler.JoinButtonRunsJoinFlow | src/handlers/buttons.js:87-88 | a join button runs the shared join flow on its id, under the fetched game's team-size cap, with a reminder |
| ButtonHandler.JoinButtonUsesTeamSizeCap | src/handlers/buttons.js:124-138 | a button join is capped by the team size's player count and arms a reminder |
| SelectMenuHandler.HandleSelectMenu | src/handlers/selectMenus.js:11-91 | `schedule_` ids go to the wizard (the corrected `HandleScheduleSelect` of the schedule.js Findings row); `games_select` shows the game with the button that matches membership; `join_select` joins without a reminder |
| SelectMenuHandler.GamesSelectOffersTheRightButton | src/handlers/selectMenus.js:30-36 | the details view offers leaving exactly to participants |
| SelectMenuHandler.JoinSelectMatchesJoinButton | src/handlers/selectMenus.js:46-85 | the join select admits exactly when the join button would, with the same result apart from the reminder |
| SelectMenuHandler.TimeSelectIsIgnored | src/handlers/schedule.js:69-181 | the `schedule_time` select of step 2 has no case in the wizard: nothing is stored or drawn |
| ScheduleWizard.GetState | src/handlers/schedule.js:13-29 | the stored document when it can be read, `{}` otherwise |
| ScheduleWizard.SaveState | src/handlers/schedule.js:33-50 | a merge write of the user's document that leaves other users' documents alone; a failed write changes nothing |
| ScheduleWizard.ClearState | src/handlers/schedule.js:53-67 | the user's document is deleted and nothing else changes; a failed delete changes nothing |
| ScheduleWizard.SaveThenGet | src/handlers/schedule.js:74-84 | reading right after a merge write gives the stored state merged with the written one |
| ScheduleWizard.MergeField | src/handlers/schedule.js:39 | a merge keeps a stored field that the write leaves undefined |
| ScheduleWizard.FillIn | src/handlers/schedule.js:116-119 | a falsy field gets its default, and a truthy one is kept |
| ScheduleWizard.SettingsTouchOnlyTheirField | src/handlers/schedule.js:76-111 | a step-1 selection sets its own field, changes nothing else and draws step 1 |
| ScheduleWizard.DateTimeSelectionsFillDefaults | src/handlers/schedule.js:113-169 | a step-2 selection sets its field, fills the other missing settings with their defaults, and never overwrites a present value |
| ScheduleWizard.DrawStep2 | src/handlers/schedule.js:246-320 | the submit button appears iff date, hour and minute are all set |
| ScheduleWizard.HourLabelAgreesWithTimeOptions | src/handlers/schedule.js:301-304 | step 2 renders every hour of the day in the 12-hour clock the way the time options do |
| ScheduleWizard.HandleScheduleSelect | src/handlers/schedule.js:69-181 | an unknown id leaves the store alone; otherwise a merge write of the changed state, with the step drawn from the state read back |
| ScheduleWizard.HourSelectionShowsSubmit | src/handlers/schedule.js:130-148 | when storage works, an hour selection leads to the submit button |
| ScheduleWizard.HandleScheduleSelectAsWritten | src/handlers/schedule.js:3 | as the repository has it: the store changes as in the corrected handler; step-1 selections are unaffected; a step-2 selection ends in the catch block's error reply, and step 2 is never drawn |
| ScheduleWizard.HourSelectionFailsAsWritten | src/handlers/schedule.js:267 | where the corrected handler shows step 2 with the submit button, the code as written stores the same state and answers with the error reply |
| ScheduleWizard.UnavailableStoreForgetsSelections | src/handlers/schedule.js:13-17 | without a store, step 1 always shows the defaults, whatever was selected |
| ScheduleWizard.FailedReadKeepsStoredFields | src/handlers/schedule.js:18-28 | a failed first read still keeps the stored fields the selection does not touch |
| ScheduleWizard.FinalizeScheduleGame | src/handlers/schedule.js:322-428 | refuses iff there is no hour, or the instant is not after now; otherwise creates the game with defaults, failing with the backend's error; a reminder iff the new game can be read back; the state store is cleared after a creation and otherwise left as it was |
| ScheduleWizard.FinalizeRejectsBeforeBackend | src/handlers/schedule.js:330-362 | a missing hour or a past instant is refused whatever the backend would do |
| ScheduleWizard.StateClearedOnlyAfterCreation | src/handlers/schedule.js:369-391 | a refusal or a failed creation (the throw skips `clearScheduleState`) leaves the store as it was; a stored state is gone afterwards iff the game was created and the delete succeeded; other users' states are untouched |
| ScheduleWizard.TimestampExample | src/handlers/schedule.js:345-346 | date 2025-06-01, hour 14 and no minute are sent as "2025-06-01T14:00:00.000Z" |
| Reminders.ReminderTime | src/handlers/reminders.js:25 | the reminder is ten minutes before the game, and NaN propagates |
| Reminders.Register | src/handlers/reminders.js:32-58 | a timer iff the game has a truthy id; the entry is appended to the user's list and other users are untouched |
| Reminders.ScheduleReminderAsWritten | src/handlers/reminders.js:12-62 | the reminder as the code arms it: a timer only with a truthy game id, and then one more entry in the user's list |
| Reminders.UnparsableDateIsScheduled | src/handlers/reminders.js:22-30 | for every game with a truthy date that does not parse and a truthy id, the as-written test lets it through: it is registered with NaN times and a timer that fires after 1 ms |
| Reminders.ScheduleReminder | src/handlers/reminders.js:12-62 | a timer iff a client is set, the date parses, the game has an id and the reminder falls in the next six hours; the entry is appended; other users are untouched |
| Reminders.AsWrittenAgreesOnParsableDates | src/handlers/reminders.js:28-30 | on every parsable date the written and the intended window tests agree |
| Reminders.RepeatedScheduleDuplicates | src/handlers/reminders.js:36-42 | scheduling the same game twice registers it twice |
| Reminders.FireReminder | src/handlers/reminders.js:44-58 | after a sent DM, each entry of the user's list for another game keeps its multiplicity and order, entries for that game are gone, other users are untouched; a failed DM changes nothing |
| Reminders.FireFilters | src/handlers/reminders.js:50-54 | a sent reminder replaces the user's list by its entries for other games |
| Reminders.FireUndoesSchedule | src/handlers/reminders.js:36-54 | scheduling and then firing restores the user's list when it held no entry for that game |
| Wc3Stats.FetchActiveLobbies | src/services/wc3stats.js:9-40 | the lobbies iff the response is ok, the status is "OK" and the body is an array |
| Wc3Stats.FilterITTGames | src/services/wc3stats.js:47-56 | nothing for a non-array; otherwise the ITT lobbies in order; an error iff some map makes the callback throw |
| Wc3Stats.FilterITTGamesMembership | src/services/wc3stats.js:52-55 | a lobby survives iff it was listed and its map is an ITT map |
| Wc3Stats.FilterITTGamesKeepsOrder | src/services/wc3stats.js:52-55 | the survivors keep the listing's order |
| Wc3Stats.FilterITTGamesIdempotent | src/services/wc3stats.js:47-56 | filtering the survivors again keeps all of them |
| Wc3Stats.IsITTMapIgnoresCase | src/services/wc3stats.js:53-54 | a map and its upper-cased spelling are filtered alike |
| NotificationStore.Sweep | src/handlers/lobbyMonitor.js:185-210 | the cleanup keeps exactly the records notified at or after the cut-off, unchanged, and counts the deleted ones; a failure deletes nothing |
| NotificationStore.SweepIdempotent | src/handlers/completedGamesMonitor.js:240-265 | a second cleanup with the same cut-off deletes nothing more |
| NotificationStore.Record | src/handlers/lobbyMonitor.js:154-179 | a record is written only online, with a valid id and a successful write; otherwise nothing changes |
| NotificationStore.DeliverAll | src/handlers/lobbyMonitor.js:85-104 | announced are the entities whose send succeeded; exactly the keys written by them are added, stamped now; other records are kept |
| NotificationStore.DeliverAllWritesBuiltFields | src/handlers/completedGamesMonitor.js:121-157 | whatever holds of each record a monitor builds holds of every record the tick wrote |
| NotificationStore.NoSendNoChange | src/handlers/lobbyMonitor.js:85-103 | when no send goes out, the loop delivers nothing and writes no record |
| Settings.ConfigAsWrittenSwitchesOff | src/config.js:1-33 | none of the monitors' names, `WC3STATS_API_BASE` or the Firebase names is exported, so neither monitor guard passes, the lobby list URL is "undefined/gamelist", and Firestore is initialised only if an app already exists |
| Settings.GamelistUrl | src/services/wc3stats.js:10 | the requested URL is the base followed by "/gamelist" |
| LobbyMonitor.NotifiedLobbyIds | src/handlers/lobbyMonitor.js:118-147 | exactly the `lobbyId` values of the records from the last hour whose `lobbyId` is truthy; empty offline or on a failed query |
| LobbyMonitor.ExpiredLobbyIsAnnouncedAgain | src/handlers/lobbyMonitor.js:125-128 | a listed lobby whose every record is older than one hour is announced again by a tick that proceeds |
| LobbyMonitor.LobbyRecord | src/handlers/lobbyMonitor.js:154-179 | the record copies the lobby's id, map, host and server; the creation time is `created` seconds in ms, or now |
| LobbyMonitor.CheckLobbies | src/handlers/lobbyMonitor.js:42-112 | nothing past a failed guard; otherwise the not-yet-notified ITT lobbies are tried in listing order, and only the ones sent are recorded |
| LobbyMonitor.ConfigAsWrittenNeverAnnounces | src/handlers/lobbyMonitor.js:42-45 | with the monitoring names `config.js` does not export, a tick announces nothing and leaves the store alone, whatever wc3stats lists (the as-written half of a Findings row) |
| LobbyMonitor.ConfigurationDecidesAnnouncement | src/handlers/lobbyMonitor.js:42-45 | a listed ITT lobby not announced in the last hour is attempted iff monitoring is enabled, the client is set and a channel id is given, and announced iff in addition its send goes out (the corrected half of the config Findings row) |
| LobbyMonitor.EmbedAsWrittenAnnouncesNothing | src/handlers/lobbyMonitor.js:85-103 | with `createLobbyEmbed` not exported, every tick announces nothing, records nothing, and the next tick attempts the same lobbies (the as-written half of the embed Findings row) |
| LobbyMonitor.CleanupOldNotifications | src/handlers/lobbyMonitor.js:185-210 | keeps exactly the records of the last 24 hours, unchanged |
| LobbyMonitor.WrittenRecordsCarryId | src/handlers/lobbyMonitor.js:154-169 | every record a tick writes stores the lobby id it is filed under |
| LobbyMonitor.DeliveredLobbyNotRepeatedWithinHour | src/handlers/lobbyMonitor.js:74-104 | a lobby recorded by a tick counts as notified for the next hour |
| LobbyMonitor.TickPreservesWellKeyed | src/handlers/lobbyMonitor.js:154-169 | a tick keeps every record filed under its own lobby id |
| LobbyMonitor.FalsyIdLobbyAlwaysAnnounced | src/handlers/lobbyMonitor.js:74-75 | a listed lobby with a falsy id is announced by every tick that proceeds |
| LobbyMonitor.UnrecordedLobbyIsRetried | src/handlers/lobbyMonitor.js:85-104 | a new lobby whose record was not written is announced by any later tick that lists it |
| LobbyMonitor.RerunAnnouncesNothing | src/handlers/lobbyMonitor.js:42-112 | re-running a fully successful tick on the same listing at the same instant announces nothing |
| LobbyMonitor.CleanupKeepsDedupWindow | src/handlers/lobbyMonitor.js:192-200 | the 24-hour cleanup never removes a record the one-hour window still counts |
| CompletedGamesMonitor.NotifiedGameIds | src/handlers/completedGamesMonitor.js:172-201 | exactly the `String(gameId)` of the records from the last 24 hours whose gameId is truthy; empty offline or on a failed query |
| CompletedGamesMonitor.ExpiredGameIsAnnouncedAgain | src/handlers/completedGamesMonitor.js:180-182 | a fetched game with an id, whose every record is older than 24 hours, is announced again by a tick that proceeds |
| CompletedGamesMonitor.ParseDate | src/handlers/completedGamesMonitor.js:98-114 | 0 when missing or unparsable; numbers under the year-2000 threshold are seconds; `{seconds, nanoseconds}` gives ms |
| CompletedGamesMonitor.MergeValue | src/handlers/completedGamesMonitor.js:215-224 | a merge write keeps the stored value of an undefined field |
| CompletedGamesMonitor.GameFields | src/handlers/completedGamesMonitor.js:208-234 | the record is keyed by `String(gameId)`, copies name, category and map, and keeps stored fields the game lacks |
| CompletedGamesMonitor.CheckCompletedGames | src/handlers/completedGamesMonitor.js:52-166 | nothing past a failed guard; otherwise the new games, a permutation sorted oldest first and stable on ties, each recorded only after its send |
| CompletedGamesMonitor.ConfigAsWrittenNeverAnnounces | src/handlers/completedGamesMonitor.js:52-55 | with the monitoring names `config.js` does not export, a tick announces nothing and leaves the store alone, whatever the ITT API returns (the as-written half of a Findings row) |
| CompletedGamesMonitor.ConfigurationDecidesAnnouncement | src/handlers/completedGamesMonitor.js:52-55 | a fetched game with an id, not announced in the last 24 hours, is attempted iff monitoring is enabled, the client is set and a channel id is given, and announced iff in addition its send goes out (the corrected half) |
| CompletedGamesMonitor.EmbedAsWrittenAnnouncesNothing | src/handlers/completedGamesMonitor.js:121-158 | with `createCompletedGameEmbed` not exported, every tick announces nothing, records nothing, and the next tick attempts the same games (the as-written half) |
| CompletedGamesMonitor.CleanupOldCompletedGameNotifications | src/handlers/completedGamesMonitor.js:240-265 | keeps exactly the records of the last seven days, unchanged |
| CompletedGamesMonitor.WrittenRecordsKeyed | src/handlers/completedGamesMonitor.js:208-224 | every record a tick writes carries its own id as gameId |
| CompletedGamesMonitor.TickPreservesWellKeyed | src/handlers/completedGamesMonitor.js:208-224 | a tick keeps every record keyed by its own gameId |
| CompletedGamesMonitor.DeliveredNotRepeatedWithinWindow | src/handlers/completedGamesMonitor.js:84-87 | a game recorded by a tick is not announced again within 24 hours |
| CompletedGamesMonitor.RerunAnnouncesNothing | src/handlers/completedGamesMonitor.js:52-166 | re-running a fully successful tick on the same list at the same instant announces nothing |
| CompletedGamesMonitor.UnrecordedGameIsRetried | src/handlers/completedGamesMonitor.js:121-157 | a new game whose record was not written is tried again by any later tick that sees it |
| CompletedGamesMonitor.OfflineStoreAnnouncesEverything | src/handlers/completedGamesMonitor.js:173-176 | with Firestore offline, every game with an id is announced on every tick |
| CompletedGamesMonitor.CleanupKeepsDedupWindow | src/handlers/completedGamesMonitor.js:247-257 | the seven-day cleanup never removes a record the 24-hour window still counts |
| StableSort.Sort | src/handlers/completedGamesMonitor.js:97-119 | a sorted permutation of the input |
| StableSort.SortStable | src/handlers/completedGamesMonitor.js:97-119 | games with equal keys keep their relative order |
| TimeUtil.To24 | src/utils/time.js:9-13 | pm adds 12 except to 12, and 12 am is hour 0 |
| TimeUtil.TwelveHourRoundTrip | src/utils/time.js:120-122 | every hour's 12-hour label reads back through parseTime's conversion as that hour |
| TimeUtil.ParseTime | src/utils/time.js:2-39 | throws exactly on input without a digit, with the message "Could not parse time: " and the input |
| TimeUtil.ParseTimeBareHour | src/utils/time.js:24-37 | a bare hour such as "20" reads as that hour, minute 0 |
| TimeUtil.ParseTimePeriodOnly | src/utils/time.js:3-16 | "8pm", "12 AM" and the like (an hour, any white space, a period in any case) convert to the 24-hour clock, minute 0 |
| TimeUtil.NoMatchWithoutDigit | src/utils/time.js:3-18 | without a digit neither the am/pm pattern nor the hour:minute pattern matches |
| TimeUtil.NoColonNoClockMatch | src/utils/time.js:18 | without a colon the hour:minute pattern never matches |
| TimeUtil.ParseTimeClock | src/utils/time.js:18-22 | "H:MM" reads as that hour and minute |
| TimeUtil.ParseTimeWithPeriod | src/utils/time.js:3-16 | "H:MM am/pm", in any case and with any white space before the period, converts to the 24-hour clock |
| TimeUtil.ParseTimeHalfPastMidnight | src/utils/time.js:11-12 | "12:30am" is 00:30 |
| TimeUtil.ParseTimeNoon | src/utils/time.js:9-10 | "12:00pm" is 12:00 |
| TimeUtil.FirstDigit | src/utils/time.js:24 | the position of the first digit, with none before it |
| TimeUtil.GetTimeOptions | src/utils/time.js:103-129 | 25 options, each the slot of the nested loops at that position |
| TimeUtil.TimeOptions | src/utils/time.js:103-129 | exactly 25 options |
| TimeUtil.TimeOptionsShape | src/utils/time.js:106-124 | option k is "HH:MM" for the k/2-th ordered hour and minute 00 or 30, described as the value plus " UTC", labelled in the 12-hour clock |
| TimeUtil.TimeOptionsEnds | src/utils/time.js:106-110 | the options run from 14:00 to 00:00 |
| Format.MinutesTotal | src/utils/format.js:39 | the whole number of minutes nearest the difference, halves rounded up |
| Format.FormatTimeUntil | src/utils/format.js:32-51 | empty iff the input is falsy; "NaNm ago" for an unparsable date; otherwise "in …" or "… ago" around the duration |
| Format.PartsShape | src/utils/format.js:40-45 | the parts read back as hours * 60 + minutes = the total, with minutes below 60 |
| Format.DurationNotEmpty | src/utils/format.js:45 | a duration always shows at least one part |
| Format.DurationSymmetric | src/utils/format.js:39 | a future and a past instant equally far away share the duration |
| Format.FutureWholeMinutes | src/utils/format.js:44-48 | h hours and m minutes ahead renders as "in", then the hours and minutes |
| Format.PastIsAgo | src/utils/format.js:47-50 | an instant at or before now renders "… ago" |
| Format.FormatGameTime | src/utils/format.js:11-25 | "Unknown Time" for a falsy input, and the locale rendering otherwise |
| Logger.FormatMeta | src/utils/logger.js:12-28 | empty iff no entry is defined; otherwise a bar separator and the defined entries as key=value, in order |
| Logger.FormatError | src/utils/logger.js:30-38 | empty iff the error is falsy; `name: message` for an Error; `String(error)` otherwise |
| Logger.TimeString | src/utils/logger.js:5-10 | "hh:mm" that reads back as the hour and the minute |
| Logger.LogLine | src/utils/logger.js:40-67 | no line iff debug outside development; otherwise level, "hh:mm" and message joined by bars, then the error (for error only) and the metadata |
| Logger.UndefinedEntryIsDropped | src/utils/logger.js:18-19 | an undefined entry changes nothing |
| Logger.DefinedEntryIsAppended | src/utils/logger.js:18-27 | a defined entry appends " key=value", or starts the metadata with the bar separator and "key=value" |
| Logger.ErrorRendersAsItsString | src/utils/logger.js:33-37 | an Error renders as the string "name: message" would; this equals `String(error)` (`Error.prototype.toString`) iff both name and message are non-empty |
| Logger.StringMetaListsCharacters | src/utils/logger.js:18 | a non-empty string as metadata renders " \| " and `i=c` for each character, in order and space-separated; the empty string renders nothing |

## Left out

- TimeUtil.TimeOptions: its own contract gives only the length; the contents are stated by `TimeOptionsShape` and `GetTimeOptions`.
- The monitor properties assume a configuration that provides the monitoring names (`World.configured`), a wc3stats response and an online store. The repository's `config.js` provides none of them (see Findings and `Settings`).
- A monitor's `sendOk` stands for building the embed and `channel.send` together: both happen inside the same per-entity `try`. As written, building the embed always throws (see Findings, `EmbedAsWritten`).
- Discord, the ITT backend (`api.js`), Firestore and the wc3stats HTTP call are not modelled. Their answers are parameters (`Api`, `World`, `StoreIo`, `Response`), and a thrown call is an error value.
- Timers, `setInterval` scheduling and the clock are left out. Each tick or callback is a function of a `now` parameter.
- `Date` parsing and `toLocaleString` belong to the JavaScript runtime. They are passed in as functions: `parseDateString`, `localeString` and `dateOf`.
- `getDateOptions` and `buildJoinSelectMenu` are not modelled. Step 2 and `/join` without an id take their results as given.
- `getHourOptions` and `getMinuteOptions` are imported by `schedule.js` but do not exist in `utils/time.js` (see Findings). The corrected step 2 (`ScheduleWizard.DrawStep2`) takes their options as given.
- `ensureUserExists` is not modelled: `api.js` is not part of this model, and the handlers ignore its result.
- The `toDate()` branch of `parseDate` (Firestore Timestamp objects) is not modelled. Nanoseconds are converted to milliseconds with integer division rather than floating-point division. A `nanoseconds` value that is not a number counts as 0 (`CompletedGamesMonitor.NanosMs`), where JavaScript gives NaN for a truthy non-number and coerces a numeric string.
- `null` elements inside lists (participants, lobbies, games) are not modelled. Every element is a record.
- `Object.entries` lists integer-like keys first in JavaScript. The model keeps the fields in the order given.
- `parseInt` precision beyond 2^53 is not modelled: numbers are unbounded integers.
- Case conversion covers ASCII letters only.
- Only `/games` is registered with Discord (`index.js:46-49`). `/join` and `/leave` are modelled anyway, since their handlers exist.
- `finalizeScheduleGame` is modelled, but no handler calls it: the `schedule_submit` button is routed nowhere (see `ButtonHandler.SubmitButtonIsIgnored`).
- The informational `completedAt` field of completed-game records is not modelled. It is never read back.
- The start-up wiring in `index.js` is not modelled. Only the lobby monitor is started there (line 75); the completed-games monitor is modelled but never started.
- Reply texts, embed colours, emoji, ephemeral flags and deferral of interactions are not modelled. Neither are log lines other than through `Logger`.
- The completed-game field `map` is called `mapName` in the model.

## Findings

| source | as written | input that shows it | evidently intended | confidence | as-written member | corrected member |
|---|---|---|---|---|---|---|
| src/handlers/schedule.js:267-277 | `updateScheduleStep2` calls `getHourOptions()` and `getMinuteOptions()`, imported at line 3 from `utils/time.js`, which exports neither (only `parseTimeToUTC`, `getDateOptions` and `getTimeOptions`). Under native ES modules the import is a link error, so the module does not load. If the names resolve to undefined instead, every step-2 selection is stored, then drawing step 2 throws and the catch block replies "An error occurred while saving your selection" with no components | any `schedule_date`, `schedule_hour` or `schedule_minute` selection | step 2 is redrawn with the selection, and the submit button appears once date, hour and minute are set | not executed | ScheduleWizard.HandleScheduleSelectAsWritten, ScheduleWizard.HourSelectionFailsAsWritten | ScheduleWizard.HandleScheduleSelect, ScheduleWizard.DrawStep2 |
| src/config.js:1-33 | `config.js` exports none of the names imported by `lobbyMonitor.js:1` (`LOBBY_NOTIFICATION_CHANNEL_ID`, `LOBBY_CHECK_INTERVAL`, `LOBBY_MONITORING_ENABLED`), `completedGamesMonitor.js:1` (the three `COMPLETED_GAMES_*` names), `services/wc3stats.js:2` (`WC3STATS_API_BASE`) and `firebase.js:3` (`FIREBASE_SERVICE_ACCOUNT_KEY`, `FIREBASE_PROJECT_ID`). Under native ES modules each import is a link error, and `index.js` imports `lobbyMonitor.js`, so the bot does not start. If the names read as undefined instead, neither monitor passes its guard, wc3stats is asked for "undefined/gamelist", and Firestore is never initialised, so the store is offline | any monitor tick, in any environment | the names are read from the environment like the others in `config.js`, and a tick attempts the new lobbies and games | not executed | Settings.ConfigAsWrittenSwitchesOff, LobbyMonitor.ConfigAsWrittenNeverAnnounces, CompletedGamesMonitor.ConfigAsWrittenNeverAnnounces | LobbyMonitor.ConfigurationDecidesAnnouncement, CompletedGamesMonitor.ConfigurationDecidesAnnouncement |
| src/handlers/lobbyMonitor.js:85-103 | `lobbyMonitor.js:5` imports `createLobbyEmbed` and `completedGamesMonitor.js:5` imports `createCompletedGameEmbed` from `components/embeds.js`, which exports only `createGameEmbed` and `createGameButtons`. Under native ES modules this is a link error. If the names read as undefined instead, the call at `lobbyMonitor.js:87` (and `completedGamesMonitor.js:133`) throws inside the per-entity `try`, before `channel.send`; the catch only logs, so nothing is announced or recorded and every tick retries the same entities | any tick that passes the guards and finds a new lobby or completed game | each new entity is sent once and then recorded, so it is not announced again within the dedup window | not executed | LobbyMonitor.EmbedAsWrittenAnnouncesNothing, CompletedGamesMonitor.EmbedAsWrittenAnnouncesNothing | LobbyMonitor.DeliveredLobbyNotRepeatedWithinHour, LobbyMonitor.RerunAnnouncesNothing, CompletedGamesMonitor.RerunAnnouncesNothing |
| src/handlers/reminders.js:22-30 | the window test rejects a delay only when `delayMs <= 0` or `delayMs > MAX_REMINDER_WINDOW_MS`, both false for a NaN delay, so an unparsable date passes and a reminder is registered, with a timer that fires after 1 ms | a joined game whose `scheduledDateTimeString` is "not a date" | only a reminder instant within the next six hours is scheduled | not executed | Reminders.ScheduleReminderAsWritten, Reminders.UnparsableDateIsScheduled | Reminders.ScheduleReminder |

=== FILE: admission.dfy ===
/**
 * The admission rules the join and leave handlers apply to a game before they
 * call the backend. The `/join` command caps every game at two participants;
 * the join button and the join select menu cap it at the number of players its
 * team size describes ("2v2" holds four), and impose no cap when the team size
 * does not parse.
 */
module Admission {
  import opened Wrappers
  import opened Js
  import opened Games
  import Config

  datatype JoinVerdict = JoinNotScheduled | AlreadyJoined | Full | Admit

  datatype LeaveVerdict = LeaveNotScheduled | NotJoined | Release

  /** `game.gameState === 'scheduled'` (strict equality: only the string counts). */
  predicate IsScheduled(g: Game)
  {
    g.gameState == Str("scheduled")
  }

  /**
   * `maxPlayers && participants.length >= maxPlayers`: a missing (null) or zero
   * cap admits any number.
   */
  predicate AtCap(count: nat, cap: Option<int>)
  {
    cap.Some? && cap.value != 0 && count >= cap.value
  }

  /** The checks in the order the handlers make them: state, membership, capacity. */
  function CheckJoin(g: Game, userId: string, cap: Option<int>): (v: JoinVerdict)
    ensures v == Admit <==>
              IsScheduled(g) && !HasParticipant(ParticipantsOf(g), userId) && !AtCap(|ParticipantsOf(g)|, cap)
    ensures v == JoinNotScheduled <==> !IsScheduled(g)
    ensures v == AlreadyJoined <==> IsScheduled(g) && HasParticipant(ParticipantsOf(g), userId)
    ensures v == Full ==> cap.Some? && cap.value != 0 && cap.value <= |ParticipantsOf(g)|
  {
    if !IsScheduled(g) then JoinNotScheduled
    else if HasParticipant(ParticipantsOf(g), userId) then AlreadyJoined
    else if AtCap(|ParticipantsOf(g)|, cap) then Full
    else Admit
  }

  function CheckLeave(g: Game, userId: string): (v: LeaveVerdict)
    ensures v == Release <==> IsScheduled(g) && HasParticipant(ParticipantsOf(g), userId)
  {
    if !IsScheduled(g) then LeaveNotScheduled
    else if !HasParticipant(ParticipantsOf(g), userId) then NotJoined
    else Release
  }

  /** The cap of the join button and the join select menu: the team size's player count. */
  function TeamSizeCap(g: Game): Option<int>
  {
    MaxPlayersFromTeamSize(g.teamSize)
  }

  /** The cap of the `/join` command, whatever the team size. */
  const COMMAND_CAP: Option<int> := Some(Config.COMMAND_JOIN_CAP as int)

  // ---------------------------------------------------------------- properties

  /** On a scheduled game a user may leave exactly when a join would say "already joined". */
  lemma LeaveIffAlreadyJoined(g: Game, userId: string, cap: Option<int>)
    requires IsScheduled(g)
    ensures CheckLeave(g, userId) == Release <==> CheckJoin(g, userId, cap) == AlreadyJoined
  {
  }

  /** A game that is not scheduled refuses both joins and leaves, for any cap. */
  lemma UnscheduledRefusesBoth(g: Game, userId: string, cap: Option<int>)
    requires !IsScheduled(g)
    ensures CheckJoin(g, userId, cap) == JoinNotScheduled && CheckLeave(g, userId) == LeaveNotScheduled
  {
  }

  /** Raising the cap never turns an admission into a refusal; having no cap admits most. */
  lemma LargerCapAdmitsMore(g: Game, userId: string, small: int, large: int)
    requires 0 < small <= large
    ensures CheckJoin(g, userId, Some(small)) == Admit ==> CheckJoin(g, userId, Some(large)) == Admit
    ensures CheckJoin(g, userId, Some(small)) == Admit ==> CheckJoin(g, userId, None) == Admit
  {
  }

  /** A team size with no digit in it imposes no cap on the button and menu joins. */
  lemma UnparsableTeamSizeNoCap(g: Game, userId: string)
    requires g.teamSize.Str? && forall k :: 0 <= k < |g.teamSize.s| ==> !Text.IsDigit(g.teamSize.s[k])
    ensures CheckJoin(g, userId, TeamSizeCap(g)) == Admit <==>
              IsScheduled(g) && !HasParticipant(ParticipantsOf(g), userId)
  {
    NoDigitNoCap(g.teamSize.s);
  }

  /** The participants list of a scheduled "2v2" game holding two players who are not the user. */
  function TwoOfFour(userId: string): Game
  {
    Game(Str("g1"), Num(1), Str("scheduled"), Str("2v2"), Str("elo"),
         Some([Participant(Str(userId + "a"), Str("A")), Participant(Str(userId + "b"), Str("B"))]),
         Undefined, Undefined, Undefined)
  }

  /**
   * The two caps disagree: on a "2v2" game with two players the join button
   * admits a third player (the team size allows four) while the `/join`
   * command refuses the game as full.
   */
  lemma CapsDisagreeOnTwoVersusTwo(userId: string)
    ensures CheckJoin(TwoOfFour(userId), userId, TeamSizeCap(TwoOfFour(userId))) == Admit
    ensures CheckJoin(TwoOfFour(userId), userId, COMMAND_CAP) == Full
  {
    TwoVersusTwoCap();
    TwoOfFourLacksUser(userId);
  }

  lemma TwoOfFourLacksUser(userId: string)
    ensures |ParticipantsOf(TwoOfFour(userId))| == 2
    ensures !HasParticipant(ParticipantsOf(TwoOfFour(userId)), userId)
  {
    var ps := ParticipantsOf(TwoOfFour(userId));
    assert ps[0].discordId != Str(userId) by {
      assert |ps[0].discordId.s| == |userId| + 1;
    }
    assert ps[1].discordId != Str(userId) by {
      assert |ps[1].discordId.s| == |userId| + 1;
    }
  }

  /** For "1v1" games the two caps coincide: both stop at two players. */
  lemma CapsAgreeOnOneVersusOne(g: Game, userId: string)
    requires g.teamSize == Str("1v1")
    ensures CheckJoin(g, userId, TeamSizeCap(g)) == CheckJoin(g, userId, COMMAND_CAP)
  {
    OneVersusOneCap();
  }
}

=== FILE: buttons.dfy ===
/**
 * `handleButton` of `handlers/buttons.js`: the two wizard buttons by their
 * exact custom ids, then every other id split on '_' into an action and a game
 * id, of which only "join" and "leave" do anything.
 */
module ButtonHandler {
  import opened Wrappers
  import opened Js
  import opened Text
  import opened Seqs
  import opened Games
  import opened Admission
  import opened Participation
  import Embeds
  import ScheduleWizard
  import TimeUtil
  import Config

  datatype Route =
    | ScheduleGame
    | ScheduleContinue
    | JoinButton(gameId: Value)
    | LeaveButton(gameId: Value)
    | Unhandled

  /** `const [action, gameId] = customId.split('_')`: the first two pieces; a missing second one is `undefined`. */
  function ActionOf(customId: string): (r: (string, Value))
    ensures r.0 == Split(customId, '_')[0]
    ensures |Split(customId, '_')| > 1 ==> r.1 == Str(Split(customId, '_')[1])
    ensures |Split(customId, '_')| == 1 ==> r.1 == Undefined
  {
    var parts := Split(customId, '_');
    (parts[0], if |parts| > 1 then Str(parts[1]) else Undefined)
  }

  function RouteButton(customId: string): (r: Route)
    ensures r == ScheduleGame <==> customId == "schedule_game"
    ensures r == ScheduleContinue <==> customId == "schedule_continue"
    ensures r.JoinButton? <==> customId != "schedule_game" && customId != "schedule_continue" && ActionOf(customId).0 == "join"
    ensures r.LeaveButton? <==> customId != "schedule_game" && customId != "schedule_continue" && ActionOf(customId).0 == "leave"
    ensures r.JoinButton? || r.LeaveButton? ==> r.gameId == ActionOf(customId).1
  {
    if customId == "schedule_game" then ScheduleGame
    else if customId == "schedule_continue" then ScheduleContinue
    else
      var (action, gameId) := ActionOf(customId);
      if action == "join" then JoinButton(gameId)
      else if action == "leave" then LeaveButton(gameId)
      else Unhandled
  }

  /** What pressing the button did. */
  datatype ButtonOutcome =
    | WizardStarted(store: ScheduleWizard.StateStore)      // step 1 shown after the state was cleared
    | Step2Shown(timeOptions: seq<TimeUtil.TimeOption>)    // the date and time selects (dates are not modelled)
    | JoinHandled(join: JoinOutcome)
    | LeaveHandled(leave: LeaveOutcome)
    | Ignored

  /** The cap of the button and menu joins, once the game is known. */
  function FetchedCap(fetched: Result<Game>): Option<int>
  {
    if fetched.Ok? then TeamSizeCap(fetched.value) else None
  }

  /**
   * `handleButton` for user `userId`. `schedule_game` clears the user's wizard
   * state; `schedule_continue` offers at most 25 time options; a join or leave
   * button runs the shared flow on the id taken from the custom id, with the
   * team-size cap and a reminder after a join.
   */
  function HandleButton(customId: string, userId: string, store: ScheduleWizard.StateStore, deleteOk: bool,
                        api: Api, apiBase: string): (r: ButtonOutcome)
    ensures r.WizardStarted? <==> customId == "schedule_game"
    ensures r.WizardStarted? ==> r.store == ScheduleWizard.ClearState(store, userId, deleteOk)
    ensures r.Step2Shown? ==> |r.timeOptions| <= Config.MAX_SELECT_OPTIONS
    ensures r.Ignored? <==> RouteButton(customId) == Unhandled
  {
    match RouteButton(customId)
    case ScheduleGame => WizardStarted(ScheduleWizard.ClearState(store, userId, deleteOk))
    case ScheduleContinue => Step2Shown(Take(TimeUtil.TimeOptions(), Config.MAX_SELECT_OPTIONS))
    case JoinButton(gameId) =>
      var fetched := api.gameById(gameId);
      JoinHandled(JoinFlow(api, userId, fetched, FetchedCap(fetched), gameId, gameId, true, apiBase))
    case LeaveButton(gameId) =>
      LeaveHandled(LeaveFlow(api, userId, api.gameById(gameId), gameId, gameId, apiBase))
    case Unhandled => Ignored
  }

  // ---------------------------------------------------------------- properties

  predicate NoUnderscore(s: string)
  {
    forall k :: 0 <= k < |s| ==> s[k] != '_'
  }

  /** "join_<rest>" or "leave_<rest>" is never one of the two wizard ids. */
  lemma NotAWizardId(prefix: string, id: string)
    requires prefix == "join_" || prefix == "leave_"
    ensures prefix + id != "schedule_game" && prefix + id != "schedule_continue"
  {
    assert (prefix + id)[0] == prefix[0];
  }

  /**
   * The custom ids `createGameButtons` makes route back to the action and the
   * id they were made from, provided the id holds no '_'.
   */
  lemma ButtonRoundTrip(id: string, userJoined: bool, apiBase: string)
    requires NoUnderscore(id)
    ensures RouteButton(Embeds.CreateGameButtons(Str(id), userJoined, apiBase)[0].customId)
         == (if userJoined then LeaveButton(Str(id)) else JoinButton(Str(id)))
  {
    var action := if userJoined then "leave" else "join";
    var customId := Embeds.CreateGameButtons(Str(id), userJoined, apiBase)[0].customId;
    assert customId == action + "_" + id;
    NotAWizardId(action + "_", id);
    SplitAt(action, '_', id);
    assert customId == action + ['_'] + id;
  }

  /** An id holding '_' is cut at its first '_': the button acts on the wrong id. */
  lemma UnderscoreIdIsTruncated(a: string, b: string)
    requires NoUnderscore(a)
    ensures RouteButton("join_" + a + "_" + b) == JoinButton(Str(a))
  {
    var customId := "join_" + a + "_" + b;
    assert customId[0] == 'j';
    assert "join" + "_" == "join_";
    ActionOfPieces("join", a, b);
  }

  /** `action_a_b` with no '_' in `action` or `a` splits to `action` and `a`; the rest is dropped. */
  lemma ActionOfPieces(action: string, a: string, b: string)
    requires NoUnderscore(action) && NoUnderscore(a)
    ensures ActionOf(action + "_" + a + "_" + b) == (action, Str(a))
  {
    var rest := a + ['_'] + b;
    assert action + "_" + a + "_" + b == action + ['_'] + rest;
    SplitAt(action, '_', rest);
    SplitAt(a, '_', b);
  }

  /** The wizard's "Schedule Game" submit button (`schedule_submit`) has no handler: it splits to "schedule". */
  lemma SubmitButtonIsIgnored(userId: string, store: ScheduleWizard.StateStore, deleteOk: bool, api: Api, apiBase: string)
    ensures HandleButton("schedule_submit", userId, store, deleteOk, api, apiBase) == Ignored
  {
    SubmitSplitsToSchedule();
    assert |"schedule_submit"| == 15;
  }

  lemma SubmitSplitsToSchedule()
    ensures ActionOf("schedule_submit").0 == "schedule"
  {
    var s := "schedule_submit";
    IndexOfFirst(s, '_', 0, 8);
    assert s[..8] == "schedule";
  }

  /** Step 2 offers the 25 half-hour slots of `getTimeOptions`, the slice changing nothing. */
  lemma ContinueOffersAllTimeSlots(userId: string, store: ScheduleWizard.StateStore, deleteOk: bool, api: Api, apiBase: string)
    ensures HandleButton("schedule_continue", userId, store, deleteOk, api, apiBase) == Step2Shown(TimeUtil.TimeOptions())
  {
  }

  /** A join button made for `id` runs the join flow on `id`, capped by the fetched game, with a reminder. */
  lemma JoinButtonRunsJoinFlow(id: string, userId: string, store: ScheduleWizard.StateStore, deleteOk: bool,
                               api: Api, apiBase: string)
    requires NoUnderscore(id)
    ensures var fetched := api.gameById(Str(id));
            HandleButton("join_" + id, userId, store, deleteOk, api, apiBase)
              == JoinHandled(JoinFlow(api, userId, fetched, FetchedCap(fetched), Str(id), Str(id), true, apiBase))
  {
    ButtonRoundTrip(id, false, apiBase);
  }

  /**
   * A join button admits up to the team size's player count and arms a
   * reminder after joining; the fetched game decides the cap.
   */
  lemma JoinButtonUsesTeamSizeCap(id: string, userId: string, store: ScheduleWizard.StateStore, deleteOk: bool,
                                  api: Api, apiBase: string, g: Game)
    requires NoUnderscore(id) && api.gameById(Str(id)) == Ok(g)
    ensures var r := HandleButton("join_" + id, userId, store, deleteOk, api, apiBase);
            r == JoinHandled(JoinFlow(api, userId, Ok(g), TeamSizeCap(g), Str(id), Str(id), true, apiBase))
            && (r.join.Joined? ==> CheckJoin(g, userId, TeamSizeCap(g)) == Admit && r.join.reminderFor.Some?)
  {
    ButtonRoundTrip(id, false, apiBase);
  }
}

=== FILE: commands.dfy ===
/**
 * `handleSlashCommand` of `handlers/commands.js`: `/games` lists the first ten
 * scheduled games with a select menu of the listable ones; `/join` and
 * `/leave` resolve a game id that is either the public number or the internal
 * id and run the shared join or leave flow, the join capped at two players.
 */
module CommandHandler {
  import opened Wrappers
  import opened Js
  import opened Text
  import opened Seqs
  import opened Games
  import opened Admission
  import opened Participation
  import Format
  import Embeds
  import Menus
  import Config

  // ---------------------------------------------------------------- /games

  /** The marker a listing line carries for the caller's own games. */
  const YOU_TAG: string := " **(You are in this game)**"

  function YouTag(g: Game, userId: string): string
  {
    if HasParticipant(ParticipantsOf(g), userId) then YOU_TAG else ""
  }

  /** One line of the `/games` description, before the tag and the line break. */
  function Summary(g: Game, localeString: Value -> string): (r: string)
    ensures |r| > 0 && r[|r| - 1] == ')'
  {
    var text := "**Game #" + ToString(g.gameId) + "**: " + ToString(g.teamSize) + " " + ToString(g.gameType)
      + " at " + Format.FormatGameTime(RawDate(g), localeString) + " UTC ("
      + PlayersText(|ParticipantsOf(g)|, MaxPlayersFromTeamSize(g.teamSize));
    text + " players)"
  }

  function Line(g: Game, userId: string, localeString: Value -> string): string
  {
    Summary(g, localeString) + YouTag(g, userId) + "\n"
  }

  /** The line of each game, for one caller. */
  function LineFor(userId: string, localeString: Value -> string): Game -> string
  {
    g => Line(g, userId, localeString)
  }

  /** The strings `f` gives the elements of `gs`, concatenated in order. */
  function Concat(gs: seq<Game>, f: Game -> string): string
    decreases |gs|
  {
    if gs == [] then "" else Concat(gs[..|gs| - 1], f) + f(gs[|gs| - 1])
  }

  /**
   * The loop of `handleGamesCommand` that appends one line per game of
   * `games.slice(0, 10)`: the description holds the line of each of the first
   * ten games, in order.
   */
  method DescribeGames(games: seq<Game>, userId: string, localeString: Value -> string) returns (description: string)
    ensures description == Concat(Take(games, Config.GAMES_LIST_LIMIT), LineFor(userId, localeString))
  {
    var shown := Take(games, Config.GAMES_LIST_LIMIT);
    var f := LineFor(userId, localeString);
    description := "";
    var i := 0;
    while i < |shown|
      invariant 0 <= i <= |shown|
      invariant description == Concat(shown[..i], f)
    {
      ConcatPrefix(shown, i, f);
      description := description + f(shown[i]);
      i := i + 1;
    }
    assert shown[..i] == shown;
  }

  /** Concatenating over two runs is concatenating over the first, then over the second. */
  lemma {:induction false} ConcatAppend(a: seq<Game>, b: seq<Game>, f: Game -> string)
    ensures Concat(a + b, f) == Concat(a, f) + Concat(b, f)
    decreases |b|
  {
    if b == [] {
      assert a + b == a;
    } else {
      var init := b[..|b| - 1];
      ConcatAppend(a, init, f);
      assert (a + b)[..|a + b| - 1] == a + init;
      assert (a + b)[|a + b| - 1] == b[|b| - 1];
    }
  }

  /** The string of the game at `k` follows those of the games before it. */
  lemma ConcatPrefix(gs: seq<Game>, k: nat, f: Game -> string)
    requires k < |gs|
    ensures Concat(gs[..k + 1], f) == Concat(gs[..k], f) + f(gs[k])
  {
    assert gs[..k + 1][..k] == gs[..k];
  }

  /** Cutting the games in two cuts the concatenation in two. */
  lemma ConcatSplit(gs: seq<Game>, n: nat, f: Game -> string)
    requires n <= |gs|
    ensures Concat(gs, f) == Concat(gs[..n], f) + Concat(gs[n..], f)
  {
    assert gs[..n] + gs[n..] == gs;
    ConcatAppend(gs[..n], gs[n..], f);
  }

  /** Every game of `gs` has its string in the concatenation, between those of the games before and after it. */
  lemma ConcatAt(gs: seq<Game>, k: nat, f: Game -> string)
    requires k < |gs|
    ensures Concat(gs, f) == Concat(gs[..k], f) + f(gs[k]) + Concat(gs[k + 1..], f)
  {
    ConcatSplit(gs, k + 1, f);
    ConcatPrefix(gs, k, f);
  }

  predicate EndsWith(s: string, suffix: string)
  {
    |suffix| <= |s| && s[|s| - |suffix|..] == suffix
  }

  /** A summary ending in ')' ends with the tag line exactly when the tag was appended. */
  lemma TagIsRecognisable(summary: string, tag: string)
    requires |summary| > 0 && summary[|summary| - 1] == ')'
    requires tag == YOU_TAG || tag == ""
    ensures EndsWith(summary + tag + "\n", YOU_TAG + "\n") <==> tag == YOU_TAG
  {
    var line := summary + tag + "\n";
    var suffix := YOU_TAG + "\n";
    if tag == YOU_TAG {
      assert line[|line| - |suffix|..] == suffix;
    } else {
      assert line[|line| - 2] == ')';
      if |suffix| <= |line| {
        assert line[|line| - |suffix|..][|suffix| - 2] == line[|line| - 2];
      }
    }
  }

  /** A line ends with the "You are in this game" tag exactly when the caller takes part in that game. */
  lemma TagMarksOwnGames(g: Game, userId: string, localeString: Value -> string)
    ensures EndsWith(Line(g, userId, localeString), YOU_TAG + "\n") <==> HasParticipant(ParticipantsOf(g), userId)
  {
    TagIsRecognisable(Summary(g, localeString), YouTag(g, userId));
  }

  // ---------------------------------------------------------------- /join and /leave

  /** `/^\d+$/.test(gameId)`: the id is the game's public number. */
  predicate IsPublicId(s: string)
  {
    |s| > 0 && AllDigits(s)
  }

  /**
   * The game a `game_id` option names, with the internal id the command then
   * joins, leaves and refetches: a public number is looked up among the
   * scheduled games and replaced by the game's `id`; anything else is fetched
   * as an internal id, kept when the game carries no truthy `id`.
   */
  function Resolve(api: Api, gameId: Value): (r: Result<(Game, Value)>)
    ensures IsPublicId(ToString(gameId)) ==>
              (r.Ok? <==> api.gameByPublicId(DigitsValue(ToString(gameId))).Ok?) &&
              (r.Ok? ==> api.gameByPublicId(DigitsValue(ToString(gameId))) == Ok(r.value.0) && r.value.1 == r.value.0.id)
    ensures !IsPublicId(ToString(gameId)) ==>
              (r.Ok? <==> api.gameById(gameId).Ok?) &&
              (r.Ok? ==> api.gameById(gameId) == Ok(r.value.0) && r.value.1 == Or(r.value.0.id, gameId))
  {
    var text := ToString(gameId);
    if IsPublicId(text) then
      match api.gameByPublicId(DigitsValue(text))
      case Err(m) => Err(m)
      case Ok(g) => Ok((g, g.id))
    else
      match api.gameById(gameId)
      case Err(m) => Err(m)
      case Ok(g) => Ok((g, Or(g.id, gameId)))
  }

  /** The fetched game of a resolution, for the shared flows. */
  function Fetched(resolved: Result<(Game, Value)>): (r: Result<Game>)
    ensures r.Ok? <==> resolved.Ok?
    ensures r.Ok? ==> r.value == resolved.value.0
  {
    match resolved
    case Err(m) => Err(m)
    case Ok((g, _)) => Ok(g)
  }

  function InternalId(resolved: Result<(Game, Value)>, gameId: Value): Value
  {
    if resolved.Ok? then resolved.value.1 else gameId
  }

  // ---------------------------------------------------------------- dispatch

  datatype CommandOutcome =
    | GamesFailed(message: string)
    | NoGames
    | GamesListed(description: string, menu: Option<seq<Menus.MenuOption>>)
    | JoinListFailed(message: string)
    | JoinMenuShown(offered: bool)       // whether `buildJoinSelectMenu` gave a row
    | JoinDone(join: JoinOutcome)
    | LeaveDone(leave: LeaveOutcome)
    | NoCommand

  /**
   * What the handlers see of the outside: `scheduled` is `getScheduledGames()`
   * (an `Err` when it throws), `joinMenuFor` whether `buildJoinSelectMenu`
   * returns a row for these games and this user, and `localeString` the
   * date rendering of `formatGameTime`.
   */
  datatype Context = Context(
    api: Api,
    scheduled: Result<seq<Game>>,
    joinMenuFor: (seq<Game>, string) -> bool,
    localeString: Value -> string,
    apiBase: string)

  /** `handleGamesCommand`: the description of the first ten games and the select menu of up to 25. */
  function GamesCommand(userId: string, ctx: Context): (r: CommandOutcome)
    ensures r.GamesFailed? <==> ctx.scheduled.Err?
    ensures r.NoGames? <==> ctx.scheduled == Ok([])
    ensures r.GamesListed? ==>
              ctx.scheduled.Ok? && |ctx.scheduled.value| > 0 &&
              r.description == Concat(Take(ctx.scheduled.value, Config.GAMES_LIST_LIMIT), LineFor(userId, ctx.localeString)) &&
              (r.menu.None? <==> Filter(ctx.scheduled.value, Menus.Listable) == [])
  {
    match ctx.scheduled
    case Err(m) => GamesFailed(m)
    case Ok(games) =>
      if games == [] then NoGames
      else GamesListed(Concat(Take(games, Config.GAMES_LIST_LIMIT), LineFor(userId, ctx.localeString)),
                       Menus.GamesMenu(games, ctx.localeString))
  }

  /**
   * `handleJoinCommand`: without an id, offer the join menu; otherwise resolve
   * the id and join under the command's fixed cap of two, then arm a reminder.
   */
  function JoinCommand(gameId: Value, userId: string, ctx: Context): (r: CommandOutcome)
    ensures !Truthy(gameId) <==> r.JoinMenuShown? || r.JoinListFailed?
    ensures r.JoinMenuShown? ==> ctx.scheduled.Ok? && r.offered == ctx.joinMenuFor(ctx.scheduled.value, userId)
    ensures r.JoinListFailed? ==> ctx.scheduled.Err?
    ensures r.JoinDone? && r.join.Joined? ==>
              Resolve(ctx.api, gameId).Ok? &&
              var g := Resolve(ctx.api, gameId).value.0;
              IsScheduled(g) && !HasParticipant(ParticipantsOf(g), userId) &&
              |ParticipantsOf(g)| < Config.COMMAND_JOIN_CAP &&
              ctx.api.joinCall(Resolve(ctx.api, gameId).value.1).Ok? &&
              r.join.reminderFor.Some?
    ensures r.JoinDone? ==>
              (r.join.JoinRefused? <==> Resolve(ctx.api, gameId).Ok? &&
                                        CheckJoin(Resolve(ctx.api, gameId).value.0, userId, COMMAND_CAP) != Admit)
  {
    if !Truthy(gameId) then
      match ctx.scheduled
      case Err(m) => JoinListFailed(m)
      case Ok(games) => JoinMenuShown(ctx.joinMenuFor(games, userId))
    else
      var resolved := Resolve(ctx.api, gameId);
      var internal := InternalId(resolved, gameId);
      JoinDone(JoinFlow(ctx.api, userId, Fetched(resolved), COMMAND_CAP, internal, internal, true, ctx.apiBase))
  }

  /** `handleLeaveCommand`: resolve the id (a missing one reads as "null") and leave if allowed. */
  function LeaveCommand(gameId: Value, userId: string, ctx: Context): (r: CommandOutcome)
    ensures r.LeaveDone?
    ensures r.leave.Left? <==>
              Resolve(ctx.api, gameId).Ok? && CheckLeave(Resolve(ctx.api, gameId).value.0, userId) == Release &&
              ctx.api.leaveCall(Resolve(ctx.api, gameId).value.1).Ok? &&
              ctx.api.gameAfterChange(Resolve(ctx.api, gameId).value.1).Ok?
  {
    var resolved := Resolve(ctx.api, gameId);
    var internal := InternalId(resolved, gameId);
    LeaveDone(LeaveFlow(ctx.api, userId, Fetched(resolved), internal, internal, ctx.apiBase))
  }

  /** `handleSlashCommand`: dispatch on the command name; any other name does nothing. */
  function HandleSlashCommand(commandName: string, gameId: Value, userId: string, ctx: Context): (r: CommandOutcome)
    ensures r.NoCommand? <==> commandName != "games" && commandName != "join" && commandName != "leave"
    ensures commandName == "games" <==> r.GamesFailed? || r.NoGames? || r.GamesListed?
    ensures commandName == "leave" <==> r.LeaveDone?
  {
    if commandName == "games" then GamesCommand(userId, ctx)
    else if commandName == "join" then JoinCommand(gameId, userId, ctx)
    else if commandName == "leave" then LeaveCommand(gameId, userId, ctx)
    else NoCommand
  }

  // ---------------------------------------------------------------- properties

  /** A public number written out in decimal resolves to the scheduled game of that number and its internal id. */
  lemma PublicIdRoundTrip(api: Api, n: nat)
    ensures var r := Resolve(api, Str(NatToString(n)));
            (r.Ok? <==> api.gameByPublicId(n).Ok?) &&
            (r.Ok? ==> r.value == (api.gameByPublicId(n).value, api.gameByPublicId(n).value.id))
  {
    NatToStringRoundTrip(n);
  }

  /** An internal id whose game carries no truthy `id` is joined and left under the id as typed. */
  lemma InternalIdKeptWhenGameHasNone(api: Api, s: string, g: Game)
    requires !IsPublicId(s) && api.gameById(Str(s)) == Ok(g) && !Truthy(g.id)
    ensures Resolve(api, Str(s)) == Ok((g, Str(s)))
  {
  }

  /** The command admits a third player to no game, whatever its team size says. */
  lemma CommandAdmitsAtMostTwo(gameId: Value, userId: string, ctx: Context, g: Game)
    requires Resolve(ctx.api, gameId) == Ok((g, g.id)) || Resolve(ctx.api, gameId) == Ok((g, gameId))
    requires Truthy(gameId) && |ParticipantsOf(g)| >= 2
    ensures var r := JoinCommand(gameId, userId, ctx);
            r.JoinDone? && !r.join.Joined?
  {
  }

  /** The listing shows only the first ten games: later ones change nothing in the description. */
  lemma ListingIgnoresLaterGames(games: seq<Game>, more: seq<Game>, userId: string, ctx: Context)
    requires |games| >= Config.GAMES_LIST_LIMIT
    ensures var r1 := GamesCommand(userId, ctx.(scheduled := Ok(games)));
            var r2 := GamesCommand(userId, ctx.(scheduled := Ok(games + more)));
            r1.GamesListed? && r2.GamesListed? && r1.description == r2.description
  {
    assert Take(games + more, Config.GAMES_LIST_LIMIT) == Take(games, Config.GAMES_LIST_LIMIT);
  }

  /**
   * Each of the first ten games has its line in the description, after the
   * lines of the games before it and before those of the games after it.
   */
  lemma DescriptionListsEachShownGame(userId: string, ctx: Context, k: nat)
    requires ctx.scheduled.Ok? && k < |ctx.scheduled.value| && k < Config.GAMES_LIST_LIMIT
    ensures var shown := Take(ctx.scheduled.value, Config.GAMES_LIST_LIMIT);
            var f := LineFor(userId, ctx.localeString);
            var r := GamesCommand(userId, ctx);
            r.GamesListed? &&
            r.description == Concat(shown[..k], f) + Line(ctx.scheduled.value[k], userId, ctx.localeString)
                             + Concat(shown[k + 1..], f)
  {
    var shown := Take(ctx.scheduled.value, Config.GAMES_LIST_LIMIT);
    var f := LineFor(userId, ctx.localeString);
    assert GamesCommand(userId, ctx).description == Concat(shown, f);
    ConcatAt(shown, k, f);
    assert f(shown[k]) == Line(ctx.scheduled.value[k], userId, ctx.localeString);
  }

  /**
   * With more than ten listable games the select menu offers games the
   * description does not list: the menu takes up to 25, the listing 10.
   */
  lemma MenuOutrunsListing(userId: string, ctx: Context)
    requires ctx.scheduled.Ok? && |Filter(ctx.scheduled.value, Menus.Listable)| > Config.GAMES_LIST_LIMIT
    ensures var r := GamesCommand(userId, ctx);
            r.GamesListed? && r.menu.Some? && |r.menu.value| > Config.GAMES_LIST_LIMIT
  {
  }

  /** A join or leave by the public number acts on the resolved game's internal id, not the number. */
  lemma PublicJoinUsesInternalId(n: nat, userId: string, ctx: Context, g: Game)
    requires ctx.api.gameByPublicId(n) == Ok(g)
    ensures var r := JoinCommand(Str(NatToString(n)), userId, ctx);
            r.JoinDone? && (r.join.Joined? ==> r.join.buttons == Embeds.CreateGameButtons(g.id, true, ctx.apiBase))
  {
    PublicIdRoundTrip(ctx.api, n);
  }
}

=== FILE: completed_games.dfy ===
/**
 * The completed-games monitor (`checkCompletedGames`): each tick fetches the
 * latest completed games, drops the ones already announced in the last 24 hours,
 * announces the rest oldest first, and records each announcement after it went
 * out; a weekly job deletes records older than seven days.
 */
module CompletedGamesMonitor {
  import opened Wrappers
  import opened Js
  import opened Seqs
  import opened NotificationStore
  import StableSort
  import Config
  import Settings

  /** A completed game as the ITT API returns it. */
  datatype CompletedGame = CompletedGame(
    gameId: Value,
    id: Value,
    datetime: Value,
    createdAt: Value,
    gamename: Value,
    category: Value,
    mapName: Value,
    playerCount: Value,
    players: Option<seq<Value>>)

  /** The fields of a notification record (the informational `completedAt` is not modelled). */
  datatype Fields = Fields(gameId: Value, gameName: Value, category: Value, mapName: Value, playerCount: Value)

  /** What one tick sees of the outside world. */
  datatype World = World(
    configured: bool,                          // monitoring enabled, client set, channel id set
    fetched: Result<seq<CompletedGame>>,       // `getCompletedGames(10)`, or the error it threw
    channelFound: bool,                        // `channels.fetch` returned a channel
    readOk: bool,                              // the notified-ids query succeeded
    sendOk: CompletedGame -> bool,             // building the embed and `channel.send` both succeeded for this game
    writeOk: CompletedGame -> bool,            // the record write succeeded for this game
    now: int,
    parseDateString: string -> Option<int>)    // `new Date(s).getTime()`, None for NaN

  /** What one tick did: the games it tried to announce, in order; the ones announced; the store after. */
  datatype Tick = Tick(attempted: seq<CompletedGame>, delivered: seq<CompletedGame>, store: Store<Fields>)

  // ---------------------------------------------------------------- identity and dedup

  /** `game.gameId || game.id`. */
  function GameKey(g: CompletedGame): Value
  {
    Or(g.gameId, g.id)
  }

  /** `String(gameId)`: the document id and the id compared against the notified set. */
  function DocId(g: CompletedGame): string
  {
    ToString(GameKey(g))
  }

  predicate IsNew(g: CompletedGame, notified: set<string>)
  {
    Truthy(GameKey(g)) && DocId(g) !in notified
  }

  function NewIn(notified: set<string>): CompletedGame -> bool
  {
    (g: CompletedGame) => IsNew(g, notified)
  }

  /**
   * `getNotifiedGameIds`: `String(gameId)` of every record notified at or after
   * `now - 24h` whose `gameId` is truthy; empty when the store is offline or the
   * query fails.
   */
  function NotifiedGameIds(s: Store<Fields>, readOk: bool, now: int): (r: set<string>)
    ensures s.Offline? || !readOk ==> r == {}
    ensures s.Online? && readOk ==> forall k :: Counts(s.docs, k, now) ==> ToString(s.docs[k].fields.gameId) in r
    ensures s.Online? && readOk ==> forall v :: v in r ==> exists k :: Counts(s.docs, k, now) && ToString(s.docs[k].fields.gameId) == v
  {
    if s.Offline? || !readOk then {}
    else set k | k in s.docs && Counts(s.docs, k, now) :: ToString(s.docs[k].fields.gameId)
  }

  /** Record `k` exists, was notified within the last 24 hours and carries a truthy `gameId`. */
  predicate Counts(docs: map<string, Doc<Fields>>, k: string, now: int)
  {
    k in docs && docs[k].notifiedAt >= now - Config.COMPLETED_DEDUP_WINDOW_MS && Truthy(docs[k].fields.gameId)
  }

  // ---------------------------------------------------------------- ordering

  /** `game.players || []`.length. */
  function PlayersLength(g: CompletedGame): nat
  {
    |g.players.GetOr([])|
  }

  /** The nanosecond term of a `{seconds, nanoseconds}` date, in whole milliseconds. */
  function NanosMs(v: Value): int
  {
    if v.Num? then v.n / 1000000 else 0
  }

  /**
   * The `parseDate` normaliser of the sort comparator: epoch milliseconds of a
   * date value, 0 when missing or unreadable.
   */
  function ParseDate(v: Value, parseDateString: string -> Option<int>): (ms: int)
    ensures !Truthy(v) ==> ms == 0
    ensures v.Num? && v.n != 0 && v.n < Config.SECONDS_THRESHOLD_MS ==> ms == v.n * 1000
    ensures v.Num? && v.n >= Config.SECONDS_THRESHOLD_MS ==> ms == v.n
    ensures v.Str? && v.s != "" && parseDateString(v.s).None? ==> ms == 0
    ensures v.Str? && v.s != "" && parseDateString(v.s).Some? ==> ms == parseDateString(v.s).value
    ensures Get(v, "seconds").Num? ==> ms == Get(v, "seconds").n * 1000 + NanosMs(Get(v, "nanoseconds"))
  {
    if !Truthy(v) then 0
    else if Get(v, "seconds").Num? then Get(v, "seconds").n * 1000 + NanosMs(Get(v, "nanoseconds"))
    else if v.Num? then (if v.n < Config.SECONDS_THRESHOLD_MS then v.n * 1000 else v.n)
    else if v.Str? then parseDateString(v.s).GetOr(0)
    else 0
  }

  /** The sort key of a game: `parseDate(game.datetime || game.createdAt)`. */
  function SortKey(parseDateString: string -> Option<int>): CompletedGame -> int
  {
    (g: CompletedGame) => ParseDate(Or(g.datetime, g.createdAt), parseDateString)
  }

  // ---------------------------------------------------------------- the record write

  /** `set(..., { merge: true })` with undefined fields ignored: an undefined field keeps the stored one. */
  function MergeValue(prev: Value, next: Value): (r: Value)
    ensures next != Undefined ==> r == next
    ensures next == Undefined ==> r == prev
  {
    if next == Undefined then prev else next
  }

  /** The fields `markGameAsNotified` writes, merged into the existing record. */
  function GameFields(g: CompletedGame, prev: Option<Fields>): (f: Fields)
    ensures f.gameId == Str(DocId(g))
    ensures prev.None? ==> f.gameName == g.gamename && f.category == g.category && f.mapName == g.mapName
    ensures prev.Some? && g.gamename == Undefined ==> f.gameName == prev.value.gameName
  {
    var next := Fields(Str(DocId(g)), g.gamename, g.category, g.mapName, Or(g.playerCount, Num(PlayersLength(g))));
    match prev
    case None => next
    case Some(p) =>
      Fields(MergeValue(p.gameId, next.gameId), MergeValue(p.gameName, next.gameName),
             MergeValue(p.category, next.category), MergeValue(p.mapName, next.mapName),
             MergeValue(p.playerCount, next.playerCount))
  }

  function GameRecorder(): Recorder<CompletedGame, Fields>
  {
    Recorder(DocId, GameFields)
  }

  function Outcomes(w: World): Oracle<CompletedGame>
  {
    Oracle(w.sendOk, w.writeOk)
  }

  // ---------------------------------------------------------------- the tick

  /** The tick got past its guards: configured, fetched a non-empty list, found the channel. */
  predicate Proceeds(w: World)
  {
    w.configured && w.fetched.Ok? && w.fetched.value != [] && w.channelFound
  }

  /** The games of this tick that count as new. */
  function Fresh(w: World, s: Store<Fields>): seq<CompletedGame>
    requires w.fetched.Ok?
  {
    Filter(w.fetched.value, NewIn(NotifiedGameIds(s, w.readOk, w.now)))
  }

  /** `checkCompletedGames`. */
  function CheckCompletedGames(w: World, s: Store<Fields>): (r: Tick)
    ensures !Proceeds(w) ==> r == Tick([], [], s)
    ensures Proceeds(w) ==> multiset(r.attempted) == multiset(Fresh(w, s))
    ensures StableSort.SortedBy(r.attempted, SortKey(w.parseDateString))
    ensures Proceeds(w) ==> forall k :: StableSort.WithKey(r.attempted, SortKey(w.parseDateString), k)
                                         == StableSort.WithKey(Fresh(w, s), SortKey(w.parseDateString), k)
    ensures r.delivered == Filter(r.attempted, w.sendOk)
    ensures r.store == DeliverAll(r.attempted, s, w.now, GameRecorder(), Outcomes(w)).store
  {
    if !Proceeds(w) then Tick([], [], s)
    else
      var news := Fresh(w, s);
      if news == [] then Tick([], [], s)
      else
        var key := SortKey(w.parseDateString);
        var sorted := StableSort.Sort(news, key);
        SortStableAll(news, key);
        var d := DeliverAll(sorted, s, w.now, GameRecorder(), Outcomes(w));
        Tick(sorted, d.delivered, d.store)
  }

  lemma SortStableAll(s: seq<CompletedGame>, key: CompletedGame -> int)
    ensures forall k :: StableSort.WithKey(StableSort.Sort(s, key), key, k) == StableSort.WithKey(s, key, k)
  {
    forall k ensures StableSort.WithKey(StableSort.Sort(s, key), key, k) == StableSort.WithKey(s, key, k) {
      StableSort.SortStable(s, key, k);
    }
  }

  // ---------------------------------------------------------------- cleanup

  /** `cleanupOldCompletedGameNotifications`: delete records notified more than seven days ago. */
  function CleanupOldCompletedGameNotifications(s: Store<Fields>, now: int, ok: bool): (r: Store<Fields>)
    ensures s.Offline? || !ok ==> r == s
    ensures s.Online? && ok ==> r.Online? && forall k :: k in r.docs <==>
              k in s.docs && !(s.docs[k].notifiedAt < now - Config.COMPLETED_RETENTION_MS)
    ensures s.Online? && ok ==> forall k :: k in r.docs ==> r.docs[k] == s.docs[k]
  {
    Sweep(s, now - Config.COMPLETED_RETENTION_MS, ok).store
  }

  // ---------------------------------------------------------------- properties

  /** Every record is keyed by its own `gameId`, as `markGameAsNotified` writes them. */
  predicate WellKeyed(s: Store<Fields>)
  {
    s.Online? ==> forall k :: k in s.docs ==> s.docs[k].fields.gameId == Str(k)
  }

  function KeyedBy(): (string, Fields) -> bool
  {
    (k: string, f: Fields) => f.gameId == Str(k)
  }

  /** Every record a tick writes carries its own id as `gameId`. */
  lemma WrittenRecordsKeyed(w: World, s: Store<Fields>)
    requires s.Online?
    ensures forall k :: WrittenKey(CheckCompletedGames(w, s).attempted, k, GameRecorder(), Outcomes(w)) ==>
              CheckCompletedGames(w, s).store.docs[k].fields.gameId == Str(k)
  {
    var r := CheckCompletedGames(w, s);
    DeliverAllWritesBuiltFields(r.attempted, s, w.now, GameRecorder(), Outcomes(w), KeyedBy());
  }

  /** A tick keeps every record keyed by its own `gameId`. */
  lemma TickPreservesWellKeyed(w: World, s: Store<Fields>)
    requires WellKeyed(s)
    ensures WellKeyed(CheckCompletedGames(w, s).store)
  {
    if s.Online? {
      WrittenRecordsKeyed(w, s);
    }
  }

  /** A game whose record this tick wrote is not announced again by any tick in the next 24 hours. */
  lemma DeliveredNotRepeatedWithinWindow(w: World, s: Store<Fields>, g: CompletedGame, now2: int)
    requires s.Online?
    requires g in CheckCompletedGames(w, s).attempted && Recorded(g, GameRecorder(), Outcomes(w))
    requires w.now <= now2 <= w.now + Config.COMPLETED_DEDUP_WINDOW_MS
    ensures !IsNew(g, NotifiedGameIds(CheckCompletedGames(w, s).store, true, now2))
  {
    var docs := CheckCompletedGames(w, s).store.docs;
    var d := DocId(g);
    WrittenGameRecord(w, s, g);
    assert d != "" && docs[d].fields.gameId == Str(d);
    assert Counts(docs, d, now2);
    assert ToString(docs[d].fields.gameId) == d;
  }

  /** The record a tick wrote for a recorded game is stamped with the tick's time and keyed by its own `gameId`. */
  lemma WrittenGameRecord(w: World, s: Store<Fields>, g: CompletedGame)
    requires s.Online?
    requires g in CheckCompletedGames(w, s).attempted && Recorded(g, GameRecorder(), Outcomes(w))
    ensures var docs := CheckCompletedGames(w, s).store.docs;
            DocId(g) in docs && docs[DocId(g)].notifiedAt == w.now && docs[DocId(g)].fields.gameId == Str(DocId(g))
  {
    var r := CheckCompletedGames(w, s);
    var i :| 0 <= i < |r.attempted| && r.attempted[i] == g;
    assert WrittenKey(r.attempted, DocId(g), GameRecorder(), Outcomes(w));
    WrittenRecordsKeyed(w, s);
  }

  /**
   * Re-running a tick on the same list at the same instant, after every send and
   * write went through, announces nothing.
   */
  lemma {:induction false} RerunAnnouncesNothing(w: World, s: Store<Fields>)
    requires s.Online? && WellKeyed(s) && w.readOk
    requires w.fetched.Ok?
    requires forall i :: 0 <= i < |w.fetched.value| ==> w.sendOk(w.fetched.value[i]) && w.writeOk(w.fetched.value[i])
    requires forall i :: 0 <= i < |w.fetched.value| && Truthy(GameKey(w.fetched.value[i])) ==> ValidDocId(DocId(w.fetched.value[i]))
    ensures CheckCompletedGames(w, CheckCompletedGames(w, s).store).attempted == []
  {
    var r := CheckCompletedGames(w, s);
    if Proceeds(w) {
      var before := NotifiedGameIds(s, true, w.now);
      var after := NotifiedGameIds(r.store, true, w.now);
      WrittenRecordsKeyed(w, s);
      forall i | 0 <= i < |w.fetched.value| ensures !NewIn(after)(w.fetched.value[i]) {
        var g := w.fetched.value[i];
        if Truthy(GameKey(g)) {
          if DocId(g) in before {
            var k :| k in s.docs && Counts(s.docs, k, w.now) && ToString(s.docs[k].fields.gameId) == DocId(g);
            assert Counts(r.store.docs, k, w.now);
          } else {
            assert g in Fresh(w, s);
            assert g in multiset(r.attempted);
            DeliveredNotRepeatedWithinWindow(w, s, g, w.now);
          }
        }
      }
      FilterNone(w.fetched.value, NewIn(after));
      assert multiset(CheckCompletedGames(w, r.store).attempted) == multiset{};
    }
  }

  /**
   * A new game whose record was not written — its send failed, its write failed,
   * or its id cannot name a record — is tried again by any later tick that sees it.
   */
  lemma UnrecordedGameIsRetried(w: World, s: Store<Fields>, g: CompletedGame, w2: World)
    requires s.Online? && w.readOk && Proceeds(w)
    requires g in w.fetched.value && IsNew(g, NotifiedGameIds(s, true, w.now))
    requires !WrittenKey(CheckCompletedGames(w, s).attempted, DocId(g), GameRecorder(), Outcomes(w))
    requires Proceeds(w2) && g in w2.fetched.value && w2.now >= w.now
    ensures g in CheckCompletedGames(w2, CheckCompletedGames(w, s).store).attempted
  {
    var r := CheckCompletedGames(w, s);
    StillNewAfterTick(w, s, g, w2.now);
    assert g in Fresh(w2, r.store);
    assert g in multiset(Fresh(w2, r.store));
  }

  /** A game new to a tick that wrote no record under its id is still new to any later tick. */
  lemma StillNewAfterTick(w: World, s: Store<Fields>, g: CompletedGame, now2: int)
    requires s.Online? && w.readOk && IsNew(g, NotifiedGameIds(s, true, w.now))
    requires !WrittenKey(CheckCompletedGames(w, s).attempted, DocId(g), GameRecorder(), Outcomes(w))
    requires now2 >= w.now
    ensures DocId(g) !in NotifiedGameIds(CheckCompletedGames(w, s).store, true, now2)
  {
    var r := CheckCompletedGames(w, s);
    WrittenRecordsKeyed(w, s);
    forall k | k in r.store.docs && Counts(r.store.docs, k, now2)
      ensures ToString(r.store.docs[k].fields.gameId) != DocId(g) {
      if WrittenKey(r.attempted, k, GameRecorder(), Outcomes(w)) {
        assert ToString(r.store.docs[k].fields.gameId) == k;
      } else {
        assert Counts(s.docs, k, w.now);
      }
    }
  }

  /**
   * The dedup window is 24 hours: a fetched game with an id, every record of
   * which, if any, is older than that, is announced again by a tick that proceeds.
   */
  lemma ExpiredGameIsAnnouncedAgain(w: World, s: Store<Fields>, g: CompletedGame)
    requires Proceeds(w) && g in w.fetched.value && Truthy(GameKey(g))
    requires s.Online? ==> forall k :: k in s.docs && ToString(s.docs[k].fields.gameId) == DocId(g) ==>
               s.docs[k].notifiedAt < w.now - Config.COMPLETED_DEDUP_WINDOW_MS
    ensures g in CheckCompletedGames(w, s).attempted
  {
    assert DocId(g) !in NotifiedGameIds(s, w.readOk, w.now);
    assert g in Fresh(w, s);
    assert g in multiset(Fresh(w, s));
  }

  /** With the store offline nothing is ever recorded: every game with an id is announced on every tick. */
  lemma OfflineStoreAnnouncesEverything(w: World, g: CompletedGame)
    requires Proceeds(w) && g in w.fetched.value && Truthy(GameKey(g))
    ensures g in CheckCompletedGames(w, Offline).attempted
    ensures CheckCompletedGames(w, Offline).store == Offline
  {
    assert g in Fresh(w, Offline);
    assert g in multiset(Fresh(w, Offline));
  }

  /**
   * With the monitoring names `config.js` does not export, the guard never
   * passes: whatever the ITT API returns, a tick announces nothing and leaves
   * the store alone.
   */
  lemma ConfigAsWrittenNeverAnnounces(w: World, s: Store<Fields>, clientSet: bool)
    requires w.configured == Settings.CompletedConfigured(Settings.CONFIG_AS_WRITTEN, clientSet)
    ensures CheckCompletedGames(w, s) == Tick([], [], s)
  {
    Settings.ConfigAsWrittenSwitchesOff(clientSet, false, false);
  }

  /**
   * Given the names, the configuration decides: a fetched game with a truthy
   * key that was not announced in the last 24 hours is attempted, once the
   * channel is found, exactly when monitoring is enabled, the client is set and
   * a channel id is given; it is announced when, in addition, its send goes out.
   */
  lemma ConfigurationDecidesAnnouncement(w: World, s: Store<Fields>, e: Settings.Env, clientSet: bool, g: CompletedGame)
    requires w.configured == Settings.CompletedConfigured(e, clientSet)
    requires w.fetched.Ok? && g in w.fetched.value && w.channelFound
    requires Truthy(GameKey(g)) && DocId(g) !in NotifiedGameIds(s, w.readOk, w.now)
    ensures g in CheckCompletedGames(w, s).attempted <==>
              clientSet && Truthy(e.completedMonitoringEnabled) && Truthy(e.completedChannelId)
    ensures g in CheckCompletedGames(w, s).delivered <==>
              clientSet && Truthy(e.completedMonitoringEnabled) && Truthy(e.completedChannelId) && w.sendOk(g)
  {
    if w.configured {
      assert g in Fresh(w, s);
      assert g in multiset(Fresh(w, s));
    }
  }

  /**
   * `createCompletedGameEmbed` is imported from `components/embeds.js`, which
   * does not export it. Read as undefined, calling it throws inside the
   * per-game `try`, before `channel.send`, so as written no send ever goes out.
   */
  function EmbedAsWritten(w: World): World
  {
    w.(sendOk := (g: CompletedGame) => false)
  }

  /**
   * With the embed builder as written, a tick announces nothing and records
   * nothing, so every later tick with the same games attempts them again.
   */
  lemma EmbedAsWrittenAnnouncesNothing(w: World, s: Store<Fields>)
    ensures CheckCompletedGames(EmbedAsWritten(w), s).delivered == []
    ensures CheckCompletedGames(EmbedAsWritten(w), s).store == s
    ensures Proceeds(w) ==> multiset(CheckCompletedGames(EmbedAsWritten(w), s).attempted) == multiset(Fresh(w, s))
    ensures CheckCompletedGames(EmbedAsWritten(w), CheckCompletedGames(EmbedAsWritten(w), s).store)
            == CheckCompletedGames(EmbedAsWritten(w), s)
  {
    var w0 := EmbedAsWritten(w);
    var r := CheckCompletedGames(w0, s);
    NoSendNoChange(r.attempted, s, w.now, GameRecorder(), Outcomes(w0));
    FilterNone(r.attempted, w0.sendOk);
  }

  /** The weekly cleanup never removes a record the 24-hour dedup window still counts, up to six days later. */
  lemma CleanupKeepsDedupWindow(s: Store<Fields>, now: int, readOk: bool, now2: int)
    requires now2 - Config.COMPLETED_DEDUP_WINDOW_MS >= now - Config.COMPLETED_RETENTION_MS
    ensures NotifiedGameIds(CleanupOldCompletedGameNotifications(s, now, true), readOk, now2) == NotifiedGameIds(s, readOk, now2)
  {
    var c := CleanupOldCompletedGameNotifications(s, now, true);
    if s.Online? && readOk {
      forall k ensures Counts(c.docs, k, now2) <==> Counts(s.docs, k, now2) {
      }
      assert forall k :: k in c.docs && Counts(c.docs, k, now2) ==> c.docs[k] == s.docs[k];
    }
  }
}

=== FILE: config.dfy ===
/** The constants of the bot's configuration and of its handlers. */
module Config {

  const MINUTE_MS: int := 60 * 1000
  const HOUR_MS: int := 60 * MINUTE_MS
  const DAY_MS: int := 24 * HOUR_MS

  /** Completed games already notified within this window are not sent again. */
  const COMPLETED_DEDUP_WINDOW_MS: int := DAY_MS
  /** Completed-game notification records older than this are deleted. */
  const COMPLETED_RETENTION_MS: int := 7 * DAY_MS
  /** Lobbies already notified within this window are not sent again. */
  const LOBBY_DEDUP_WINDOW_MS: int := HOUR_MS
  /** Lobby notification records older than this are deleted. */
  const LOBBY_RETENTION_MS: int := DAY_MS

  const REMINDER_MINUTES_BEFORE: int := 10
  const MAX_REMINDER_WINDOW_MS: int := 6 * HOUR_MS

  /** Epoch numbers below 2000-01-01T00:00:00Z in milliseconds are taken as seconds. */
  const SECONDS_THRESHOLD_MS: int := 946684800000

  /** Discord's limit on the options of one select menu. */
  const MAX_SELECT_OPTIONS: nat := 25
  /** The `/games` listing shows this many games. */
  const GAMES_LIST_LIMIT: nat := 10
  /** The fixed participant cap of the `/join` command. */
  const COMMAND_JOIN_CAP: nat := 2

  const ITT_MAP_PREFIX: string := "island.troll.tribes"

  const DEFAULT_TEAM_SIZE: string := "1v1"
  const DEFAULT_GAME_TYPE: string := "elo"
  const DEFAULT_GAME_VERSION: string := "v3.28"
  const DEFAULT_MINUTE: string := "00"
  const DEFAULT_STATUS: string := "scheduled"
  const SCHEDULED_GAME_LENGTH: int := 1800

  /** `TEAM_SIZE_OPTIONS`: value and description of each team-size choice. */
  datatype TeamSizeOption = TeamSizeOption(value: string, description: string)

  const TEAM_SIZE_OPTIONS: seq<TeamSizeOption> := [
    TeamSizeOption("1v1", "2 players total"),
    TeamSizeOption("2v2", "4 players total"),
    TeamSizeOption("3v3", "6 players total"),
    TeamSizeOption("4v4", "8 players total"),
    TeamSizeOption("5v5", "10 players total"),
    TeamSizeOption("6v6", "12 players total")
  ]
}

=== FILE: embeds.dfy ===
/**
 * The message components of `components/embeds.js`: the join/leave button row
 * of a game (custom ids and details link) and the field values of the game
 * embed. Colours, emoji and builder objects beyond these values are not modelled.
 */
module Embeds {
  import opened Wrappers
  import opened Js
  import opened Text
  import opened Games
  import Format

  /** A button: an interaction button carries a custom id, a link button a URL. */
  datatype Button =
    | Interaction(customId: string, labelText: string)
    | Link(url: string, labelText: string)

  /** The custom-id prefix of the join and leave buttons. */
  function ButtonPrefix(userJoined: bool): string
  {
    if userJoined then "leave_" else "join_"
  }

  /** `${ITT_API_BASE}/games/${gameId}`. */
  function DetailsUrl(apiBase: string, gameId: Value): string
  {
    apiBase + "/games/" + ToString(gameId)
  }

  /**
   * `createGameButtons(gameId, userJoined)`: a joined user gets "Leave Game"
   * (`leave_<id>`), anyone else "Join Game" (`join_<id>`); both rows end with
   * the "View Details" link to the game's page on the ITT site.
   */
  function CreateGameButtons(gameId: Value, userJoined: bool, apiBase: string): (r: seq<Button>)
    ensures |r| == 2 && r[0].Interaction? && r[1].Link?
    ensures r[0].customId == (if userJoined then "leave_" else "join_") + ToString(gameId)
    ensures r[1].url == apiBase + "/games/" + ToString(gameId)
  {
    var action := if userJoined then Interaction("leave_" + ToString(gameId), "Leave Game")
                  else Interaction("join_" + ToString(gameId), "Join Game");
    [action, Link(DetailsUrl(apiBase, gameId), "View Details")]
  }

  /** The two variants differ only in the action button; the link is shared. */
  lemma ButtonsShareLink(gameId: Value, apiBase: string)
    ensures CreateGameButtons(gameId, true, apiBase)[1] == CreateGameButtons(gameId, false, apiBase)[1]
    ensures CreateGameButtons(gameId, true, apiBase)[0] != CreateGameButtons(gameId, false, apiBase)[0]
  {
    var id := ToString(gameId);
    assert ("leave_" + id)[0] != ("join_" + id)[0];
  }

  // ---------------------------------------------------------------- the game embed

  datatype Field = Field(name: string, value: string, inline: bool)

  datatype Embed = Embed(title: string, description: string, fields: seq<Field>, footer: string)

  /** `participants.map((p) => p.name).join('\n')`: `join` renders `null` and `undefined` as "". */
  function JoinText(v: Value): string
  {
    if v.Undefined? || v.Null? then "" else ToString(v)
  }

  function NameList(ps: seq<Participant>): seq<string>
    ensures |NameList(ps)| == |ps|
  {
    seq(|ps|, i requires 0 <= i < |ps| => JoinText(ps[i].name))
  }

  /** `String(game.gameType || '').toUpperCase()` after the team size. */
  function Description(g: Game): string
  {
    ToString(g.teamSize) + " " + ToUpper(ToString(Or(g.gameType, Str(""))))
  }

  /**
   * `createGameEmbed(game, participants)` at the instant `now`: title, the
   * team-size/type description, the four inline fields (time, relative start,
   * players "n/max" or "n", status defaulting to "scheduled"), and a "Players"
   * list field only when somebody has joined.
   */
  function CreateGameEmbed(g: Game, participants: seq<Participant>, localeString: Value -> string,
                           parseDateString: string -> Option<int>, now: int): (r: Embed)
    ensures r.title == "\U{1F3C6} Game #" + ToString(g.gameId)
    ensures g.gameType.Str? && g.gameType.s != "" ==> r.description == ToString(g.teamSize) + " " + ToUpper(g.gameType.s)
    ensures !Truthy(g.gameType) ==> r.description == ToString(g.teamSize) + " "
    ensures forall i :: |ToString(g.teamSize)| < i < |r.description| ==> !('a' <= r.description[i] <= 'z')
    ensures r.footer == "Created by " + ToString(g.creatorName)
    ensures |r.fields| == (if |participants| > 0 then 5 else 4)
    ensures forall i :: 0 <= i < 4 ==> r.fields[i].inline
    ensures r.fields[0].value == (if Truthy(RawDate(g)) then localeString(RawDate(g)) else "Unknown Time") + " UTC"
    ensures r.fields[1].value == Format.FormatTimeUntil(RawDate(g), parseDateString, now)
    ensures r.fields[2].value == PlayersText(|participants|, MaxPlayersFromTeamSize(g.teamSize))
    ensures r.fields[3].value == (if Truthy(g.gameState) then ToString(g.gameState) else "scheduled")
    ensures |participants| > 0 ==> r.fields[4].name == "Players" && !r.fields[4].inline
  {
    var rawDate := RawDate(g);
    var fields := [
      Field("⏰ Time", Format.FormatGameTime(rawDate, localeString) + " UTC", true),
      Field("⌛ Starts", Format.FormatTimeUntil(rawDate, parseDateString, now), true),
      Field("\U{1F465} Players", PlayersText(|participants|, MaxPlayersFromTeamSize(g.teamSize)), true),
      Field("\U{1F3AF} Status", ToString(Or(g.gameState, Str("scheduled"))), true)
    ];
    var names := Join(NameList(participants), "\n");
    var listed := if |participants| > 0 then [Field("Players", if names == "" then "None yet" else names, false)] else [];
    DescriptionIsUpperCase(g);
    Embed("\U{1F3C6} Game #" + ToString(g.gameId), Description(g), fields + listed, "Created by " + ToString(g.creatorName))
  }

  /** After the team size and the space, the description holds no ASCII lower-case letter. */
  lemma DescriptionIsUpperCase(g: Game)
    ensures forall i :: |ToString(g.teamSize)| < i < |Description(g)| ==> !('a' <= Description(g)[i] <= 'z')
  {
    var head := ToString(g.teamSize) + " ";
    var tail := ToUpper(ToString(Or(g.gameType, Str(""))));
    forall i | |head| <= i < |Description(g)| ensures !('a' <= Description(g)[i] <= 'z') {
      assert Description(g)[i] == tail[i - |head|];
    }
  }

  /**
   * The "Players" list shows the participants' names one per line, in order,
   * when no name holds a line break.
   */
  lemma PlayersListNames(g: Game, participants: seq<Participant>, localeString: Value -> string,
                         parseDateString: string -> Option<int>, now: int)
    requires |participants| > 0 && !(|participants| == 1 && JoinText(participants[0].name) == "")
    requires forall i, k :: 0 <= i < |participants| && 0 <= k < |JoinText(participants[i].name)| ==>
               JoinText(participants[i].name)[k] != '\n'
    ensures Split(CreateGameEmbed(g, participants, localeString, parseDateString, now).fields[4].value, '\n')
         == NameList(participants)
  {
    var names := NameList(participants);
    assert Join(names, "\n") != "" by {
      if |participants| > 1 {
        JoinHasSeparator(names, "\n");
      }
    }
    SplitJoin(names, '\n');
  }

  /**
   * "None yet" stands in for the list only for a single participant whose name
   * renders empty: with two or more the line breaks alone keep the list non-empty.
   */
  lemma NoneYetOnlyForOneNameless(g: Game, participants: seq<Participant>, localeString: Value -> string,
                                  parseDateString: string -> Option<int>, now: int)
    requires |participants| > 0
    ensures var v := CreateGameEmbed(g, participants, localeString, parseDateString, now).fields[4].value;
            (|participants| == 1 && JoinText(participants[0].name) == "" ==> v == "None yet")
            && (|participants| == 1 && JoinText(participants[0].name) != "" ==> v == JoinText(participants[0].name))
            && (|participants| > 1 ==> '\n' in v)
  {
    if |participants| > 1 {
      JoinHasSeparator(NameList(participants), "\n");
    }
  }

  /** Joining two or more parts puts the separator right after the first one. */
  lemma JoinHasSeparator(parts: seq<string>, sep: string)
    requires |parts| > 1 && sep != ""
    ensures var j := Join(parts, sep); |parts[0]| + |sep| <= |j| && j[|parts[0]|..|parts[0]| + |sep|] == sep
  {
    var j := Join(parts, sep);
    assert j == parts[0] + sep + Join(parts[1..], sep);
    SliceIs(j, |parts[0]|, sep);
  }

  /** A status of "completed" is shown as is; a missing one as "scheduled". */
  lemma StatusDefault(g: Game, localeString: Value -> string, parseDateString: string -> Option<int>, now: int)
    ensures !Truthy(g.gameState) ==> CreateGameEmbed(g, [], localeString, parseDateString, now).fields[3].value == "scheduled"
    ensures g.gameState == Str("completed") ==> CreateGameEmbed(g, [], localeString, parseDateString, now).fields[3].value == "completed"
  {
  }

  /** A missing game type leaves the description as the team size and a space. */
  lemma DescriptionWithoutType(g: Game)
    requires !Truthy(g.gameType)
    ensures Description(g) == ToString(g.teamSize) + " "
  {
    assert ToUpper("") == "";
  }
}

=== FILE: format.dfy ===
/**
 * The display helpers of `utils/format.js`: the relative "in 2h 30m" /
 * "5m ago" rendering of a date, and the "Unknown Time" fallback of the
 * absolute rendering.
 */
module Format {
  import opened Wrappers
  import opened Js
  import opened Text
  import Config

  function Abs(d: int): nat
  {
    if d < 0 then -d else d
  }

  /**
   * `Math.round(Math.abs(diffMs) / 60000)`: the whole number of minutes
   * nearest to the difference, halves rounded up.
   */
  function MinutesTotal(diffMs: int): (r: nat)
    ensures r * Config.MINUTE_MS <= Abs(diffMs) + Config.MINUTE_MS / 2 < (r + 1) * Config.MINUTE_MS
  {
    (Abs(diffMs) + Config.MINUTE_MS / 2) / Config.MINUTE_MS
  }

  /** The parts "Nh" and "Nm" of a duration of `minutesTotal` minutes. */
  function Parts(minutesTotal: nat): seq<string>
  {
    var hours := minutesTotal / 60;
    var minutes := minutesTotal % 60;
    var hourPart := if hours > 0 then [NatToString(hours) + "h"] else [];
    hourPart + (if minutes > 0 || hourPart == [] then [NatToString(minutes) + "m"] else [])
  }

  /** The duration text of a difference in milliseconds, without "in" or "ago". */
  function Duration(diffMs: int): string
  {
    Join(Parts(MinutesTotal(diffMs)), " ")
  }

  /**
   * `formatTimeUntil(dateInput)` at the instant `now`: empty for a falsy input;
   * "in …" for a future instant and "… ago" otherwise; an unparsable date gives
   * NaN all the way through and renders as "NaNm ago".
   */
  function FormatTimeUntil(input: Value, parseDateString: string -> Option<int>, now: int): (r: string)
    ensures r == "" <==> !Truthy(input)
    ensures Truthy(input) && DateMs(input, parseDateString).None? ==> r == "NaNm ago"
    ensures Truthy(input) && DateMs(input, parseDateString).Some? ==>
              var d := DateMs(input, parseDateString).value - now;
              r == (if d > 0 then "in " + Duration(d) else Duration(d) + " ago")
  {
    if !Truthy(input) then ""
    else
      match DateMs(input, parseDateString)
      case None => "NaNm ago"
      case Some(target) =>
        var diffMs := target - now;
        DurationNotEmpty(diffMs);
        var text := Join(Parts(MinutesTotal(diffMs)), " ");
        if diffMs > 0 then "in " + text else text + " ago"
  }

  /**
   * The parts read back to the rounded number of minutes: at most one hour
   * part and one minute part, each a positive number (but "0m" for less than
   * half a minute), minutes below 60, and hours * 60 + minutes the total.
   */
  lemma PartsShape(minutesTotal: nat)
    ensures var p := Parts(minutesTotal);
            var h, m := minutesTotal / 60, minutesTotal % 60;
            m < 60 && h * 60 + m == minutesTotal &&
            (h == 0 ==> p == [NatToString(m) + "m"]) &&
            (h > 0 && m == 0 ==> p == [NatToString(h) + "h"]) &&
            (h > 0 && m > 0 ==> p == [NatToString(h) + "h", NatToString(m) + "m"])
  {
  }

  /** The text never comes out empty: a duration shows at least one part. */
  lemma DurationNotEmpty(diffMs: int)
    ensures |Duration(diffMs)| >= 2
  {
    var p := Parts(MinutesTotal(diffMs));
    assert |p| == 1 || |p| == 2;
    assert |p[0]| >= 2;
  }

  /** A future and a past instant equally far from now share the duration text. */
  lemma DurationSymmetric(diffMs: int)
    ensures Duration(diffMs) == Duration(-diffMs)
  {
  }

  /**
   * A whole number of hours and minutes away renders exactly as those hours
   * and minutes, prefixed by "in".
   */
  lemma FutureWholeMinutes(input: Value, parseDateString: string -> Option<int>, now: int, h: nat, m: nat)
    requires Truthy(input) && m < 60 && h * 60 + m > 0
    requires DateMs(input, parseDateString) == Some(now + (h * 60 + m) * Config.MINUTE_MS)
    ensures FormatTimeUntil(input, parseDateString, now) ==
              "in " + Join((if h > 0 then [NatToString(h) + "h"] else [])
                           + (if m > 0 || h == 0 then [NatToString(m) + "m"] else []), " ")
  {
    var k := h * 60 + m;
    var d := k * Config.MINUTE_MS;
    assert DateMs(input, parseDateString).value - now == d;
    assert d > 0;
    WholeMinutes(k);
    HoursAndMinutes(h, m);
    PartsShape(k);
    assert Duration(d) == Join(Parts(k), " ");
  }

  /** A whole number of minutes needs no rounding. */
  lemma WholeMinutes(k: nat)
    ensures MinutesTotal(k * Config.MINUTE_MS) == k
  {
  }

  lemma HoursAndMinutes(h: nat, m: nat)
    requires m < 60
    ensures (h * 60 + m) / 60 == h && (h * 60 + m) % 60 == m
  {
  }

  /** An instant at or before now is rendered "… ago", never "in …". */
  lemma PastIsAgo(input: Value, parseDateString: string -> Option<int>, now: int)
    requires Truthy(input) && DateMs(input, parseDateString).Some?
    requires DateMs(input, parseDateString).value <= now
    ensures var r := FormatTimeUntil(input, parseDateString, now);
            |r| >= 4 && r[|r| - 4..] == " ago" && !StartsWith(r, "in ")
  {
    var d := DateMs(input, parseDateString).value - now;
    DurationNotEmpty(d);
    var p := Parts(MinutesTotal(d));
    assert Duration(d)[0] == p[0][0];
    assert IsDigit(p[0][0]);
  }

  /**
   * `formatGameTime(dateInput)`: "Unknown Time" for a falsy input; otherwise the
   * locale rendering, which belongs to the JavaScript runtime and is passed in.
   */
  function FormatGameTime(input: Value, localeString: Value -> string): (r: string)
    ensures !Truthy(input) ==> r == "Unknown Time"
    ensures Truthy(input) ==> r == localeString(input)
  {
    if !Truthy(input) then "Unknown Time" else localeString(input)
  }
}

=== FILE: games.dfy ===
/**
 * The scheduled-game record the handlers receive from the ITT backend, and the
 * team-size rule `getMaxPlayersFromTeamSize` that turns "2v2" into a cap of 4.
 */
module Games {
  import opened Wrappers
  import opened Js
  import opened Text
  import Config

  /** One participant of a scheduled game. */
  datatype Participant = Participant(discordId: Value, name: Value)

  /**
   * A scheduled game as the backend returns it: `id` is the internal id, `gameId`
   * the public number. `participants` is `None` when the field is falsy.
   */
  datatype Game = Game(
    id: Value,
    gameId: Value,
    gameState: Value,
    teamSize: Value,
    gameType: Value,
    participants: Option<seq<Participant>>,
    scheduledDateTimeString: Value,
    scheduledDateTime: Value,
    creatorName: Value)

  /** `game.participants || []`. */
  function ParticipantsOf(g: Game): seq<Participant>
  {
    g.participants.GetOr([])
  }

  /** `participants.some((p) => p.discordId === userId)`. */
  predicate HasParticipant(ps: seq<Participant>, userId: string)
  {
    exists i :: 0 <= i < |ps| && ps[i].discordId == Str(userId)
  }

  /** `game.scheduledDateTimeString || game.scheduledDateTime`. */
  function RawDate(g: Game): Value
  {
    Or(g.scheduledDateTimeString, g.scheduledDateTime)
  }

  // ---------------------------------------------------------------- /(\d+)\s*v\s*(\d+)/i

  /**
   * The match of `(\d+)\s*v\s*(\d+)` (case-insensitive) starting at `p`, as the
   * two numbers. Both `\d+` and `\s*` are greedy and what follows each of them
   * cannot be a digit (resp. a space), so backtracking never finds another
   * match at the same start.
   */
  function MatchAt(s: string, p: nat): Option<(nat, nat)>
    requires p <= |s|
  {
    if p == |s| || !IsDigit(s[p]) then None
    else
      var e1 := DigitRunEnd(s, p);
      var e2 := SpaceRunEnd(s, e1);
      if e2 == |s| || !(s[e2] == 'v' || s[e2] == 'V') then None
      else
        var e3 := SpaceRunEnd(s, e2 + 1);
        if e3 == |s| || !IsDigit(s[e3]) then None
        else Some((DigitsValue(s[p..e1]), DigitsValue(s[e3..DigitRunEnd(s, e3)])))
  }

  /** The leftmost match at or after `p` (`String.prototype.match` without the g flag). */
  function FirstMatch(s: string, p: nat): (r: Option<(nat, nat)>)
    requires p <= |s|
    decreases |s| - p
  {
    if p == |s| then None
    else if MatchAt(s, p).Some? then MatchAt(s, p)
    else FirstMatch(s, p + 1)
  }

  /** `FirstMatch` finds nothing only when no match starts at or after `p`. */
  lemma {:induction false} FirstMatchNone(s: string, p: nat)
    requires p <= |s|
    ensures FirstMatch(s, p).None? <==> forall q :: p <= q <= |s| ==> MatchAt(s, q).None?
    decreases |s| - p
  {
    if p < |s| && MatchAt(s, p).None? {
      FirstMatchNone(s, p + 1);
      forall q | p <= q <= |s| && MatchAt(s, q).Some? ensures p + 1 <= q {
      }
    }
  }

  /** Where the first match starts. */
  lemma {:induction false} FirstMatchAt(s: string, p: nat) returns (q: nat)
    requires p <= |s| && FirstMatch(s, p).Some?
    ensures p <= q < |s| && MatchAt(s, q) == FirstMatch(s, p)
    ensures forall j :: p <= j < q ==> MatchAt(s, j).None?
    decreases |s| - p
  {
    if MatchAt(s, p).Some? {
      q := p;
    } else {
      q := FirstMatchAt(s, p + 1);
      forall j | p <= j < q ensures MatchAt(s, j).None? {
        if j > p {
          assert p + 1 <= j < q;
        }
      }
    }
  }

  /**
   * `getMaxPlayersFromTeamSize`: the sum of the two numbers of the first
   * "<n> v <m>" in the team size; `None` (null) for a falsy or non-string team
   * size or one with no such part.
   */
  function MaxPlayersFromTeamSize(teamSize: Value): (r: Option<int>)
    ensures !teamSize.Str? ==> r.None?
    ensures r.Some? ==> r.value >= 0
  {
    if !Truthy(teamSize) || !teamSize.Str? then None
    else
      var found := FirstMatch(teamSize.s, 0);
      if found.None? then None else Some(found.value.0 + found.value.1)
  }

  /** The players text of the embeds, menus and listings: "n/max" when max is truthy, else "n". */
  function PlayersText(count: nat, maxPlayers: Option<int>): (r: string)
    ensures maxPlayers.Some? && maxPlayers.value != 0 ==> r == NatToString(count) + "/" + IntToString(maxPlayers.value)
    ensures !(maxPlayers.Some? && maxPlayers.value != 0) ==> r == NatToString(count)
  {
    if maxPlayers.Some? && maxPlayers.value != 0 then NatToString(count) + "/" + IntToString(maxPlayers.value)
    else NatToString(count)
  }

  // ---------------------------------------------------------------- properties

  lemma {:induction false} FirstMatchSkips(s: string, p: nat, q: nat)
    requires p <= q <= |s|
    requires forall k :: p <= k < q ==> !IsDigit(s[k])
    ensures FirstMatch(s, p) == FirstMatch(s, q)
    decreases q - p
  {
    if p < q {
      FirstMatchSkips(s, p + 1, q);
    }
  }

  predicate IsV(c: char)
  {
    c == 'v' || c == 'V'
  }

  predicate AllSpace(s: string)
  {
    forall i :: 0 <= i < |s| ==> IsSpace(s[i])
  }

  /** The match at `p` is determined by the runs it consists of. */
  lemma MatchAtIs(s: string, p: nat, e1: nat, e2: nat, e3: nat, e4: nat)
    requires p < e1 <= e2 < e3 <= e4 <= |s| && e3 < e4
    requires IsDigit(s[p]) && IsV(s[e2]) && IsDigit(s[e3])
    requires DigitRunEnd(s, p) == e1 && SpaceRunEnd(s, e1) == e2
    requires SpaceRunEnd(s, e2 + 1) == e3 && DigitRunEnd(s, e3) == e4
    ensures MatchAt(s, p) == Some((DigitsValue(s[p..e1]), DigitsValue(s[e3..e4])))
  {
  }

  /** Where the greedy runs of the pattern end, given the runs `s` consists of. */
  lemma RunEnds(s: string, p: nat, e1: nat, e2: nat, e3: nat, e4: nat)
    requires p < e1 <= e2 < e3 <= e4 <= |s| && e3 < e4
    requires forall k :: p <= k < e1 ==> IsDigit(s[k])
    requires forall k :: e1 <= k < e2 ==> IsSpace(s[k])
    requires IsV(s[e2])
    requires forall k :: e2 + 1 <= k < e3 ==> IsSpace(s[k])
    requires forall k :: e3 <= k < e4 ==> IsDigit(s[k])
    requires e4 == |s| || !IsDigit(s[e4])
    ensures DigitRunEnd(s, p) == e1 && SpaceRunEnd(s, e1) == e2
    ensures SpaceRunEnd(s, e2 + 1) == e3 && DigitRunEnd(s, e3) == e4
  {
    assert !IsDigit(s[e1]) by {
      if e1 < e2 { assert IsSpace(s[e1]); } else { assert IsV(s[e2]); }
    }
    DigitRunEndIs(s, p, e1);
    SpaceRunEndIs(s, e1, e2);
    SpaceRunEndIs(s, e2 + 1, e3);
    DigitRunEndIs(s, e3, e4);
  }

  /** The runs of "<pre><n><sp1><c><sp2><m><post>", character by character. */
  lemma LayoutRuns(pre: string, a: string, sp1: string, c: char, sp2: string, b: string, post: string)
    requires forall i :: 0 <= i < |pre| ==> !IsDigit(pre[i])
    requires AllDigits(a) && AllSpace(sp1) && IsV(c) && AllSpace(sp2) && AllDigits(b)
    requires post == [] || !IsDigit(post[0])
    ensures var s := pre + a + sp1 + [c] + sp2 + b + post;
            var e1 := |pre| + |a|;
            var e2 := e1 + |sp1|;
            var e3 := e2 + 1 + |sp2|;
            var e4 := e3 + |b|;
            (forall k :: 0 <= k < |pre| ==> !IsDigit(s[k]))
            && (forall k :: |pre| <= k < e1 ==> IsDigit(s[k]))
            && (forall k :: e1 <= k < e2 ==> IsSpace(s[k]))
            && IsV(s[e2])
            && (forall k :: e2 + 1 <= k < e3 ==> IsSpace(s[k]))
            && (forall k :: e3 <= k < e4 ==> IsDigit(s[k]))
            && (e4 == |s| || !IsDigit(s[e4]))
            && s[|pre|..e1] == a && s[e3..e4] == b
  {
    FrontRuns(pre, a, sp1, c, sp2, b, post);
    BackRuns(pre, a, sp1, c, sp2, b, post);
  }

  lemma FrontRuns(pre: string, a: string, sp1: string, c: char, sp2: string, b: string, post: string)
    requires forall i :: 0 <= i < |pre| ==> !IsDigit(pre[i])
    requires AllDigits(a) && AllSpace(sp1)
    ensures var s := pre + a + sp1 + [c] + sp2 + b + post;
            var e1 := |pre| + |a|;
            var e2 := e1 + |sp1|;
            (forall k :: 0 <= k < |pre| ==> !IsDigit(s[k]))
            && (forall k :: |pre| <= k < e1 ==> IsDigit(s[k]))
            && (forall k :: e1 <= k < e2 ==> IsSpace(s[k]))
            && s[|pre|..e1] == a
  {
    var s := pre + a + sp1 + [c] + sp2 + b + post;
    var p := |pre|;
    var e1 := p + |a|;
    FrontChars(pre, a, sp1, c, sp2, b, post);
    forall k | 0 <= k < p ensures !IsDigit(s[k]) {
      assert s[k] == pre[k];
    }
    forall k | p <= k < e1 ensures IsDigit(s[k]) {
      assert s[p + (k - p)] == a[k - p];
    }
    forall k | e1 <= k < e1 + |sp1| ensures IsSpace(s[k]) {
      assert s[e1 + (k - e1)] == sp1[k - e1];
    }
    SliceIs(s, p, a);
  }

  lemma BackRuns(pre: string, a: string, sp1: string, c: char, sp2: string, b: string, post: string)
    requires IsV(c) && AllSpace(sp2) && AllDigits(b)
    requires post == [] || !IsDigit(post[0])
    ensures var s := pre + a + sp1 + [c] + sp2 + b + post;
            var e2 := |pre| + |a| + |sp1|;
            var e3 := e2 + 1 + |sp2|;
            var e4 := e3 + |b|;
            IsV(s[e2])
            && (forall k :: e2 + 1 <= k < e3 ==> IsSpace(s[k]))
            && (forall k :: e3 <= k < e4 ==> IsDigit(s[k]))
            && (e4 == |s| || !IsDigit(s[e4]))
            && s[e3..e4] == b
  {
    var s := pre + a + sp1 + [c] + sp2 + b + post;
    var e2 := |pre| + |a| + |sp1|;
    var e3 := e2 + 1 + |sp2|;
    BackChars(pre, a, sp1, c, sp2, b, post);
    forall k | e2 + 1 <= k < e3 ensures IsSpace(s[k]) {
      assert s[e2 + 1 + (k - e2 - 1)] == sp2[k - e2 - 1];
    }
    forall k | e3 <= k < e3 + |b| ensures IsDigit(s[k]) {
      assert s[e3 + (k - e3)] == b[k - e3];
    }
    SliceIs(s, e3, b);
  }

  /** The characters of "<pre><a><sp1>…" up to the end of `sp1`. */
  lemma FrontChars(pre: string, a: string, sp1: string, c: char, sp2: string, b: string, post: string)
    ensures var s := pre + a + sp1 + [c] + sp2 + b + post;
            (forall k :: 0 <= k < |pre| ==> s[k] == pre[k])
            && (forall j :: 0 <= j < |a| ==> s[|pre| + j] == a[j])
            && (forall j :: 0 <= j < |sp1| ==> s[|pre| + |a| + j] == sp1[j])
  {
    var p1 := pre + a;
    var p2 := p1 + sp1;
    var p5 := p2 + [c] + sp2 + b;
    var s := p5 + post;
    forall k | 0 <= k < |pre| ensures s[k] == pre[k] {
      assert s[k] == p5[k] == p2[k] == p1[k];
    }
    forall j | 0 <= j < |a| ensures s[|pre| + j] == a[j] {
      assert s[|pre| + j] == p5[|pre| + j] == p2[|pre| + j] == p1[|pre| + j];
    }
    forall j | 0 <= j < |sp1| ensures s[|p1| + j] == sp1[j] {
      assert s[|p1| + j] == p5[|p1| + j] == p2[|p1| + j];
    }
  }

  /** The characters of "…<c><sp2><b><post>" from `c` on. */
  lemma BackChars(pre: string, a: string, sp1: string, c: char, sp2: string, b: string, post: string)
    ensures var s := pre + a + sp1 + [c] + sp2 + b + post;
            var e2 := |pre| + |a| + |sp1|;
            var e3 := e2 + 1 + |sp2|;
            s[e2] == c
            && (forall j :: 0 <= j < |sp2| ==> s[e2 + 1 + j] == sp2[j])
            && (forall j :: 0 <= j < |b| ==> s[e3 + j] == b[j])
            && (e3 + |b| < |s| ==> s[e3 + |b|] == post[0])
  {
    var p2 := pre + a + sp1;
    var p3 := p2 + [c];
    var p4 := p3 + sp2;
    var p5 := p4 + b;
    var s := p5 + post;
    assert s[|p2|] == p5[|p2|] == p4[|p2|] == p3[|p2|];
    forall j | 0 <= j < |sp2| ensures s[|p3| + j] == sp2[j] {
      assert s[|p3| + j] == p5[|p3| + j] == p4[|p3| + j];
    }
    forall j | 0 <= j < |b| ensures s[|p4| + j] == b[j] {
      assert s[|p4| + j] == p5[|p4| + j];
    }
  }

  /**
   * A team size written "<n><spaces>v<spaces><m>" in either case, after a
   * prefix without digits and before anything not starting with a digit,
   * allows n + m players: "2v2" gives 4, "x 3 V 3" gives 6.
   */
  lemma TeamSizeSum(pre: string, n: nat, sp1: string, c: char, sp2: string, m: nat, post: string)
    requires forall i :: 0 <= i < |pre| ==> !IsDigit(pre[i])
    requires AllSpace(sp1) && IsV(c) && AllSpace(sp2)
    requires post == [] || !IsDigit(post[0])
    ensures MaxPlayersFromTeamSize(Str(pre + NatToString(n) + sp1 + [c] + sp2 + NatToString(m) + post)) == Some(n + m)
  {
    var s := pre + NatToString(n) + sp1 + [c] + sp2 + NatToString(m) + post;
    LaidOutMatch(pre, n, sp1, c, sp2, m, post);
    CapOfMatchAfterPrefix(s, |pre|, n, m);
  }

  /** "<pre><n><sp1>v<sp2><m><post>" has its match right after the digit-free prefix. */
  lemma LaidOutMatch(pre: string, n: nat, sp1: string, c: char, sp2: string, m: nat, post: string)
    requires forall i :: 0 <= i < |pre| ==> !IsDigit(pre[i])
    requires AllSpace(sp1) && IsV(c) && AllSpace(sp2)
    requires post == [] || !IsDigit(post[0])
    ensures var s := pre + NatToString(n) + sp1 + [c] + sp2 + NatToString(m) + post;
            |pre| <= |s| && (forall k :: 0 <= k < |pre| ==> !IsDigit(s[k])) && MatchAt(s, |pre|) == Some((n, m))
  {
    var a, b := NatToString(n), NatToString(m);
    var s := pre + a + sp1 + [c] + sp2 + b + post;
    var p := |pre|;
    var e1 := p + |a|;
    var e2 := e1 + |sp1|;
    var e3 := e2 + 1 + |sp2|;
    var e4 := e3 + |b|;
    LayoutRuns(pre, a, sp1, c, sp2, b, post);
    TeamSizeMatch(s, p, e1, e2, e3, e4, n, m);
  }

  /** A match after a stretch without digits is the first one, and sets the cap. */
  lemma CapOfMatchAfterPrefix(s: string, p: nat, n: nat, m: nat)
    requires p <= |s| && forall k :: 0 <= k < p ==> !IsDigit(s[k])
    requires MatchAt(s, p) == Some((n, m))
    ensures MaxPlayersFromTeamSize(Str(s)) == Some(n + m)
  {
    FirstMatchSkips(s, 0, p);
    MaxPlayersOfMatch(s, n, m);
  }

  lemma TeamSizeMatch(s: string, p: nat, e1: nat, e2: nat, e3: nat, e4: nat, n: nat, m: nat)
    requires p < e1 <= e2 < e3 <= e4 <= |s| && e3 < e4
    requires forall k :: p <= k < e1 ==> IsDigit(s[k])
    requires forall k :: e1 <= k < e2 ==> IsSpace(s[k])
    requires IsV(s[e2])
    requires forall k :: e2 + 1 <= k < e3 ==> IsSpace(s[k])
    requires forall k :: e3 <= k < e4 ==> IsDigit(s[k])
    requires e4 == |s| || !IsDigit(s[e4])
    requires s[p..e1] == NatToString(n) && s[e3..e4] == NatToString(m)
    ensures MatchAt(s, p) == Some((n, m))
  {
    RunEnds(s, p, e1, e2, e3, e4);
    MatchAtIs(s, p, e1, e2, e3, e4);
    NatToStringRoundTrip(n);
    NatToStringRoundTrip(m);
  }

  /** A team size without any digit imposes no cap. */
  lemma NoDigitNoCap(s: string)
    requires forall i :: 0 <= i < |s| ==> !IsDigit(s[i])
    ensures MaxPlayersFromTeamSize(Str(s)) == None
  {
    FirstMatchSkips(s, 0, |s|);
  }

  lemma MaxPlayersOfMatch(s: string, n: nat, m: nat)
    requires FirstMatch(s, 0) == Some((n, m))
    ensures MaxPlayersFromTeamSize(Str(s)) == Some(n + m)
  {
  }

  /**
   * The cap is the sum of the two numbers of the leftmost "<n> v <m>" in a
   * string team size, and there is no cap exactly when nothing matches.
   */
  lemma MaxPlayersIsLeftmostSum(teamSize: string)
    ensures MaxPlayersFromTeamSize(Str(teamSize)).None? <==> forall p :: 0 <= p <= |teamSize| ==> MatchAt(teamSize, p).None?
    ensures var r := MaxPlayersFromTeamSize(Str(teamSize));
            r.Some? ==>
              exists p :: 0 <= p < |teamSize| && MatchAt(teamSize, p).Some?
                          && (forall q :: 0 <= q < p ==> MatchAt(teamSize, q).None?)
                          && r.value == MatchAt(teamSize, p).value.0 + MatchAt(teamSize, p).value.1
  {
    CapOfFirstMatch(teamSize);
    FirstMatchNone(teamSize, 0);
    if FirstMatch(teamSize, 0).Some? {
      var p := FirstMatchAt(teamSize, 0);
    }
  }

  lemma CapOfFirstMatch(s: string)
    ensures MaxPlayersFromTeamSize(Str(s))
         == if FirstMatch(s, 0).Some? then Some(FirstMatch(s, 0).value.0 + FirstMatch(s, 0).value.1) else None
  {
    if s == [] {
      assert FirstMatch(s, 0) == None;
    }
  }

  /** "kvk" allows 2k players. */
  lemma SymmetricCap(k: nat)
    ensures MaxPlayersFromTeamSize(Str(NatToString(k) + "v" + NatToString(k))) == Some(2 * k)
  {
    TeamSizeSum("", k, "", 'v', "", k, "");
    EmptyPartsVanish(NatToString(k), NatToString(k));
  }

  lemma EmptyPartsVanish(a: string, b: string)
    ensures "" + a + "" + ['v'] + "" + b + "" == a + "v" + b
  {
    assert "" + a + "" == a;
    assert "" + b + "" == b;
  }

  lemma OneVersusOneCap()
    ensures MaxPlayersFromTeamSize(Str("1v1")) == Some(2)
  {
    SymmetricCap(1);
    OneVersusOneText();
  }

  lemma OneVersusOneText()
    ensures NatToString(1) + "v" + NatToString(1) == "1v1"
  {
    assert NatToString(1) == "1";
  }

  lemma TwoVersusTwoCap()
    ensures MaxPlayersFromTeamSize(Str("2v2")) == Some(4)
  {
    SymmetricCap(2);
    TwoVersusTwoText();
  }

  lemma TwoVersusTwoText()
    ensures NatToString(2) + "v" + NatToString(2) == "2v2"
  {
    assert NatToString(2) == "2";
  }

  lemma OptionAgrees(o: Config.TeamSizeOption, k: nat)
    requires o.value == NatToString(k) + "v" + NatToString(k)
    requires o.description == NatToString(2 * k) + " players total"
    ensures MaxPlayersFromTeamSize(Str(o.value)) == Some(2 * k)
  {
    SymmetricCap(k);
  }

  /** The i-th team-size option reads "kvk" with k = i + 1, described as 2k players. */
  lemma OptionText(i: nat)
    requires i < |Config.TEAM_SIZE_OPTIONS|
    ensures Config.TEAM_SIZE_OPTIONS[i].value == NatToString(i + 1) + "v" + NatToString(i + 1)
    ensures Config.TEAM_SIZE_OPTIONS[i].description == NatToString(2 * (i + 1)) + " players total"
  {
    if i == 0 { OneVersusText(); }
    else if i == 1 { TwoVersusText(); }
    else if i == 2 { ThreeVersusText(); }
    else if i == 3 { FourVersusText(); }
    else if i == 4 { FiveVersusText(); }
    else { SixVersusText(); }
  }

  lemma OneVersusText()
    ensures Config.TEAM_SIZE_OPTIONS[0].value == NatToString(1) + "v" + NatToString(1)
    ensures Config.TEAM_SIZE_OPTIONS[0].description == NatToString(2) + " players total"
  {
    assert NatToString(1) == "1";
    assert NatToString(2) == "2";
  }

  lemma TwoVersusText()
    ensures Config.TEAM_SIZE_OPTIONS[1].value == NatToString(2) + "v" + NatToString(2)
    ensures Config.TEAM_SIZE_OPTIONS[1].description == NatToString(4) + " players total"
  {
    assert NatToString(2) == "2";
    assert NatToString(4) == "4";
  }

  lemma ThreeVersusText()
    ensures Config.TEAM_SIZE_OPTIONS[2].value == NatToString(3) + "v" + NatToString(3)
    ensures Config.TEAM_SIZE_OPTIONS[2].description == NatToString(6) + " players total"
  {
    assert NatToString(3) == "3";
    assert NatToString(6) == "6";
  }

  lemma FourVersusText()
    ensures Config.TEAM_SIZE_OPTIONS[3].value == NatToString(4) + "v" + NatToString(4)
    ensures Config.TEAM_SIZE_OPTIONS[3].description == NatToString(8) + " players total"
  {
    assert NatToString(4) == "4";
    assert NatToString(8) == "8";
  }

  lemma FiveVersusText()
    ensures Config.TEAM_SIZE_OPTIONS[4].value == NatToString(5) + "v" + NatToString(5)
    ensures Config.TEAM_SIZE_OPTIONS[4].description == NatToString(10) + " players total"
  {
    assert NatToString(5) == "5";
    assert NatToString(10) == "10" by {
      assert NatToString(10) == NatToString(1) + [DigitChar(0)];
    }
  }

  lemma SixVersusText()
    ensures Config.TEAM_SIZE_OPTIONS[5].value == NatToString(6) + "v" + NatToString(6)
    ensures Config.TEAM_SIZE_OPTIONS[5].description == NatToString(12) + " players total"
  {
    assert NatToString(6) == "6";
    assert NatToString(12) == "12" by {
      assert NatToString(12) == NatToString(1) + [DigitChar(2)];
    }
  }

  /** Every team-size option "kvk" allows 2k players, the number its description announces. */
  lemma TeamSizeOptionsAgree(i: nat)
    requires i < |Config.TEAM_SIZE_OPTIONS|
    ensures MaxPlayersFromTeamSize(Str(Config.TEAM_SIZE_OPTIONS[i].value)) == Some(2 * (i + 1))
    ensures Config.TEAM_SIZE_OPTIONS[i].description == NatToString(2 * (i + 1)) + " players total"
  {
    OptionText(i);
    OptionAgrees(Config.TEAM_SIZE_OPTIONS[i], i + 1);
  }
}

=== FILE: js.dfy ===
/**
 * The JavaScript values the bot handles, as decoded from JSON: ids, dates,
 * map names, log metadata. Numbers are integers (every number the core
 * compares or renders is a millisecond count, a count or an id).
 */
module Js {
  import opened Wrappers
  import Text

  datatype Value =
    | Undefined
    | Null
    | Bool(b: bool)
    | Num(n: int)
    | Str(s: string)
    | Obj(fields: seq<(string, Value)>)

  /** JavaScript truthiness: `undefined`, `null`, `false`, `0` and `""` are falsy. */
  predicate Truthy(v: Value)
  {
    match v
    case Undefined => false
    case Null => false
    case Bool(b) => b
    case Num(n) => n != 0
    case Str(s) => s != ""
    case Obj(_) => true
  }

  /** `a || b`. */
  function Or(a: Value, b: Value): (r: Value)
    ensures Truthy(r) <==> Truthy(a) || Truthy(b)
    ensures Truthy(a) ==> r == a
  {
    if Truthy(a) then a else b
  }

  /** `String(v)`. */
  function ToString(v: Value): string
  {
    match v
    case Undefined => "undefined"
    case Null => "null"
    case Bool(b) => if b then "true" else "false"
    case Num(n) => Text.IntToString(n)
    case Str(s) => s
    case Obj(_) => "[object Object]"
  }

  /** `typeof v === 'object' && v !== null`. */
  predicate IsObject(v: Value)
  {
    v.Obj?
  }

  /** Property read `v[key]` on a non-null value: an object's own field, otherwise `undefined`. */
  function Get(v: Value, key: string): Value
  {
    match v
    case Obj(fields) => Lookup(fields, key)
    case _ => Undefined
  }

  function Lookup(fields: seq<(string, Value)>, key: string): Value
  {
    if fields == [] then Undefined
    else if fields[0].0 == key then fields[0].1
    else Lookup(fields[1..], key)
  }

  /**
   * `Number(v)` where it yields an integer; `None` stands for NaN. Strings are
   * read only in the plain-digits form.
   */
  function ToNumber(v: Value): Option<int>
  {
    match v
    case Undefined => None
    case Null => Some(0)
    case Bool(b) => Some(if b then 1 else 0)
    case Num(n) => Some(n)
    case Str(s) =>
      if s == "" then Some(0)
      else if Text.AllDigits(s) then Some(Text.DigitsValue(s))
      else None
    case Obj(_) => None
  }

  /**
   * `new Date(v).getTime()`; `None` stands for an Invalid Date (NaN). Parsing a
   * date string is the JavaScript Date library's business and is passed in as
   * `parseDateString`.
   */
  function DateMs(v: Value, parseDateString: string -> Option<int>): Option<int>
  {
    match v
    case Num(n) => Some(n)
    case Str(s) => parseDateString(s)
    case Null => Some(0)
    case Bool(b) => Some(if b then 1 else 0)
    case _ => None
  }

  /** `String(v)` of a truthy number or string is never empty. */
  lemma ToStringOfTruthyPrimitive(v: Value)
    requires Truthy(v) && (v.Num? || v.Str?)
    ensures ToString(v) != ""
  {
  }
}

=== FILE: lobby_monitor.dfy ===
/**
 * The lobby monitor (`checkLobbies`): each tick lists the open wc3stats lobbies,
 * keeps the Island Troll Tribes ones, drops those announced in the last hour,
 * announces the rest in listing order and records each announcement after it
 * went out; a cleanup job deletes records older than 24 hours.
 */
module LobbyMonitor {
  import opened Wrappers
  import opened Js
  import opened Seqs
  import opened NotificationStore
  import opened Wc3Stats
  import Config
  import Settings

  /** The fields of a lobby notification record. `createdAt` is `None` where the product is NaN. */
  datatype LobbyFields = LobbyFields(lobbyId: Value, mapName: Value, host: Value, server: Value, createdAt: Option<int>)

  /** What one tick sees of the outside world. */
  datatype World = World(
    configured: bool,                  // monitoring enabled, client set, channel id set
    response: Option<Response>,        // the `gamelist` response, None when the request failed
    channelFound: bool,
    readOk: bool,                      // the notified-ids query succeeded
    sendOk: Lobby -> bool,             // building the embed and `channel.send` both succeeded
    writeOk: Lobby -> bool,
    now: int)

  datatype Tick = Tick(attempted: seq<Lobby>, delivered: seq<Lobby>, store: Store<LobbyFields>)

  /** Record `k` exists, was notified within the last hour and carries a truthy `lobbyId`. */
  predicate Counts(docs: map<string, Doc<LobbyFields>>, k: string, now: int)
  {
    k in docs && docs[k].notifiedAt >= now - Config.LOBBY_DEDUP_WINDOW_MS && Truthy(docs[k].fields.lobbyId)
  }

  /**
   * `getNotifiedLobbyIds`: the raw `lobbyId` of every record notified within the
   * last hour whose `lobbyId` is truthy; empty when the store is offline or the
   * query fails.
   */
  function NotifiedLobbyIds(s: Store<LobbyFields>, readOk: bool, now: int): (r: set<Value>)
    ensures s.Offline? || !readOk ==> r == {}
    ensures s.Online? && readOk ==> forall k :: Counts(s.docs, k, now) ==> s.docs[k].fields.lobbyId in r
    ensures s.Online? && readOk ==> forall v :: v in r ==> exists k :: Counts(s.docs, k, now) && s.docs[k].fields.lobbyId == v
    ensures forall v :: v in r ==> Truthy(v)
  {
    if s.Offline? || !readOk then {}
    else set k | k in s.docs && Counts(s.docs, k, now) :: s.docs[k].fields.lobbyId
  }

  /** `!notifiedLobbyIds.has(lobby.id)`: unlike the completed-games monitor, no truthiness test. */
  function NotIn(notified: set<Value>): Lobby -> bool
  {
    (l: Lobby) => l.id !in notified
  }

  /** `lobby.created ? lobby.created * 1000 : Date.now()`. */
  function CreatedAtMs(created: Value, now: int): Option<int>
  {
    if Truthy(created) then
      match ToNumber(created)
      case Some(n) => Some(n * 1000)
      case None => None
    else Some(now)
  }

  /** The record `markLobbyAsNotified` writes; it replaces any existing one. */
  function LobbyRecord(l: Lobby, now: int): (f: LobbyFields)
    ensures f.lobbyId == l.id && f.mapName == l.mapName && f.host == l.host && f.server == l.server
    ensures !Truthy(l.created) ==> f.createdAt == Some(now)
    ensures l.created.Num? && l.created.n != 0 ==> f.createdAt == Some(l.created.n * 1000)
  {
    LobbyFields(l.id, l.mapName, l.host, l.server, CreatedAtMs(l.created, now))
  }

  function LobbyDocId(l: Lobby): string
  {
    ToString(l.id)
  }

  function LobbyRecorder(now: int): Recorder<Lobby, LobbyFields>
  {
    Recorder(LobbyDocId, (l: Lobby, prev: Option<LobbyFields>) => LobbyRecord(l, now))
  }

  function Outcomes(w: World): Oracle<Lobby>
  {
    Oracle(w.sendOk, w.writeOk)
  }

  /** The ITT lobbies of this tick, when fetching and filtering succeeded. */
  function Listed(w: World): Result<seq<Lobby>>
  {
    match FetchActiveLobbies(w.response)
    case Err(e) => Err(e)
    case Ok(all) => FilterITTGames(Array(all))
  }

  /** The tick got past its guards: configured, listed some ITT lobby, found the channel. */
  predicate Proceeds(w: World)
  {
    w.configured && Listed(w).Ok? && Listed(w).value != [] && w.channelFound
  }

  function Fresh(w: World, s: Store<LobbyFields>): seq<Lobby>
    requires Listed(w).Ok?
  {
    Filter(Listed(w).value, NotIn(NotifiedLobbyIds(s, w.readOk, w.now)))
  }

  /** `checkLobbies`. */
  function CheckLobbies(w: World, s: Store<LobbyFields>): (r: Tick)
    ensures !Proceeds(w) ==> r == Tick([], [], s)
    ensures Proceeds(w) ==> r.attempted == Fresh(w, s)
    ensures r.delivered == Filter(r.attempted, w.sendOk)
    ensures r.store == DeliverAll(r.attempted, s, w.now, LobbyRecorder(w.now), Outcomes(w)).store
  {
    if !w.configured then Tick([], [], s)
    else
      match Listed(w)
      case Err(_) => Tick([], [], s)
      case Ok(itt) =>
        if itt == [] || !w.channelFound then Tick([], [], s)
        else
          var news := Fresh(w, s);
          if news == [] then Tick([], [], s)
          else
            var d := DeliverAll(news, s, w.now, LobbyRecorder(w.now), Outcomes(w));
            Tick(news, d.delivered, d.store)
  }

  /**
   * With the monitoring names `config.js` does not export, the guard never
   * passes: whatever wc3stats lists, a tick announces nothing and leaves the
   * store alone.
   */
  lemma ConfigAsWrittenNeverAnnounces(w: World, s: Store<LobbyFields>, clientSet: bool)
    requires w.configured == Settings.LobbyConfigured(Settings.CONFIG_AS_WRITTEN, clientSet)
    ensures CheckLobbies(w, s) == Tick([], [], s)
  {
    Settings.ConfigAsWrittenSwitchesOff(clientSet, false, false);
  }

  /**
   * Given the names, the configuration decides: a listed ITT lobby that was not
   * announced in the last hour is attempted, once the channel is found, exactly
   * when monitoring is enabled, the client is set and a channel id is given;
   * it is announced when, in addition, its send goes out.
   */
  lemma ConfigurationDecidesAnnouncement(w: World, s: Store<LobbyFields>, e: Settings.Env, clientSet: bool, l: Lobby)
    requires w.configured == Settings.LobbyConfigured(e, clientSet)
    requires Listed(w).Ok? && l in Listed(w).value && w.channelFound
    requires l.id !in NotifiedLobbyIds(s, w.readOk, w.now)
    ensures l in CheckLobbies(w, s).attempted <==>
              clientSet && Truthy(e.lobbyMonitoringEnabled) && Truthy(e.lobbyChannelId)
    ensures l in CheckLobbies(w, s).delivered <==>
              clientSet && Truthy(e.lobbyMonitoringEnabled) && Truthy(e.lobbyChannelId) && w.sendOk(l)
  {
    if w.configured {
      assert l in Fresh(w, s);
    }
  }

  /**
   * `createLobbyEmbed` is imported from `components/embeds.js`, which does not
   * export it. Read as undefined, calling it throws inside the per-lobby `try`,
   * before `channel.send`, so as written no send ever goes out.
   */
  function EmbedAsWritten(w: World): World
  {
    w.(sendOk := (l: Lobby) => false)
  }

  /**
   * With the embed builder as written, a tick announces nothing and records
   * nothing, so every later tick with the same listing attempts the same
   * lobbies again.
   */
  lemma EmbedAsWrittenAnnouncesNothing(w: World, s: Store<LobbyFields>)
    ensures CheckLobbies(EmbedAsWritten(w), s).delivered == []
    ensures CheckLobbies(EmbedAsWritten(w), s).store == s
    ensures Proceeds(w) ==> CheckLobbies(EmbedAsWritten(w), s).attempted == Fresh(w, s)
    ensures CheckLobbies(EmbedAsWritten(w), CheckLobbies(EmbedAsWritten(w), s).store) == CheckLobbies(EmbedAsWritten(w), s)
  {
    var w0 := EmbedAsWritten(w);
    var r := CheckLobbies(w0, s);
    NoSendNoChange(r.attempted, s, w.now, LobbyRecorder(w.now), Outcomes(w0));
    FilterNone(r.attempted, w0.sendOk);
  }

  /** `cleanupOldNotifications`: delete records notified more than 24 hours ago. */
  function CleanupOldNotifications(s: Store<LobbyFields>, now: int, ok: bool): (r: Store<LobbyFields>)
    ensures s.Offline? || !ok ==> r == s
    ensures s.Online? && ok ==> r.Online? && forall k :: k in r.docs <==>
              k in s.docs && !(s.docs[k].notifiedAt < now - Config.LOBBY_RETENTION_MS)
    ensures s.Online? && ok ==> forall k :: k in r.docs ==> r.docs[k] == s.docs[k]
  {
    Sweep(s, now - Config.LOBBY_RETENTION_MS, ok).store
  }

  // ---------------------------------------------------------------- properties

  function ById(): (string, LobbyFields) -> bool
  {
    (k: string, f: LobbyFields) => ToString(f.lobbyId) == k
  }

  /** Every record a tick writes stores the lobby id it is filed under. */
  lemma WrittenRecordsCarryId(w: World, s: Store<LobbyFields>)
    requires s.Online?
    ensures forall k :: WrittenKey(CheckLobbies(w, s).attempted, k, LobbyRecorder(w.now), Outcomes(w)) ==>
              ToString(CheckLobbies(w, s).store.docs[k].fields.lobbyId) == k
  {
    var r := CheckLobbies(w, s);
    DeliverAllWritesBuiltFields(r.attempted, s, w.now, LobbyRecorder(w.now), Outcomes(w), ById());
  }

  function IdAt(key: string, id: Value): (string, LobbyFields) -> bool
  {
    (k: string, f: LobbyFields) => k == key ==> f.lobbyId == id
  }

  /**
   * A lobby whose record this tick wrote is not announced again within the hour,
   * provided its id is truthy and no other lobby of the tick has an id with the
   * same string form.
   */
  lemma DeliveredLobbyNotRepeatedWithinHour(w: World, s: Store<LobbyFields>, l: Lobby, now2: int)
    requires s.Online?
    requires l in CheckLobbies(w, s).attempted && Recorded(l, LobbyRecorder(w.now), Outcomes(w))
    requires Truthy(l.id)
    requires forall j :: 0 <= j < |CheckLobbies(w, s).attempted| && LobbyDocId(CheckLobbies(w, s).attempted[j]) == LobbyDocId(l)
               ==> CheckLobbies(w, s).attempted[j].id == l.id
    requires w.now <= now2 <= w.now + Config.LOBBY_DEDUP_WINDOW_MS
    ensures l.id in NotifiedLobbyIds(CheckLobbies(w, s).store, true, now2)
  {
    var r := CheckLobbies(w, s);
    WrittenLobbyRecord(w, s, l);
    assert Counts(r.store.docs, LobbyDocId(l), now2);
  }

  /** The record a tick wrote for a recorded lobby is stamped with the tick's time and holds that lobby's id. */
  lemma WrittenLobbyRecord(w: World, s: Store<LobbyFields>, l: Lobby)
    requires s.Online?
    requires l in CheckLobbies(w, s).attempted && Recorded(l, LobbyRecorder(w.now), Outcomes(w))
    requires forall j :: 0 <= j < |CheckLobbies(w, s).attempted| && LobbyDocId(CheckLobbies(w, s).attempted[j]) == LobbyDocId(l)
               ==> CheckLobbies(w, s).attempted[j].id == l.id
    ensures var docs := CheckLobbies(w, s).store.docs;
            LobbyDocId(l) in docs && docs[LobbyDocId(l)].notifiedAt == w.now
            && docs[LobbyDocId(l)].fields.lobbyId == l.id
  {
    var r := CheckLobbies(w, s);
    var i :| 0 <= i < |r.attempted| && r.attempted[i] == l;
    var rec := LobbyRecorder(w.now);
    var good := IdAt(LobbyDocId(l), l.id);
    assert WrittenKey(r.attempted, LobbyDocId(l), rec, Outcomes(w));
    forall j, prev: Option<LobbyFields> | 0 <= j < |r.attempted| && Recorded(r.attempted[j], rec, Outcomes(w))
      ensures good(rec.docId(r.attempted[j]), rec.fields(r.attempted[j], prev)) {
    }
    DeliverAllWritesBuiltFields(r.attempted, s, w.now, rec, Outcomes(w), good);
    assert good(LobbyDocId(l), r.store.docs[LobbyDocId(l)].fields);
  }

  /** Every record is filed under the string form of its own `lobbyId`, as `markLobbyAsNotified` writes them. */
  predicate WellKeyed(s: Store<LobbyFields>)
  {
    s.Online? ==> forall k :: k in s.docs ==> ToString(s.docs[k].fields.lobbyId) == k
  }

  lemma TickPreservesWellKeyed(w: World, s: Store<LobbyFields>)
    requires WellKeyed(s)
    ensures WellKeyed(CheckLobbies(w, s).store)
  {
    if s.Online? {
      WrittenRecordsCarryId(w, s);
    }
  }

  /**
   * The dedup window is one hour: a listed lobby every record of which, if any,
   * is older than that is announced again by a tick that proceeds.
   */
  lemma ExpiredLobbyIsAnnouncedAgain(w: World, s: Store<LobbyFields>, l: Lobby)
    requires Proceeds(w) && l in Listed(w).value
    requires s.Online? ==> forall k :: k in s.docs && s.docs[k].fields.lobbyId == l.id ==>
               s.docs[k].notifiedAt < w.now - Config.LOBBY_DEDUP_WINDOW_MS
    ensures l in CheckLobbies(w, s).attempted
  {
    assert l.id !in NotifiedLobbyIds(s, w.readOk, w.now);
  }

  /** A listed lobby with a falsy id is never counted as notified: every tick that proceeds announces it again. */
  lemma FalsyIdLobbyAlwaysAnnounced(w: World, s: Store<LobbyFields>, l: Lobby)
    requires Proceeds(w) && l in Listed(w).value && !Truthy(l.id)
    ensures l in CheckLobbies(w, s).attempted
  {
  }

  /**
   * A new lobby whose record was not written — its send failed, its write
   * failed, or its id cannot name a record — is announced by any later tick
   * that lists it.
   */
  lemma UnrecordedLobbyIsRetried(w: World, s: Store<LobbyFields>, l: Lobby, w2: World)
    requires s.Online? && w.readOk && Proceeds(w)
    requires l.id !in NotifiedLobbyIds(s, true, w.now)
    requires !WrittenKey(CheckLobbies(w, s).attempted, LobbyDocId(l), LobbyRecorder(w.now), Outcomes(w))
    requires Proceeds(w2) && l in Listed(w2).value && w2.now >= w.now
    ensures l in CheckLobbies(w2, CheckLobbies(w, s).store).attempted
  {
    StillUnnotifiedAfterTick(w, s, l, w2.now);
  }

  /** A lobby not counted before a tick that wrote no record under its id is not counted after it either. */
  lemma StillUnnotifiedAfterTick(w: World, s: Store<LobbyFields>, l: Lobby, now2: int)
    requires s.Online? && w.readOk
    requires l.id !in NotifiedLobbyIds(s, true, w.now)
    requires !WrittenKey(CheckLobbies(w, s).attempted, LobbyDocId(l), LobbyRecorder(w.now), Outcomes(w))
    requires now2 >= w.now
    ensures l.id !in NotifiedLobbyIds(CheckLobbies(w, s).store, true, now2)
  {
    var r := CheckLobbies(w, s);
    WrittenRecordsCarryId(w, s);
    forall k | k in r.store.docs && Counts(r.store.docs, k, now2)
      ensures r.store.docs[k].fields.lobbyId != l.id {
      if WrittenKey(r.attempted, k, LobbyRecorder(w.now), Outcomes(w)) {
        assert ToString(r.store.docs[k].fields.lobbyId) == k;
      } else {
        assert Counts(s.docs, k, w.now);
      }
    }
  }

  /**
   * Re-running a tick on the same listing at the same instant, after every send
   * and write went through, announces nothing — given truthy ids that name
   * records and that are told apart by their string form.
   */
  lemma {:induction false} RerunAnnouncesNothing(w: World, s: Store<LobbyFields>)
    requires s.Online? && WellKeyed(s) && w.readOk && Listed(w).Ok?
    requires forall i :: 0 <= i < |Listed(w).value| ==>
               w.sendOk(Listed(w).value[i]) && w.writeOk(Listed(w).value[i])
               && Truthy(Listed(w).value[i].id) && ValidDocId(LobbyDocId(Listed(w).value[i]))
    requires forall i, j :: (0 <= i < |Listed(w).value| && 0 <= j < |Listed(w).value|
               && LobbyDocId(Listed(w).value[i]) == LobbyDocId(Listed(w).value[j])) ==> Listed(w).value[i].id == Listed(w).value[j].id
    ensures CheckLobbies(w, CheckLobbies(w, s).store).attempted == []
  {
    if Proceeds(w) {
      var itt := Listed(w).value;
      var after := NotifiedLobbyIds(CheckLobbies(w, s).store, true, w.now);
      forall i | 0 <= i < |itt| ensures !NotIn(after)(itt[i]) {
        if itt[i].id in NotifiedLobbyIds(s, true, w.now) {
          KnownLobbyStaysNotified(w, s, i);
        } else {
          NewLobbyBecomesNotified(w, s, itt[i]);
        }
      }
      FilterNone(itt, NotIn(after));
    }
  }

  /** A listed lobby already counted before the tick is still counted after it. */
  lemma KnownLobbyStaysNotified(w: World, s: Store<LobbyFields>, i: nat)
    requires s.Online? && WellKeyed(s) && w.readOk && Proceeds(w)
    requires i < |Listed(w).value|
    requires forall i, j :: (0 <= i < |Listed(w).value| && 0 <= j < |Listed(w).value|
               && LobbyDocId(Listed(w).value[i]) == LobbyDocId(Listed(w).value[j])) ==> Listed(w).value[i].id == Listed(w).value[j].id
    requires Listed(w).value[i].id in NotifiedLobbyIds(s, true, w.now)
    ensures Listed(w).value[i].id in NotifiedLobbyIds(CheckLobbies(w, s).store, true, w.now)
  {
    var itt := Listed(w).value;
    var l := itt[i];
    var r := CheckLobbies(w, s);
    var before := NotifiedLobbyIds(s, true, w.now);
    var rec := LobbyRecorder(w.now);
    var k :| k in s.docs && Counts(s.docs, k, w.now) && s.docs[k].fields.lobbyId == l.id;
    assert k == LobbyDocId(l);
    forall j | 0 <= j < |r.attempted| ensures LobbyDocId(r.attempted[j]) != k {
      // A lobby of this tick with the same id string has the same id, so it was not new.
      assert r.attempted[j] in itt;
      assert r.attempted[j].id !in before;
    }
    assert !WrittenKey(r.attempted, k, rec, Outcomes(w));
    assert Counts(r.store.docs, k, w.now);
  }

  /** A listed lobby not counted before the tick, sent and recorded by it, is counted after it. */
  lemma NewLobbyBecomesNotified(w: World, s: Store<LobbyFields>, l: Lobby)
    requires s.Online? && w.readOk && Proceeds(w)
    requires l in Listed(w).value && l.id !in NotifiedLobbyIds(s, true, w.now)
    requires w.sendOk(l) && w.writeOk(l) && Truthy(l.id) && ValidDocId(LobbyDocId(l))
    requires forall i, j :: (0 <= i < |Listed(w).value| && 0 <= j < |Listed(w).value|
               && LobbyDocId(Listed(w).value[i]) == LobbyDocId(Listed(w).value[j])) ==> Listed(w).value[i].id == Listed(w).value[j].id
    ensures l.id in NotifiedLobbyIds(CheckLobbies(w, s).store, true, w.now)
  {
    var itt := Listed(w).value;
    var r := CheckLobbies(w, s);
    assert l in r.attempted;
    forall j | 0 <= j < |r.attempted| && LobbyDocId(r.attempted[j]) == LobbyDocId(l)
      ensures r.attempted[j].id == l.id {
      assert r.attempted[j] in itt;
    }
    DeliveredLobbyNotRepeatedWithinHour(w, s, l, w.now);
  }

  /** The 24-hour cleanup never removes a record the one-hour dedup window still counts, up to 23 hours later. */
  lemma CleanupKeepsDedupWindow(s: Store<LobbyFields>, now: int, readOk: bool, now2: int)
    requires now2 - Config.LOBBY_DEDUP_WINDOW_MS >= now - Config.LOBBY_RETENTION_MS
    ensures NotifiedLobbyIds(CleanupOldNotifications(s, now, true), readOk, now2) == NotifiedLobbyIds(s, readOk, now2)
  {
    var c := CleanupOldNotifications(s, now, true);
    if s.Online? && readOk {
      forall k ensures Counts(c.docs, k, now2) <==> Counts(s.docs, k, now2) {
      }
      assert forall k :: k in c.docs && Counts(c.docs, k, now2) ==> c.docs[k] == s.docs[k];
    }
  }
}

=== FILE: logger.dfy ===
/**
 * `utils/logger.js`: one line per log call, "LEVEL|hh:mm|message", followed by
 * the error (for `error`) and the metadata rendered as " | key=value ...".
 */
module Logger {
  import opened Wrappers
  import opened Js
  import opened Text
  import opened Seqs

  type Entry = (string, Value)

  /**
   * `Object.entries(meta)` for a truthy `meta`: an object's own fields in
   * enumeration order, a string's characters under their indices, nothing for
   * a number or a boolean. `undefined` and `null` never get here.
   */
  function Entries(meta: Value): (r: seq<Entry>)
    ensures meta.Obj? ==> r == meta.fields
    ensures meta.Str? ==> |r| == |meta.s| && forall i :: 0 <= i < |r| ==> r[i] == (NatToString(i), Str([meta.s[i]]))
    ensures !meta.Obj? && !meta.Str? ==> r == []
  {
    match meta
    case Obj(fields) => fields
    case Str(s) => seq(|s|, i requires 0 <= i < |s| => (NatToString(i), Str([s[i]])))
    case _ => []
  }

  predicate Defined(e: Entry)
  {
    e.1 != Undefined
  }

  /** `key=value`, objects (and arrays) through `JSON.stringify`, the rest through `String`. */
  function Render(e: Entry, json: Value -> string): string
  {
    e.0 + "=" + (if IsObject(e.1) then json(e.1) else ToString(e.1))
  }

  function RenderAll(es: seq<Entry>, json: Value -> string): (r: seq<string>)
    ensures |r| == |es|
    ensures forall i :: 0 <= i < |es| ==> r[i] == Render(es[i], json)
  {
    seq(|es|, i requires 0 <= i < |es| => Render(es[i], json))
  }

  /**
   * `formatMeta`: nothing when no entry has a defined value, otherwise " | "
   * and the rendered defined entries, in order, separated by single spaces.
   */
  function FormatMeta(meta: Value, json: Value -> string): (r: string)
    ensures r == "" <==> Filter(Entries(meta), Defined) == []
    ensures r != "" ==> StartsWith(r, " | ")
                        && r == " | " + Join(RenderAll(Filter(Entries(meta), Defined), json), " ")
  {
    if !Truthy(meta) || |Entries(meta)| == 0 then ""
    else
      var filtered := RenderAll(Filter(Entries(meta), Defined), json);
      if |filtered| > 0 then " | " + Join(filtered, " ") else ""
  }

  /** What a handler passes as the error: an `Error` instance, or any other value. */
  datatype Thrown = ErrorObj(name: string, message: string) | Plain(v: Value)

  /** `formatError`: nothing for a falsy value, " | error: name: message" for an `Error`, else `String(error)`. */
  function FormatError(e: Thrown): (r: string)
    ensures r == "" <==> e.Plain? && !Truthy(e.v)
    ensures e.ErrorObj? ==> r == " | error: " + e.name + ": " + e.message
    ensures e.Plain? && Truthy(e.v) ==> r == " | error: " + ToString(e.v)
  {
    match e
    case ErrorObj(name, message) => " | error: " + name + ": " + message
    case Plain(v) => if !Truthy(v) then "" else " | error: " + ToString(v)
  }

  datatype Level = Info | Warn | Error | Debug

  function LevelName(level: Level): string
  {
    match level
    case Info => "INFO"
    case Warn => "WARN"
    case Error => "ERROR"
    case Debug => "DEBUG"
  }

  /** `getTimeString`: the local hours and minutes, each padded to two digits. */
  function TimeString(hours: nat, minutes: nat): (r: string)
    requires hours < 24 && minutes < 60
    ensures |r| == 5 && r[2] == ':'
    ensures AllDigits(r[..2]) && DigitsValue(r[..2]) == hours
    ensures AllDigits(r[3..]) && DigitsValue(r[3..]) == minutes
  {
    Pad2RoundTrip(hours);
    Pad2RoundTrip(minutes);
    var r := Pad2(hours) + ":" + Pad2(minutes);
    assert r[..2] == Pad2(hours) && r[3..] == Pad2(minutes);
    r
  }

  /**
   * The line a logger call writes at local time `hours`:`minutes`; `error`
   * only for `logger.error` (default `null`), and `debug` only in development.
   * The defaults of `meta` (`{}`) and `error` (`null`) add nothing.
   */
  function LogLine(level: Level, hours: nat, minutes: nat, message: string, error: Thrown, meta: Value,
                   json: Value -> string, development: bool): (r: Option<string>)
    requires hours < 24 && minutes < 60
    ensures r.None? <==> level == Debug && !development
    ensures r.Some? ==> StartsWith(r.value, LevelName(level) + "|" + TimeString(hours, minutes) + "|" + message)
    ensures r.Some? ==> r.value == LevelName(level) + "|" + TimeString(hours, minutes) + "|" + message
                                   + (if level == Error then FormatError(error) else "") + FormatMeta(meta, json)
  {
    if level == Debug && !development then None
    else
      var head := LevelName(level) + "|" + TimeString(hours, minutes) + "|" + message;
      var line := head + (if level == Error then FormatError(error) else "") + FormatMeta(meta, json);
      assert line[..|head|] == head;
      Some(line)
  }

  // ---------------------------------------------------------------- properties

  /** Joining one more part adds the separator and the part at the end. */
  lemma {:induction false} JoinSnoc(parts: seq<string>, part: string, sep: string)
    requires |parts| > 0
    ensures Join(parts + [part], sep) == Join(parts, sep) + sep + part
    decreases |parts|
  {
    if |parts| > 1 {
      JoinSnoc(parts[1..], part, sep);
      assert (parts + [part])[1..] == parts[1..] + [part];
    } else {
      assert (parts + [part])[1..] == [part];
    }
  }

  /** An entry whose value is `undefined` leaves the rendered metadata unchanged. */
  lemma UndefinedEntryIsDropped(fields: seq<Entry>, key: string, json: Value -> string)
    ensures FormatMeta(Obj(fields + [(key, Undefined)]), json) == FormatMeta(Obj(fields), json)
  {
    FilterAppend(fields, [(key, Undefined)], Defined);
    assert Filter([(key, Undefined)], Defined) == [];
    assert Filter(fields + [(key, Undefined)], Defined) == Filter(fields, Defined);
  }

  /** The defined entries of an object with one more defined field end with that field. */
  lemma KeptAppend(fields: seq<Entry>, e: Entry)
    requires Defined(e)
    ensures Filter(fields + [e], Defined) == Filter(fields, Defined) + [e]
  {
    FilterAppend(fields, [e], Defined);
    assert Filter([e], Defined) == [e];
  }

  lemma RenderAllAppend(es: seq<Entry>, e: Entry, json: Value -> string)
    ensures RenderAll(es + [e], json) == RenderAll(es, json) + [Render(e, json)]
  {
  }

  /**
   * A defined entry appended to an object adds " key=value" to the rendered
   * metadata, or starts it with " | key=value" when nothing was shown before.
   */
  lemma DefinedEntryIsAppended(fields: seq<Entry>, key: string, v: Value, json: Value -> string)
    requires v != Undefined
    ensures var before := FormatMeta(Obj(fields), json);
            FormatMeta(Obj(fields + [(key, v)]), json)
              == (if before == "" then " | " else before + " ") + Render((key, v), json)
  {
    var e := (key, v);
    var parts := RenderAll(Filter(fields, Defined), json);
    var rendered := Render(e, json);
    assert FormatMeta(Obj(fields + [e]), json) == " | " + Join(parts + [rendered], " ") by {
      KeptAppend(fields, e);
      RenderAllAppend(Filter(fields, Defined), e, json);
    }
    if parts == [] {
      assert parts + [rendered] == [rendered];
    } else {
      JoinTail(parts, rendered, " | ", " ");
    }
  }

  /** `prefix` and the join of one more part is `prefix` and the join, the separator, and the part. */
  lemma JoinTail(parts: seq<string>, part: string, prefix: string, sep: string)
    requires |parts| > 0
    ensures prefix + Join(parts + [part], sep) == prefix + Join(parts, sep) + sep + part
  {
    JoinSnoc(parts, part, sep);
  }

  /**
   * `Error.prototype.toString` (section 20.5.3.4 of ECMA-262): the name alone
   * when the message is empty, the message alone when the name is empty, and
   * otherwise the name, ": " and the message.
   */
  function ErrorToString(name: string, message: string): string
  {
    if name == "" then message
    else if message == "" then name
    else name + ": " + message
  }

  /**
   * An `Error` renders as the string "name: message" would. That is what
   * `String(error)` gives exactly when both the name and the message are
   * non-empty; otherwise `formatError` keeps a ": " that `String` drops.
   */
  lemma ErrorRendersAsItsString(name: string, message: string)
    ensures FormatError(ErrorObj(name, message)) == FormatError(Plain(Str(name + ": " + message)))
    ensures FormatError(ErrorObj(name, message)) == " | error: " + ErrorToString(name, message)
            <==> name != "" && message != ""
  {
    var r := FormatError(ErrorObj(name, message));
    if name == "" || message == "" {
      assert |r| == |" | error: "| + |name| + 2 + |message|;
      assert |" | error: " + ErrorToString(name, message)| < |r|;
    }
  }

  /** `index=character` for each character of a string, in order. */
  function IndexedCharacters(s: string): (r: seq<string>)
    ensures |r| == |s|
  {
    seq(|s|, i requires 0 <= i < |s| => NatToString(i) + "=" + [s[i]])
  }

  /**
   * A string as metadata renders each of its characters under its index, in
   * order, whatever `JSON.stringify` does; the empty string is falsy and
   * renders nothing.
   */
  lemma StringMetaListsCharacters(s: string, json: Value -> string)
    ensures s == "" ==> FormatMeta(Str(s), json) == ""
    ensures s != "" ==> FormatMeta(Str(s), json) == " | " + Join(IndexedCharacters(s), " ")
  {
    if s != "" {
      var es := Entries(Str(s));
      assert Filter(es, Defined) == es by {
        FilterAll(es, Defined);
      }
      assert RenderAll(es, json) == IndexedCharacters(s) by {
        forall i | 0 <= i < |s|
          ensures RenderAll(es, json)[i] == IndexedCharacters(s)[i]
        {
          assert es[i] == (NatToString(i), Str([s[i]]));
        }
      }
    }
  }
}

=== FILE: menus.dfy ===
/**
 * `buildGamesSelectMenu` of `components/menus.js`: one option per listable
 * game, in the order the backend returned them, at most 25 (Discord's limit),
 * and no menu at all when no game qualifies.
 */
module Menus {
  import opened Wrappers
  import opened Js
  import opened Seqs
  import opened Games
  import Format
  import Config

  datatype MenuOption = MenuOption(labelText: string, description: string, value: string)

  /** A game gets an option only with a truthy public number and a truthy internal id. */
  predicate Listable(g: Game)
  {
    Truthy(g.gameId) && Truthy(g.id)
  }

  /** The option of one game: label, time and players description, and `String(game.id)` as value. */
  function GameOption(g: Game, localeString: Value -> string): MenuOption
  {
    var players := PlayersText(|ParticipantsOf(g)|, MaxPlayersFromTeamSize(g.teamSize));
    MenuOption(
      "Game #" + ToString(g.gameId) + " • " + ToString(g.teamSize) + " " + ToString(g.gameType),
      Format.FormatGameTime(RawDate(g), localeString) + " UTC • " + players + " players",
      ToString(g.id))
  }

  /** The options of a list of games, one each, in order. */
  function Options(gs: seq<Game>, localeString: Value -> string): (r: seq<MenuOption>)
    ensures |r| == |gs|
    ensures forall i :: 0 <= i < |gs| ==> r[i] == GameOption(gs[i], localeString)
  {
    seq(|gs|, i requires 0 <= i < |gs| => GameOption(gs[i], localeString))
  }

  /** The menu the games listing attaches: the first 25 listable games' options, or none. */
  function GamesMenu(games: seq<Game>, localeString: Value -> string): Option<seq<MenuOption>>
  {
    var listed := Filter(games, Listable);
    if listed == [] then None else Some(Options(Take(listed, Config.MAX_SELECT_OPTIONS), localeString))
  }

  /**
   * The loop of `buildGamesSelectMenu`: skip unlisted games, stop once 25
   * options exist. The menu is missing exactly when no game is listable, and
   * otherwise holds the options of the first 25 listable games.
   */
  method BuildGamesSelectMenu(games: seq<Game>, localeString: Value -> string) returns (menu: Option<seq<MenuOption>>)
    ensures menu.None? <==> Filter(games, Listable) == []
    ensures menu.Some? ==> menu.value == Options(Take(Filter(games, Listable), Config.MAX_SELECT_OPTIONS), localeString)
    ensures menu == GamesMenu(games, localeString)
  {
    var options: seq<MenuOption> := [];
    var i := 0;
    // the source breaks right after the 25th push; testing before the next game is the same
    while i < |games| && |options| < Config.MAX_SELECT_OPTIONS
      invariant 0 <= i <= |games|
      invariant options == Options(Filter(games[..i], Listable), localeString)
      invariant |options| <= Config.MAX_SELECT_OPTIONS
    {
      NextOption(games, i, localeString);
      if Listable(games[i]) {
        options := options + [GameOption(games[i], localeString)];
      }
      i := i + 1;
    }
    MenuSoFar(games, i, localeString);
    if |options| == 0 {
      menu := None;
    } else {
      menu := Some(options);
    }
  }

  /** One more game adds its option exactly when it is listable. */
  lemma NextOption(games: seq<Game>, i: nat, localeString: Value -> string)
    requires i < |games|
    ensures Options(Filter(games[..i + 1], Listable), localeString)
         == Options(Filter(games[..i], Listable), localeString)
            + (if Listable(games[i]) then [GameOption(games[i], localeString)] else [])
  {
    FilterAppend(games[..i], [games[i]], Listable);
    assert games[..i + 1] == games[..i] + [games[i]];
  }

  /**
   * Where the loop stops, at the end of the games or with 25 options, the
   * options collected are the menu's, and none were collected exactly when no
   * game is listable.
   */
  lemma MenuSoFar(games: seq<Game>, n: nat, localeString: Value -> string)
    requires n <= |games|
    requires n == |games| || |Filter(games[..n], Listable)| >= Config.MAX_SELECT_OPTIONS
    requires |Filter(games[..n], Listable)| <= Config.MAX_SELECT_OPTIONS
    ensures Filter(games[..n], Listable) == Take(Filter(games, Listable), Config.MAX_SELECT_OPTIONS)
    ensures Filter(games[..n], Listable) == [] <==> Filter(games, Listable) == []
  {
    if n == |games| {
      assert games[..n] == games;
    } else {
      CapReached(games, n, localeString);
    }
  }

  /** Once the first `n` games yield 25 listable ones, later games no longer matter. */
  lemma CapReached(games: seq<Game>, n: nat, localeString: Value -> string)
    requires n <= |games|
    requires |Filter(games[..n], Listable)| == Config.MAX_SELECT_OPTIONS
    ensures Take(Filter(games, Listable), Config.MAX_SELECT_OPTIONS) == Filter(games[..n], Listable)
  {
    FilterAppend(games[..n], games[n..], Listable);
    assert games[..n] + games[n..] == games;
  }

  /** Every option names a listable game of the input: its value is that game's `String(id)`. */
  lemma OptionsComeFromListableGames(games: seq<Game>, localeString: Value -> string, k: nat)
    requires k < |Take(Filter(games, Listable), Config.MAX_SELECT_OPTIONS)|
    ensures var g := Filter(games, Listable)[k];
            g in games && Listable(g) &&
            Options(Take(Filter(games, Listable), Config.MAX_SELECT_OPTIONS), localeString)[k].value == ToString(g.id)
  {
  }

  /** The menu's values never read "" for a listable game with a string or number id. */
  lemma OptionValuesNonEmpty(g: Game, localeString: Value -> string)
    requires Listable(g) && (g.id.Str? || g.id.Num?)
    ensures GameOption(g, localeString).value != ""
  {
    ToStringOfTruthyPrimitive(g.id);
  }
}

=== FILE: participation.dfy ===
/**
 * The join and leave flow the button, select-menu and command handlers share:
 * fetch the game, check it with the admission rules, and only then call the
 * backend, fetch the game again and show it with the matching button row.
 * The handlers differ in the cap they apply, the id they show on the buttons,
 * and whether they arm a reminder afterwards.
 */
module Participation {
  import opened Wrappers
  import opened Js
  import opened Games
  import opened Admission
  import Embeds

  /**
   * The ITT backend as the handlers see it. A call that throws is an `Err`
   * carrying the error's message. `gameAfterChange` is `getGameById` after the
   * join or leave went through.
   */
  datatype Api = Api(
    gameById: Value -> Result<Game>,
    gameByPublicId: int -> Result<Game>,
    joinCall: Value -> Result<()>,
    leaveCall: Value -> Result<()>,
    gameAfterChange: Value -> Result<Game>)

  datatype JoinOutcome =
    | JoinRefused(verdict: JoinVerdict)
    | JoinFailed(message: string)
    | Joined(shown: Game, buttons: seq<Embeds.Button>, reminderFor: Option<Game>)

  datatype LeaveOutcome =
    | LeaveRefused(verdict: LeaveVerdict)
    | LeaveFailed(message: string)
    | Left(shown: Game, buttons: seq<Embeds.Button>)

  /**
   * A join once the game was fetched (`fetched`): refuse unless admitted under
   * `cap`; otherwise join `callId`, fetch it again, and show it with the leave
   * button for `buttonId`. `remind` says whether the handler then arms a
   * reminder for the refreshed game.
   */
  function JoinFlow(api: Api, userId: string, fetched: Result<Game>, cap: Option<int>,
                    callId: Value, buttonId: Value, remind: bool, apiBase: string): (r: JoinOutcome)
    ensures r.Joined? <==> fetched.Ok? && CheckJoin(fetched.value, userId, cap) == Admit
                           && api.joinCall(callId).Ok? && api.gameAfterChange(callId).Ok?
    ensures r.Joined? ==> r.shown == api.gameAfterChange(callId).value
                          && r.buttons == Embeds.CreateGameButtons(buttonId, true, apiBase)
                          && (r.reminderFor.Some? <==> remind)
    ensures r.JoinRefused? <==> fetched.Ok? && CheckJoin(fetched.value, userId, cap) != Admit
  {
    match fetched
    case Err(m) => JoinFailed(m)
    case Ok(g) =>
      var verdict := CheckJoin(g, userId, cap);
      if verdict != Admit then JoinRefused(verdict)
      else
        match api.joinCall(callId)
        case Err(m) => JoinFailed(m)
        case Ok(_) =>
          match api.gameAfterChange(callId)
          case Err(m) => JoinFailed(m)
          case Ok(updated) =>
            Joined(updated, Embeds.CreateGameButtons(buttonId, true, apiBase), if remind then Some(updated) else None)
  }

  /** A leave once the game was fetched: refuse unless a leave is allowed, then leave and show the join button. */
  function LeaveFlow(api: Api, userId: string, fetched: Result<Game>, callId: Value, buttonId: Value,
                     apiBase: string): (r: LeaveOutcome)
    ensures r.Left? <==> fetched.Ok? && CheckLeave(fetched.value, userId) == Release
                         && api.leaveCall(callId).Ok? && api.gameAfterChange(callId).Ok?
    ensures r.Left? ==> r.shown == api.gameAfterChange(callId).value
                        && r.buttons == Embeds.CreateGameButtons(buttonId, false, apiBase)
    ensures r.LeaveRefused? <==> fetched.Ok? && CheckLeave(fetched.value, userId) != Release
  {
    match fetched
    case Err(m) => LeaveFailed(m)
    case Ok(g) =>
      var verdict := CheckLeave(g, userId);
      if verdict != Release then LeaveRefused(verdict)
      else
        match api.leaveCall(callId)
        case Err(m) => LeaveFailed(m)
        case Ok(_) =>
          match api.gameAfterChange(callId)
          case Err(m) => LeaveFailed(m)
          case Ok(updated) => Left(updated, Embeds.CreateGameButtons(buttonId, false, apiBase))
  }

  /**
   * The checks come before any backend call: a refused join gives the same
   * answer whatever the join endpoint would have done.
   */
  lemma RefusalPrecedesJoinCall(api: Api, other: Api, userId: string, g: Game, cap: Option<int>,
                                callId: Value, buttonId: Value, remind: bool, apiBase: string)
    requires CheckJoin(g, userId, cap) != Admit
    ensures JoinFlow(api, userId, Ok(g), cap, callId, buttonId, remind, apiBase)
         == JoinFlow(other, userId, Ok(g), cap, callId, buttonId, remind, apiBase)
         == JoinRefused(CheckJoin(g, userId, cap))
  {
  }

  /** Likewise a refused leave never reaches the leave endpoint. */
  lemma RefusalPrecedesLeaveCall(api: Api, other: Api, userId: string, g: Game, callId: Value,
                                 buttonId: Value, apiBase: string)
    requires CheckLeave(g, userId) != Release
    ensures LeaveFlow(api, userId, Ok(g), callId, buttonId, apiBase)
         == LeaveFlow(other, userId, Ok(g), callId, buttonId, apiBase)
         == LeaveRefused(CheckLeave(g, userId))
  {
  }

  /** Arming the reminder or not changes nothing else about a join. */
  lemma ReminderIsTheOnlyDifference(api: Api, userId: string, fetched: Result<Game>, cap: Option<int>,
                                    callId: Value, buttonId: Value, apiBase: string)
    ensures var quiet := JoinFlow(api, userId, fetched, cap, callId, buttonId, false, apiBase);
            var armed := JoinFlow(api, userId, fetched, cap, callId, buttonId, true, apiBase);
            (quiet.Joined? <==> armed.Joined?)
            && (quiet.Joined? ==> quiet == armed.(reminderFor := None))
            && (!quiet.Joined? ==> quiet == armed)
  {
  }

  /**
   * After a successful join the shown buttons offer leaving, and after a
   * successful leave they offer joining, so the next press undoes the last.
   */
  lemma ButtonsOfferTheOpposite(api: Api, userId: string, fetched: Result<Game>, cap: Option<int>,
                                id: Value, remind: bool, apiBase: string)
    ensures var j := JoinFlow(api, userId, fetched, cap, id, id, remind, apiBase);
            j.Joined? ==> j.buttons[0].customId == "leave_" + ToString(id)
    ensures var l := LeaveFlow(api, userId, fetched, id, id, apiBase);
            l.Left? ==> l.buttons[0].customId == "join_" + ToString(id)
  {
  }
}

=== FILE: reminders.dfy ===
/**
 * The in-memory reminder registry (`scheduleReminderForGame`): when a user joins
 * a game, a direct message is scheduled ten minutes before its start, provided
 * that instant lies within the next six hours; the registry keeps, per user, the
 * reminders still pending, and a sent reminder removes that game's entries.
 */
module Reminders {
  import opened Wrappers
  import opened Js
  import opened Seqs
  import Config

  /** One pending reminder. A `None` time stands for NaN (an unparsable date). */
  datatype Entry = Entry(gameId: string, gameTimeMs: Option<int>, reminderTimeMs: Option<int>)

  /** `reminderRegistry`: `String(userId)` to that user's pending reminders. */
  type Registry = map<string, seq<Entry>>

  /** The fields of a game the reminder code reads. */
  datatype ReminderGame = ReminderGame(gameId: Value, id: Value, scheduledDateTimeString: Value, scheduledDateTime: Value)

  /** The `setTimeout` callback armed by a call: whose list, which game, after how many milliseconds. */
  datatype Timer = Timer(userKey: string, game: ReminderGame, delayMs: int)

  datatype Scheduled = Scheduled(registry: Registry, timer: Option<Timer>)

  const REMINDER_LEAD_MS: int := Config.REMINDER_MINUTES_BEFORE * Config.MINUTE_MS

  /** `game.gameId || game.id`. */
  function ReminderGameKey(g: ReminderGame): Value
  {
    Or(g.gameId, g.id)
  }

  /** `reminderRegistry.get(key) || []`. */
  function ListOf(reg: Registry, key: string): seq<Entry>
  {
    if key in reg then reg[key] else []
  }

  /** The reminder instant for a game instant (`None` for NaN propagates). */
  function ReminderTime(gameTimeMs: Option<int>): (r: Option<int>)
    ensures gameTimeMs.None? <==> r.None?
    ensures gameTimeMs.Some? ==> gameTimeMs.value - r.value == 10 * 60 * 1000
  {
    match gameTimeMs
    case None => None
    case Some(t) => Some(t - REMINDER_LEAD_MS)
  }

  /** Node's `setTimeout` runs a NaN or non-positive delay after 1 ms. */
  function TimerDelay(delayMs: Option<int>): int
  {
    if delayMs.Some? && delayMs.value >= 1 then delayMs.value else 1
  }

  /** The window test of the code as written: a NaN delay fails both comparisons and passes. */
  predicate RejectedAsWritten(delayMs: Option<int>)
  {
    delayMs.Some? && (delayMs.value <= 0 || delayMs.value > Config.MAX_REMINDER_WINDOW_MS)
  }

  /** The window test as intended: only a delay in (0, 6 h] passes. */
  predicate InWindow(delayMs: Option<int>)
  {
    delayMs.Some? && 0 < delayMs.value <= Config.MAX_REMINDER_WINDOW_MS
  }

  /** The registration both versions share once the window test passed. */
  function Register(reg: Registry, userKey: string, g: ReminderGame, gameTimeMs: Option<int>, now: int): (r: Scheduled)
    ensures r.timer.Some? <==> Truthy(ReminderGameKey(g))
    ensures r.timer.Some? ==> r.timer.value.userKey == userKey && r.timer.value.game == g
    ensures r.timer.Some? ==> r.registry == reg[userKey := ListOf(reg, userKey)
              + [Entry(ToString(ReminderGameKey(g)), gameTimeMs, ReminderTime(gameTimeMs))]]
    ensures r.timer.None? ==> r.registry == reg
  {
    var reminder := ReminderTime(gameTimeMs);
    var delay := if reminder.Some? then Some(reminder.value - now) else None;
    if !Truthy(ReminderGameKey(g)) then Scheduled(reg, None)
    else
      var e := Entry(ToString(ReminderGameKey(g)), gameTimeMs, reminder);
      Scheduled(reg[userKey := ListOf(reg, userKey) + [e]], Some(Timer(userKey, g, TimerDelay(delay))))
  }

  /**
   * `scheduleReminderForGame` as written. `dateOf` is `new Date(v).getTime()`,
   * `None` for NaN.
   */
  function ScheduleReminderAsWritten(clientSet: bool, reg: Registry, userKey: string, g: ReminderGame,
                                     now: int, dateOf: Value -> Option<int>): (r: Scheduled)
    ensures r.timer.Some? ==> Truthy(ReminderGameKey(g)) && r.registry == reg[userKey := ListOf(reg, userKey)
              + [Entry(ToString(ReminderGameKey(g)), dateOf(Or(g.scheduledDateTimeString, g.scheduledDateTime)),
                       ReminderTime(dateOf(Or(g.scheduledDateTimeString, g.scheduledDateTime))))]]
    ensures r.timer.None? ==> r.registry == reg
  {
    var raw := Or(g.scheduledDateTimeString, g.scheduledDateTime);
    if !clientSet || !Truthy(raw) then Scheduled(reg, None)
    else
      var gameTime := dateOf(raw);
      var reminder := ReminderTime(gameTime);
      var delay := if reminder.Some? then Some(reminder.value - now) else None;
      if RejectedAsWritten(delay) then Scheduled(reg, None)
      else Register(reg, userKey, g, gameTime, now)
  }

  /**
   * The guard of the code as written lets an unparsable date through: any game
   * with a date that does not parse and an id is registered with NaN times, and
   * its reminder fires after 1 ms.
   */
  lemma UnparsableDateIsScheduled(reg: Registry, userKey: string, g: ReminderGame, now: int, dateOf: Value -> Option<int>)
    requires Truthy(Or(g.scheduledDateTimeString, g.scheduledDateTime))
    requires dateOf(Or(g.scheduledDateTimeString, g.scheduledDateTime)) == None
    requires Truthy(ReminderGameKey(g))
    ensures var r := ScheduleReminderAsWritten(true, reg, userKey, g, now, dateOf);
            r.timer == Some(Timer(userKey, g, 1))
            && r.registry == reg[userKey := ListOf(reg, userKey) + [Entry(ToString(ReminderGameKey(g)), None, None)]]
  {
  }

  /**
   * `scheduleReminderForGame` with the intended window test: a reminder is armed
   * iff the client is set, the date and the game id are present, and the
   * reminder instant lies in (now, now + 6 h].
   */
  function ScheduleReminder(clientSet: bool, reg: Registry, userKey: string, g: ReminderGame,
                            now: int, dateOf: Value -> Option<int>): (r: Scheduled)
    ensures r.timer.Some? <==>
      clientSet && Truthy(Or(g.scheduledDateTimeString, g.scheduledDateTime)) && Truthy(ReminderGameKey(g))
      && dateOf(Or(g.scheduledDateTimeString, g.scheduledDateTime)).Some?
      && 0 < dateOf(Or(g.scheduledDateTimeString, g.scheduledDateTime)).value - REMINDER_LEAD_MS - now <= Config.MAX_REMINDER_WINDOW_MS
    ensures r.timer.Some? ==> 0 < r.timer.value.delayMs <= Config.MAX_REMINDER_WINDOW_MS
    ensures r.timer.Some? ==> r.timer.value.userKey == userKey && r.timer.value.game == g
    ensures r.timer.Some? ==> r.registry.Keys == reg.Keys + {userKey}
    ensures r.timer.Some? ==> r.registry[userKey] == ListOf(reg, userKey) + [Entry(ToString(ReminderGameKey(g)),
              dateOf(Or(g.scheduledDateTimeString, g.scheduledDateTime)),
              Some(dateOf(Or(g.scheduledDateTimeString, g.scheduledDateTime)).value - REMINDER_LEAD_MS))]
    ensures forall k :: k in reg && k != userKey ==> k in r.registry && r.registry[k] == reg[k]
    ensures r.timer.None? ==> r.registry == reg
  {
    var raw := Or(g.scheduledDateTimeString, g.scheduledDateTime);
    if !clientSet || !Truthy(raw) then Scheduled(reg, None)
    else
      var gameTime := dateOf(raw);
      var reminder := ReminderTime(gameTime);
      var delay := if reminder.Some? then Some(reminder.value - now) else None;
      if !InWindow(delay) then Scheduled(reg, None)
      else Register(reg, userKey, g, gameTime, now)
  }

  /** On every parsable date the two window tests agree: the only difference is NaN. */
  lemma AsWrittenAgreesOnParsableDates(clientSet: bool, reg: Registry, userKey: string, g: ReminderGame,
                                       now: int, dateOf: Value -> Option<int>)
    requires dateOf(Or(g.scheduledDateTimeString, g.scheduledDateTime)).Some?
    ensures ScheduleReminderAsWritten(clientSet, reg, userKey, g, now, dateOf) == ScheduleReminder(clientSet, reg, userKey, g, now, dateOf)
  {
  }

  /** Scheduling the same game twice for a user registers it twice. */
  lemma RepeatedScheduleDuplicates(reg: Registry, userKey: string, g: ReminderGame, now: int, dateOf: Value -> Option<int>)
    requires ScheduleReminder(true, reg, userKey, g, now, dateOf).timer.Some?
    ensures var once := ScheduleReminder(true, reg, userKey, g, now, dateOf);
            var twice := ScheduleReminder(true, once.registry, userKey, g, now, dateOf);
            |twice.registry[userKey]| == |ListOf(reg, userKey)| + 2
            && twice.registry[userKey][|twice.registry[userKey]| - 1] == twice.registry[userKey][|twice.registry[userKey]| - 2]
  {
  }

  function OtherGame(gid: string): Entry -> bool
  {
    (e: Entry) => e.gameId != gid
  }

  /**
   * The timer callback. After a successful DM, every entry of the user whose id
   * is `String(gameId || id || 'unknown')` is removed; a failed DM changes nothing.
   */
  function FireReminder(reg: Registry, t: Timer, sendOk: bool): (r: Registry)
    ensures !sendOk ==> r == reg
    ensures sendOk ==> r.Keys == reg.Keys + {t.userKey}
    ensures sendOk ==> forall k :: k in reg && k != t.userKey ==> r[k] == reg[k]
    ensures sendOk ==> forall e ::
              (multiset(r[t.userKey])[e]
                 == if e.gameId != ToString(Or(ReminderGameKey(t.game), Str("unknown"))) then multiset(ListOf(reg, t.userKey))[e] else 0)
    ensures sendOk ==> IsSubsequence(r[t.userKey], ListOf(reg, t.userKey))
  {
    if !sendOk then reg
    else
      var gid := ToString(Or(ReminderGameKey(t.game), Str("unknown")));
      FilterMultiset(ListOf(reg, t.userKey), OtherGame(gid));
      FilterIsSubsequence(ListOf(reg, t.userKey), OtherGame(gid));
      reg[t.userKey := Filter(ListOf(reg, t.userKey), OtherGame(gid))]
  }

  /** Removing one game's entries from a list that held none of them plus one new entry for it leaves the list. */
  lemma DropAppended(xs: seq<Entry>, e: Entry, gid: string)
    requires forall i :: 0 <= i < |xs| ==> xs[i].gameId != gid
    requires e.gameId == gid
    ensures Filter(xs + [e], OtherGame(gid)) == xs
  {
    FilterAppend(xs, [e], OtherGame(gid));
    FilterAll(xs, OtherGame(gid));
    FilterNone([e], OtherGame(gid));
  }

  /**
   * Scheduling and then firing a reminder restores the user's list, when the
   * list held no entry for that game before.
   */
  lemma FireUndoesSchedule(reg: Registry, userKey: string, g: ReminderGame, now: int, dateOf: Value -> Option<int>)
    requires ScheduleReminder(true, reg, userKey, g, now, dateOf).timer.Some?
    requires forall i :: 0 <= i < |ListOf(reg, userKey)| ==> ListOf(reg, userKey)[i].gameId != ToString(ReminderGameKey(g))
    ensures var s := ScheduleReminder(true, reg, userKey, g, now, dateOf);
            FireReminder(s.registry, s.timer.value, true) == reg[userKey := ListOf(reg, userKey)]
  {
    var s := ScheduleReminder(true, reg, userKey, g, now, dateOf);
    var t := s.timer.value;
    var gid := ToString(ReminderGameKey(g));
    var xs := ListOf(reg, userKey);
    var e := s.registry[userKey][|s.registry[userKey]| - 1];
    assert t.userKey == userKey && Or(ReminderGameKey(t.game), Str("unknown")) == ReminderGameKey(g);
    calc {
      FireReminder(s.registry, t, true);
    == { FireFilters(s.registry, t, gid); }
      s.registry[userKey := Filter(ListOf(s.registry, userKey), OtherGame(gid))];
    == { assert ListOf(s.registry, userKey) == xs + [e];
         DropAppended(xs, e, gid); }
      s.registry[userKey := xs];
    ==
      reg[userKey := xs];
    }
  }

  /** A sent reminder replaces the user's list by its entries for other games. */
  lemma FireFilters(reg: Registry, t: Timer, gid: string)
    requires gid == ToString(Or(ReminderGameKey(t.game), Str("unknown")))
    ensures FireReminder(reg, t, true) == reg[t.userKey := Filter(ListOf(reg, t.userKey), OtherGame(gid))]
  {
  }
}

=== FILE: schedule.dfy ===
/**
 * The scheduling wizard of `handlers/schedule.js`. Each user's choices live in
 * one state document (`discord_bot_states/<userId>`): team size, game type and
 * version in step 1; date, hour and minute in step 2. Every selection reads the
 * document, changes it, writes it back with merge, reads it again and redraws
 * the step from what it read. Finalizing validates the choices, builds the UTC
 * timestamp and asks the backend to create the game.
 */
module ScheduleWizard {
  import opened Wrappers
  import opened Js
  import opened Text
  import opened Games
  import TimeUtil
  import Config

  /** The wizard's state document; an absent field is `Undefined`. */
  datatype WizardState = WizardState(
    teamSize: Value,
    gameType: Value,
    gameVersion: Value,
    date: Value,
    hour: Value,
    minute: Value)

  const EMPTY: WizardState := WizardState(Undefined, Undefined, Undefined, Undefined, Undefined, Undefined)

  /** The state collection: unavailable when Firebase is not initialised. */
  datatype StateStore = Unavailable | Available(docs: map<string, WizardState>)

  // ---------------------------------------------------------------- persistence

  /** `getScheduleState`: the stored document, or `{}` when missing, unavailable or unreadable. */
  function GetState(store: StateStore, userId: string, readOk: bool): (s: WizardState)
    ensures store.Available? && readOk && userId in store.docs ==> s == store.docs[userId]
    ensures !(store.Available? && readOk && userId in store.docs) ==> s == EMPTY
  {
    if store.Available? && readOk && userId in store.docs then store.docs[userId] else EMPTY
  }

  /** A merge write keeps a stored field the written state leaves out. */
  function MergeField(stored: Value, written: Value): (r: Value)
    ensures written.Undefined? ==> r == stored
    ensures !written.Undefined? ==> r == written
  {
    if written.Undefined? then stored else written
  }

  function Merge(stored: WizardState, written: WizardState): WizardState
  {
    WizardState(MergeField(stored.teamSize, written.teamSize), MergeField(stored.gameType, written.gameType),
                MergeField(stored.gameVersion, written.gameVersion), MergeField(stored.date, written.date),
                MergeField(stored.hour, written.hour), MergeField(stored.minute, written.minute))
  }

  /** `saveScheduleState`: `set(state, { merge: true })`; a failed write changes nothing. */
  function SaveState(store: StateStore, userId: string, s: WizardState, writeOk: bool): (r: StateStore)
    ensures !(store.Available? && writeOk) ==> r == store
    ensures store.Available? && writeOk ==>
              r.Available? && r.docs.Keys == store.docs.Keys + {userId}
              && r.docs[userId] == Merge(if userId in store.docs then store.docs[userId] else EMPTY, s)
              && forall k :: k in store.docs && k != userId ==> r.docs[k] == store.docs[k]
  {
    if store.Available? && writeOk then
      var stored := if userId in store.docs then store.docs[userId] else EMPTY;
      Available(store.docs[userId := Merge(stored, s)])
    else store
  }

  /** `clearScheduleState`: delete the user's document; a failed delete changes nothing. */
  function ClearState(store: StateStore, userId: string, deleteOk: bool): (r: StateStore)
    ensures store.Available? && deleteOk ==> r.Available? && userId !in r.docs && r.docs == store.docs - {userId}
    ensures !(store.Available? && deleteOk) ==> r == store
  {
    if store.Available? && deleteOk then Available(store.docs - {userId}) else store
  }

  /** Reading right after a successful merge write sees the state that was written. */
  lemma SaveThenGet(store: StateStore, userId: string, s: WizardState)
    requires store.Available?
    requires GetState(store, userId, true) == s || userId !in store.docs
    ensures GetState(SaveState(store, userId, s, true), userId, true) == Merge(GetState(store, userId, true), s)
  {
  }

  // ---------------------------------------------------------------- selections

  datatype Step = Step1 | Step2

  /** `!state.f` then `state.f = value`: fill a falsy field, keep a truthy one. */
  function FillIn(v: Value, default: string): (r: Value)
    ensures Truthy(v) ==> r == v
    ensures !Truthy(v) ==> r == Str(default)
  {
    if Truthy(v) then v else Str(default)
  }

  /**
   * The in-memory change one selection makes, and the step it redraws; `None`
   * for a custom id the wizard does not know. `today` is the UTC date
   * (`YYYY-MM-DD`) of the moment of the selection.
   */
  function Apply(customId: string, selected: string, s: WizardState, today: string): Option<(WizardState, Step)>
  {
    if customId == "schedule_team_size" then Some((s.(teamSize := Str(selected)), Step1))
    else if customId == "schedule_game_type" then Some((s.(gameType := Str(selected)), Step1))
    else if customId == "schedule_game_version" then Some((s.(gameVersion := Str(selected)), Step1))
    else if customId == "schedule_date" then
      Some((s.(date := Str(selected),
               teamSize := FillIn(s.teamSize, Config.DEFAULT_TEAM_SIZE),
               gameType := FillIn(s.gameType, Config.DEFAULT_GAME_TYPE),
               gameVersion := FillIn(s.gameVersion, Config.DEFAULT_GAME_VERSION),
               minute := FillIn(s.minute, Config.DEFAULT_MINUTE)), Step2))
    else if customId == "schedule_hour" then
      Some((s.(hour := Str(selected),
               teamSize := FillIn(s.teamSize, Config.DEFAULT_TEAM_SIZE),
               gameType := FillIn(s.gameType, Config.DEFAULT_GAME_TYPE),
               gameVersion := FillIn(s.gameVersion, Config.DEFAULT_GAME_VERSION),
               date := FillIn(s.date, today),
               minute := FillIn(s.minute, Config.DEFAULT_MINUTE)), Step2))
    else if customId == "schedule_minute" then
      Some((s.(minute := Str(selected),
               teamSize := FillIn(s.teamSize, Config.DEFAULT_TEAM_SIZE),
               gameType := FillIn(s.gameType, Config.DEFAULT_GAME_TYPE),
               gameVersion := FillIn(s.gameVersion, Config.DEFAULT_GAME_VERSION),
               date := FillIn(s.date, today)), Step2))
    else None
  }

  /** A step-1 selection changes its own field and nothing else, and draws step 1. */
  lemma SettingsTouchOnlyTheirField(customId: string, selected: string, s: WizardState, today: string)
    requires customId in {"schedule_team_size", "schedule_game_type", "schedule_game_version"}
    ensures var r := Apply(customId, selected, s, today);
            r.Some? && r.value.1 == Step1 &&
            var t := r.value.0;
            t.date == s.date && t.hour == s.hour && t.minute == s.minute &&
            (t.teamSize == s.teamSize <==> customId != "schedule_team_size" || s.teamSize == Str(selected)) &&
            (t.gameType == s.gameType <==> customId != "schedule_game_type" || s.gameType == Str(selected)) &&
            (t.gameVersion == s.gameVersion <==> customId != "schedule_game_version" || s.gameVersion == Str(selected))
  {
  }

  /**
   * A step-2 selection sets its own field, fills every other missing setting
   * with its default (the date with today, except that a date selection does
   * not fill the hour and a minute selection keeps the minute it sets), and
   * never overwrites a value that is present.
   */
  lemma DateTimeSelectionsFillDefaults(customId: string, selected: string, s: WizardState, today: string)
    requires customId in {"schedule_date", "schedule_hour", "schedule_minute"}
    ensures var r := Apply(customId, selected, s, today);
            r.Some? && r.value.1 == Step2 &&
            var t := r.value.0;
            t.teamSize == FillIn(s.teamSize, Config.DEFAULT_TEAM_SIZE) &&
            t.gameType == FillIn(s.gameType, Config.DEFAULT_GAME_TYPE) &&
            t.gameVersion == FillIn(s.gameVersion, Config.DEFAULT_GAME_VERSION) &&
            (customId == "schedule_date" ==> t.date == Str(selected) && t.hour == s.hour
                                             && t.minute == FillIn(s.minute, Config.DEFAULT_MINUTE)) &&
            (customId == "schedule_hour" ==> t.hour == Str(selected) && t.date == FillIn(s.date, today)
                                             && t.minute == FillIn(s.minute, Config.DEFAULT_MINUTE)) &&
            (customId == "schedule_minute" ==> t.minute == Str(selected) && t.date == FillIn(s.date, today)
                                               && t.hour == s.hour)
  {
  }

  /** Step 1 as drawn: the three settings, each falling back to its default. */
  datatype Step1View = Step1View(teamSize: Value, gameType: Value, gameVersion: Value)

  /** Step 2 as drawn: the date and minute shown, the selected time line, and the submit button. */
  datatype Step2View = Step2View(date: Value, minute: Value, selectedTime: string, showSubmit: bool)

  /** Either step of the wizard, or the reply of the handler's catch block. */
  datatype View = ShowStep1(step1: Step1View) | ShowStep2(step2: Step2View) | ErrorReply(content: string)

  /** The reply of the catch block of `handleScheduleSelectMenu`; it also removes every component. */
  const SELECTION_ERROR := "\U{274C} An error occurred while saving your selection. Please try again."

  function DrawStep1(s: WizardState): Step1View
  {
    Step1View(Or(s.teamSize, Str(Config.DEFAULT_TEAM_SIZE)), Or(s.gameType, Str(Config.DEFAULT_GAME_TYPE)),
              Or(s.gameVersion, Str(Config.DEFAULT_GAME_VERSION)))
  }

  /** `period` and `displayHour` of step 2, from `parseInt(state.hour, 10)`; NaN shows "NaN" and "AM". */
  function HourLabel(hour: Value): (r: (string, string))
  {
    match ParseInt(ToString(hour))
    case None => ("NaN", "AM")
    case Some(h) =>
      (IntToString(if h == 0 then 12 else if h > 12 then h - 12 else h), if h >= 12 then "PM" else "AM")
  }

  /** The step-2 hour label and `getTimeOptions` render every hour of the day the same way. */
  lemma HourLabelAgreesWithTimeOptions(hour: Value, h: nat)
    requires h < 24 && ParseInt(ToString(hour)) == Some(h)
    ensures HourLabel(hour) == (NatToString(TimeUtil.DisplayHour(h)), TimeUtil.PeriodText(TimeUtil.PeriodOf(h)))
  {
  }

  /**
   * `updateScheduleStep2`: the date falls back to today and the minute to "00";
   * the submit button appears iff date, hour and minute are all set.
   */
  function DrawStep2(s: WizardState, today: string): (v: Step2View)
    ensures v.showSubmit <==> Truthy(s.date) && Truthy(s.hour) && Truthy(s.minute)
  {
    var date := Or(s.date, Str(today));
    var minute := Or(s.minute, Str(Config.DEFAULT_MINUTE));
    var line :=
      if !s.hour.Undefined? then
        var shown := HourLabel(s.hour);
        "Time: " + shown.0 + ":" + ToString(minute) + " " + shown.1 + " UTC"
      else "Minute: " + ToString(minute);
    Step2View(date, minute, line, Truthy(s.date) && Truthy(s.hour) && Truthy(s.minute))
  }

  /** What happened to the store and the storage calls during one selection. */
  datatype StoreIo = StoreIo(readOk: bool, writeOk: bool, rereadOk: bool)

  datatype SelectOutcome = SelectOutcome(store: StateStore, view: Option<View>)

  /**
   * `handleScheduleSelectMenu` as intended: read, apply, write with merge, read
   * again, and draw the step from the state read back. An unknown custom id
   * does nothing. Step 2 is drawn with its hour and minute options taken as
   * given; `HandleScheduleSelectAsWritten` is the code as it stands.
   */
  function HandleScheduleSelect(customId: string, selected: string, userId: string, store: StateStore,
                                io: StoreIo, today: string): (r: SelectOutcome)
    ensures Apply(customId, selected, GetState(store, userId, io.readOk), today).None? ==> r == SelectOutcome(store, None)
    ensures r.view.Some? ==> r.store == SaveState(store, userId,
                                Apply(customId, selected, GetState(store, userId, io.readOk), today).value.0, io.writeOk)
    ensures r.view.Some? ==>
              var shown := GetState(r.store, userId, io.rereadOk);
              r.view.value == (if Apply(customId, selected, GetState(store, userId, io.readOk), today).value.1 == Step1
                               then ShowStep1(DrawStep1(shown)) else ShowStep2(DrawStep2(shown, today)))
  {
    var s := GetState(store, userId, io.readOk);
    match Apply(customId, selected, s, today)
    case None => SelectOutcome(store, None)
    case Some((s1, step)) =>
      var store1 := SaveState(store, userId, s1, io.writeOk);
      var shown := GetState(store1, userId, io.rereadOk);
      SelectOutcome(store1, Some(if step == Step1 then ShowStep1(DrawStep1(shown)) else ShowStep2(DrawStep2(shown, today))))
  }

  /**
   * `handleScheduleSelectMenu` as the repository has it. `updateScheduleStep2`
   * calls `getHourOptions` and `getMinuteOptions`, which the time helpers do not
   * export: once the date menu is built, drawing step 2 throws, after the merge
   * write and the re-read, and the catch block answers with the error reply.
   * Step-1 selections are unaffected.
   */
  function HandleScheduleSelectAsWritten(customId: string, selected: string, userId: string, store: StateStore,
                                         io: StoreIo, today: string): (r: SelectOutcome)
    ensures r.store == HandleScheduleSelect(customId, selected, userId, store, io, today).store
    ensures Apply(customId, selected, GetState(store, userId, io.readOk), today).None? ==> r == SelectOutcome(store, None)
    ensures Apply(customId, selected, GetState(store, userId, io.readOk), today).Some?
            && Apply(customId, selected, GetState(store, userId, io.readOk), today).value.1 == Step1
            ==> r == HandleScheduleSelect(customId, selected, userId, store, io, today)
    ensures Apply(customId, selected, GetState(store, userId, io.readOk), today).Some?
            && Apply(customId, selected, GetState(store, userId, io.readOk), today).value.1 == Step2
            ==> r.view == Some(ErrorReply(SELECTION_ERROR))
    ensures !(r.view.Some? && r.view.value.ShowStep2?)
  {
    var s := GetState(store, userId, io.readOk);
    match Apply(customId, selected, s, today)
    case None => SelectOutcome(store, None)
    case Some((s1, step)) =>
      var store1 := SaveState(store, userId, s1, io.writeOk);
      var shown := GetState(store1, userId, io.rereadOk);
      if step == Step1 then SelectOutcome(store1, Some(ShowStep1(DrawStep1(shown))))
      else SelectOutcome(store1, Some(ErrorReply(SELECTION_ERROR)))
  }

  /**
   * Where the corrected handler shows step 2 with the submit button, the code as
   * written stores the same state and answers with the error reply instead.
   */
  lemma HourSelectionFailsAsWritten(selected: string, userId: string, store: StateStore, today: string)
    requires store.Available? && selected != "" && today != ""
    ensures var fixed := HandleScheduleSelect("schedule_hour", selected, userId, store, StoreIo(true, true, true), today);
            var asWritten := HandleScheduleSelectAsWritten("schedule_hour", selected, userId, store, StoreIo(true, true, true), today);
            asWritten.store == fixed.store && asWritten.view == Some(ErrorReply(SELECTION_ERROR))
            && fixed.view.Some? && fixed.view.value.ShowStep2? && fixed.view.value.step2.showSubmit
  {
    HourSelectionShowsSubmit(selected, userId, store, today);
  }

  /**
   * When every storage call succeeds, an hour selection leads to the submit
   * button: date and minute are filled in as needed, and the hour is set.
   */
  lemma HourSelectionShowsSubmit(selected: string, userId: string, store: StateStore, today: string)
    requires store.Available? && selected != "" && today != ""
    ensures var r := HandleScheduleSelect("schedule_hour", selected, userId, store, StoreIo(true, true, true), today);
            r.view.Some? && r.view.value.ShowStep2? && r.view.value.step2.showSubmit
  {
  }

  /**
   * Without a state store every read returns `{}`: the selection made is not
   * shown, and step 1 always shows the defaults.
   */
  lemma UnavailableStoreForgetsSelections(customId: string, selected: string, userId: string, io: StoreIo, today: string)
    requires customId in {"schedule_team_size", "schedule_game_type", "schedule_game_version"}
    ensures HandleScheduleSelect(customId, selected, userId, Unavailable, io, today)
         == SelectOutcome(Unavailable, Some(ShowStep1(Step1View(Str("1v1"), Str("elo"), Str("v3.28")))))
  {
  }

  /**
   * A failed first read starts from `{}`, but the merge write keeps the stored
   * fields the selection does not touch.
   */
  lemma FailedReadKeepsStoredFields(selected: string, userId: string, docs: map<string, WizardState>, today: string)
    requires userId in docs
    ensures var r := HandleScheduleSelect("schedule_team_size", selected, userId, Available(docs),
                                          StoreIo(false, true, true), today);
            r.store.Available? && r.store.docs[userId] == docs[userId].(teamSize := Str(selected))
  {
  }

  // ---------------------------------------------------------------- finalize

  /** The arguments of `createScheduledGame`. */
  datatype CreateRequest = CreateRequest(
    creatorId: string,
    creatorName: Value,
    scheduledDateTime: string,
    teamSize: Value,
    gameType: Value,
    gameVersion: Value,
    gameLength: int,
    participants: seq<Value>)

  /** `${date}T${hour}:${minute}:00.000Z` with the date defaulting to today and the minute to "00". */
  function Timestamp(s: WizardState, today: string): string
  {
    ToString(Or(s.date, Str(today))) + "T" + ToString(s.hour) + ":" + ToString(Or(s.minute, Str(Config.DEFAULT_MINUTE))) + ":00.000Z"
  }

  /** The backend and state-store results finalizing depends on. */
  datatype FinalizeIo = FinalizeIo(
    create: CreateRequest -> Result<Value>,    // createScheduledGame: the new game's id, or the error
    createdGame: Value -> Result<Game>,        // getGameById for that id
    deleteOk: bool)                            // the state document's delete succeeded

  /** How finalizing ended. */
  datatype FinalizeStatus =
    | NeedHour
    | InPast
    | CreateFailed(request: CreateRequest, message: string)
    | Created(request: CreateRequest, gameId: Value, reminderFor: Option<Game>)

  /** How finalizing ended, and the wizard state store afterwards. */
  datatype FinalizeOutcome = FinalizeOutcome(status: FinalizeStatus, store: StateStore)

  /**
   * `finalizeScheduleGame`: without an hour, or for an instant not after now,
   * nothing is created; otherwise the game is created with the defaults filled
   * in and a 1800-second length, a reminder is armed for the creator when the
   * new game can be read back (any failure there is tolerated), and only then
   * is the wizard state cleared. An unparsable timestamp is an Invalid Date,
   * which compares false with now and so is sent on to the backend.
   */
  function FinalizeScheduleGame(s: WizardState, userId: string, userName: Value, today: string, now: int,
                                parseDateString: string -> Option<int>, store: StateStore, io: FinalizeIo): (r: FinalizeOutcome)
    ensures r.status == NeedHour <==> !Truthy(s.hour)
    ensures r.status == InPast <==> Truthy(s.hour) && parseDateString(Timestamp(s, today)).Some?
                                    && parseDateString(Timestamp(s, today)).value <= now
    ensures (r.status.CreateFailed? || r.status.Created?) ==>
              r.status.request == CreateRequest(userId, userName, Timestamp(s, today),
                                                Or(s.teamSize, Str(Config.DEFAULT_TEAM_SIZE)),
                                                Or(s.gameType, Str(Config.DEFAULT_GAME_TYPE)),
                                                Or(s.gameVersion, Str(Config.DEFAULT_GAME_VERSION)),
                                                Config.SCHEDULED_GAME_LENGTH, [])
    ensures r.status.CreateFailed? ==> io.create(r.status.request) == Err(r.status.message)
    ensures r.status.Created? ==> io.create(r.status.request) == Ok(r.status.gameId)
    ensures r.status.Created? ==> (r.status.reminderFor.Some? <==> io.createdGame(r.status.gameId).Ok?)
    ensures r.store == (if r.status.Created? then ClearState(store, userId, io.deleteOk) else store)
  {
    if !Truthy(s.hour) then FinalizeOutcome(NeedHour, store)
    else
      var stamp := Timestamp(s, today);
      var at := parseDateString(stamp);
      if at.Some? && at.value <= now then FinalizeOutcome(InPast, store)
      else
        var request := CreateRequest(userId, userName, stamp,
                                     Or(s.teamSize, Str(Config.DEFAULT_TEAM_SIZE)),
                                     Or(s.gameType, Str(Config.DEFAULT_GAME_TYPE)),
                                     Or(s.gameVersion, Str(Config.DEFAULT_GAME_VERSION)),
                                     Config.SCHEDULED_GAME_LENGTH, []);
        match io.create(request)
        case Err(m) => FinalizeOutcome(CreateFailed(request, m), store)
        case Ok(gameId) =>
          var reminderFor := match io.createdGame(gameId) case Ok(g) => Some(g) case Err(_) => None;
          FinalizeOutcome(Created(request, gameId, reminderFor), ClearState(store, userId, io.deleteOk))
  }

  /** Rejections come before the backend: whatever it would do, a missing hour or a past instant is refused. */
  lemma FinalizeRejectsBeforeBackend(s: WizardState, userId: string, userName: Value, today: string, now: int,
                                     parseDateString: string -> Option<int>, store: StateStore, io: FinalizeIo, other: FinalizeIo)
    requires !Truthy(s.hour) || (parseDateString(Timestamp(s, today)).Some? && parseDateString(Timestamp(s, today)).value <= now)
    ensures FinalizeScheduleGame(s, userId, userName, today, now, parseDateString, store, io)
         == FinalizeScheduleGame(s, userId, userName, today, now, parseDateString, store, other)
  {
  }

  /**
   * The wizard state is cleared only after the game was created: a refusal or a
   * failed creation leaves the store as it was, so the user can try again, and
   * a stored state is gone afterwards exactly when the game was created and the
   * delete went through.
   */
  lemma StateClearedOnlyAfterCreation(s: WizardState, userId: string, userName: Value, today: string, now: int,
                                      parseDateString: string -> Option<int>, store: StateStore, io: FinalizeIo)
    ensures var r := FinalizeScheduleGame(s, userId, userName, today, now, parseDateString, store, io);
            !r.status.Created? ==> r.store == store
    ensures var r := FinalizeScheduleGame(s, userId, userName, today, now, parseDateString, store, io);
            store.Available? && userId in store.docs ==>
              (userId in r.store.docs <==> !(r.status.Created? && io.deleteOk))
    ensures var r := FinalizeScheduleGame(s, userId, userName, today, now, parseDateString, store, io);
            store.Available? ==> r.store.Available? && forall u :: u != userId ==> (u in r.store.docs <==> u in store.docs)
  {
  }

  /** The state the wizard builds for "2025-06-01", hour "14" and no minute is sent as 14:00 UTC that day. */
  lemma TimestampExample(s: WizardState, today: string)
    requires s.date == Str("2025-06-01") && s.hour == Str("14") && s.minute.Undefined?
    ensures Timestamp(s, today) == "2025-06-01T14:00:00.000Z"
  {
  }
}

=== FILE: select_menus.dfy ===
/**
 * `handleSelectMenu` of `handlers/selectMenus.js`: every `schedule_…` select
 * goes to the scheduling wizard; `games_select` shows the chosen game with a
 * join or leave button; `join_select` joins the chosen game, capped by its
 * team size, without arming a reminder. The wizard composed here is the
 * corrected `ScheduleWizard.HandleScheduleSelect`, whose step 2 takes the hour
 * and minute options as given; `ScheduleWizard.HandleScheduleSelectAsWritten`
 * is the code as it stands.
 */
module SelectMenuHandler {
  import opened Wrappers
  import opened Js
  import opened Text
  import opened Games
  import opened Admission
  import opened Participation
  import Embeds
  import ScheduleWizard
  import ButtonHandler

  datatype SelectMenuOutcome =
    | WizardSelect(wizard: ScheduleWizard.SelectOutcome)
    | GameShown(shown: Game, userJoined: bool, buttons: seq<Embeds.Button>)
    | ShowFailed(message: string)
    | JoinSelected(join: JoinOutcome)
    | NoSelectAction

  /**
   * `handleSelectMenu` with `selected` the first selected value (Discord sends
   * at least one). `store`, `io` and `today` serve the wizard; `api` the two
   * game selects.
   */
  function HandleSelectMenu(customId: string, selected: string, userId: string,
                            store: ScheduleWizard.StateStore, io: ScheduleWizard.StoreIo, today: string,
                            api: Api, apiBase: string): (r: SelectMenuOutcome)
    ensures StartsWith(customId, "schedule_") <==> r.WizardSelect?
    ensures r.WizardSelect? ==> r.wizard == ScheduleWizard.HandleScheduleSelect(customId, selected, userId, store, io, today)
    ensures r.GameShown? ==> customId == "games_select" && api.gameById(Str(selected)) == Ok(r.shown)
    ensures r.GameShown? ==> (r.userJoined <==> HasParticipant(ParticipantsOf(r.shown), userId))
    ensures r.JoinSelected? ==> customId == "join_select"
    ensures r.JoinSelected? && r.join.Joined? ==> r.join.reminderFor.None?
  {
    if StartsWith(customId, "schedule_") then
      WizardSelect(ScheduleWizard.HandleScheduleSelect(customId, selected, userId, store, io, today))
    else
      var gameId := Str(selected);
      if customId == "games_select" then
        match api.gameById(gameId)
        case Err(m) => ShowFailed(m)
        case Ok(g) =>
          var joined := HasParticipant(ParticipantsOf(g), userId);
          GameShown(g, joined, Embeds.CreateGameButtons(gameId, joined, apiBase))
      else if customId == "join_select" then
        var fetched := api.gameById(gameId);
        JoinSelected(JoinFlow(api, userId, fetched, ButtonHandler.FetchedCap(fetched), gameId, gameId, false, apiBase))
      else NoSelectAction
  }

  lemma NotAWizardSelect(customId: string)
    requires |customId| > 0 && customId[0] != 's'
    ensures !StartsWith(customId, "schedule_")
  {
    if |customId| >= 9 {
      assert customId[..9][0] == customId[0];
    }
  }

  /** The details view offers leaving exactly to participants and joining to everyone else. */
  lemma GamesSelectOffersTheRightButton(selected: string, userId: string, store: ScheduleWizard.StateStore,
                                        io: ScheduleWizard.StoreIo, today: string, api: Api, apiBase: string)
    ensures var r := HandleSelectMenu("games_select", selected, userId, store, io, today, api, apiBase);
            r.GameShown? ==>
              r.buttons[0].customId == (if HasParticipant(ParticipantsOf(r.shown), userId) then "leave_" else "join_") + selected
  {
    NotAWizardSelect("games_select");
  }

  /**
   * The join select applies the same admission rules as the join button to the
   * same game; it only leaves the reminder out.
   */
  lemma JoinSelectMatchesJoinButton(id: string, userId: string, store: ScheduleWizard.StateStore,
                                    io: ScheduleWizard.StoreIo, deleteOk: bool, today: string, api: Api, apiBase: string)
    requires ButtonHandler.NoUnderscore(id)
    ensures var viaMenu := HandleSelectMenu("join_select", id, userId, store, io, today, api, apiBase);
            var viaButton := ButtonHandler.HandleButton("join_" + id, userId, store, deleteOk, api, apiBase);
            viaMenu.JoinSelected? && viaButton.JoinHandled? &&
            (viaMenu.join.Joined? <==> viaButton.join.Joined?) &&
            (viaMenu.join.Joined? ==> viaMenu.join == viaButton.join.(reminderFor := None)) &&
            (!viaMenu.join.Joined? ==> viaMenu.join == viaButton.join)
  {
    var fetched := api.gameById(Str(id));
    var cap := ButtonHandler.FetchedCap(fetched);
    JoinSelectRunsJoinFlow(id, userId, store, io, today, api, apiBase);
    ButtonHandler.JoinButtonRunsJoinFlow(id, userId, store, deleteOk, api, apiBase);
    ReminderIsTheOnlyDifference(api, userId, fetched, cap, Str(id), Str(id), apiBase);
  }

  lemma JoinSelectRunsJoinFlow(id: string, userId: string, store: ScheduleWizard.StateStore,
                               io: ScheduleWizard.StoreIo, today: string, api: Api, apiBase: string)
    ensures var fetched := api.gameById(Str(id));
            HandleSelectMenu("join_select", id, userId, store, io, today, api, apiBase)
              == JoinSelected(JoinFlow(api, userId, fetched, ButtonHandler.FetchedCap(fetched), Str(id), Str(id), false, apiBase))
  {
    NotAWizardSelect("join_select");
  }

  /**
   * The time select that step 2 of `schedule_continue` shows (`schedule_time`)
   * reaches the wizard, which has no case for it: nothing is stored or redrawn.
   */
  lemma TimeSelectIsIgnored(selected: string, userId: string, store: ScheduleWizard.StateStore,
                            io: ScheduleWizard.StoreIo, today: string, api: Api, apiBase: string)
    ensures HandleSelectMenu("schedule_time", selected, userId, store, io, today, api, apiBase)
         == WizardSelect(ScheduleWizard.SelectOutcome(store, None))
  {
    assert StartsWith("schedule_time", "schedule_");
  }
}

=== FILE: seqs.dfy ===
/** `Array.prototype.filter` and `slice(0, n)` on sequences, with the facts the model relies on. */
module Seqs {

  /** `s.filter(p)`: the elements satisfying `p`, in their original order. */
  function Filter<T(==)>(s: seq<T>, p: T -> bool): (r: seq<T>)
    ensures |r| <= |s|
    ensures forall i :: 0 <= i < |r| ==> p(r[i]) && r[i] in s
    ensures forall i :: 0 <= i < |s| && p(s[i]) ==> s[i] in r
    decreases |s|
  {
    if s == [] then []
    else if p(s[0]) then [s[0]] + Filter(s[1..], p)
    else Filter(s[1..], p)
  }

  /** Filtering distributes over concatenation. */
  lemma {:induction false} FilterAppend<T>(s: seq<T>, t: seq<T>, p: T -> bool)
    ensures Filter(s + t, p) == Filter(s, p) + Filter(t, p)
    decreases |s|
  {
    if s == [] {
      assert s + t == t;
    } else {
      assert (s + t)[0] == s[0];
      assert (s + t)[1..] == s[1..] + t;
      FilterAppend(s[1..], t, p);
    }
  }

  /** Filtering twice with the same predicate changes nothing. */
  lemma {:induction false} FilterIdempotent<T>(s: seq<T>, p: T -> bool)
    ensures Filter(Filter(s, p), p) == Filter(s, p)
    decreases |s|
  {
    if s != [] {
      FilterIdempotent(s[1..], p);
    }
  }

  /** A filter keeps everything exactly when every element satisfies the predicate. */
  lemma {:induction false} FilterAll<T>(s: seq<T>, p: T -> bool)
    requires forall i :: 0 <= i < |s| ==> p(s[i])
    ensures Filter(s, p) == s
    decreases |s|
  {
    if s != [] {
      FilterAll(s[1..], p);
    }
  }

  /** A filter keeps nothing when no element satisfies the predicate. */
  lemma {:induction false} FilterNone<T>(s: seq<T>, p: T -> bool)
    requires forall i :: 0 <= i < |s| ==> !p(s[i])
    ensures Filter(s, p) == []
    decreases |s|
  {
    if s != [] {
      FilterNone(s[1..], p);
    }
  }

  /** Predicates that agree on the elements give the same filter. */
  lemma {:induction false} FilterCongruent<T>(s: seq<T>, p: T -> bool, q: T -> bool)
    requires forall i :: 0 <= i < |s| ==> p(s[i]) == q(s[i])
    ensures Filter(s, p) == Filter(s, q)
    decreases |s|
  {
    if s != [] {
      FilterCongruent(s[1..], p, q);
    }
  }

  /** `t` is `s` with some elements removed, order kept. */
  predicate IsSubsequence<T(==)>(t: seq<T>, s: seq<T>)
    decreases |s|
  {
    if s == [] then t == []
    else (t != [] && t[0] == s[0] && IsSubsequence(t[1..], s[1..])) || IsSubsequence(t, s[1..])
  }

  /** A filter is an order-preserving subsequence of its input. */
  lemma {:induction false} FilterIsSubsequence<T>(s: seq<T>, p: T -> bool)
    ensures IsSubsequence(Filter(s, p), s)
    decreases |s|
  {
    if s != [] {
      FilterIsSubsequence(s[1..], p);
    }
  }

  /** A filter keeps every copy of an element that satisfies the predicate, and no copy of one that does not. */
  lemma {:induction false} FilterMultiset<T>(s: seq<T>, p: T -> bool)
    ensures forall x :: multiset(Filter(s, p))[x] == if p(x) then multiset(s)[x] else 0
    decreases |s|
  {
    if s != [] {
      FilterMultiset(s[1..], p);
      assert s == [s[0]] + s[1..];
    }
  }

  /** `s.slice(0, n)`. */
  function Take<T>(s: seq<T>, n: nat): (r: seq<T>)
    ensures |r| == if n < |s| then n else |s|
    ensures forall i :: 0 <= i < |r| ==> r[i] == s[i]
  {
    if n < |s| then s[..n] else s
  }
}

=== FILE: settings.dfy ===
/**
 * The configuration names that the two monitors, the wc3stats client and the
 * Firestore set-up import from `config.js`, and the values they see. The
 * repository's `config.js` exports none of these names; read as `undefined`, each
 * switches its feature off.
 */
module Settings {
  import opened Js

  /** The imported names, as the importing modules see them. */
  datatype Env = Env(
    lobbyMonitoringEnabled: Value,       // LOBBY_MONITORING_ENABLED
    lobbyChannelId: Value,               // LOBBY_NOTIFICATION_CHANNEL_ID
    completedMonitoringEnabled: Value,   // COMPLETED_GAMES_MONITORING_ENABLED
    completedChannelId: Value,           // COMPLETED_GAMES_NOTIFICATION_CHANNEL_ID
    wc3statsApiBase: Value,              // WC3STATS_API_BASE
    serviceAccountKey: Value,            // FIREBASE_SERVICE_ACCOUNT_KEY
    projectId: Value)                    // FIREBASE_PROJECT_ID

  /** What `config.js` gives these names: it exports none of them. */
  const CONFIG_AS_WRITTEN: Env := Env(Undefined, Undefined, Undefined, Undefined, Undefined, Undefined, Undefined)

  /** The early return of `checkLobbies`: `!LOBBY_MONITORING_ENABLED || !clientInstance || !LOBBY_NOTIFICATION_CHANNEL_ID`. */
  predicate LobbyConfigured(e: Env, clientSet: bool)
  {
    Truthy(e.lobbyMonitoringEnabled) && clientSet && Truthy(e.lobbyChannelId)
  }

  /** The same early return in `checkCompletedGames`. */
  predicate CompletedConfigured(e: Env, clientSet: bool)
  {
    Truthy(e.completedMonitoringEnabled) && clientSet && Truthy(e.completedChannelId)
  }

  /** `${WC3STATS_API_BASE}/gamelist`: the URL `fetchActiveLobbies` requests. */
  function GamelistUrl(e: Env): (r: string)
    ensures |r| >= |"/gamelist"| && r[|r| - |"/gamelist"|..] == "/gamelist"
    ensures e.wc3statsApiBase.Str? ==>
              |r| == |e.wc3statsApiBase.s| + |"/gamelist"| && r[..|e.wc3statsApiBase.s|] == e.wc3statsApiBase.s
  {
    ToString(e.wc3statsApiBase) + "/gamelist"
  }

  /**
   * Firestore ends up initialised: an app already exists, or the service
   * account key is set and parses with the fields the set-up requires, or only
   * the project id is set. Every other path throws and leaves `db` null.
   */
  predicate FirestoreInitialised(e: Env, appExists: bool, keyValid: bool)
  {
    appExists || (Truthy(e.serviceAccountKey) && keyValid) || (!Truthy(e.serviceAccountKey) && Truthy(e.projectId))
  }

  /**
   * With the names `config.js` does not export: neither monitor passes its
   * guard, the lobby list is requested from a relative "undefined/gamelist",
   * and Firestore is initialised only if some app already existed.
   */
  lemma ConfigAsWrittenSwitchesOff(clientSet: bool, appExists: bool, keyValid: bool)
    ensures !LobbyConfigured(CONFIG_AS_WRITTEN, clientSet)
    ensures !CompletedConfigured(CONFIG_AS_WRITTEN, clientSet)
    ensures GamelistUrl(CONFIG_AS_WRITTEN) == "undefined/gamelist"
    ensures FirestoreInitialised(CONFIG_AS_WRITTEN, appExists, keyValid) <==> appExists
  {
  }
}

=== FILE: stable_sort.dfy ===
/**
 * `Array.prototype.sort` with a numeric comparator `(a, b) => key(a) - key(b)`.
 * The sort is stable (ECMAScript 2019 and later), so its result is the insertion
 * sort below: ascending by key, a permutation of the input, and equal keys in
 * input order.
 */
module StableSort {
  ghost predicate SortedBy<T>(s: seq<T>, key: T -> int)
  {
    forall i, j :: 0 <= i < j < |s| ==> key(s[i]) <= key(s[j])
  }

  /** The elements whose key is `k`, in order. */
  function WithKey<T>(s: seq<T>, key: T -> int, k: int): seq<T>
    decreases |s|
  {
    if s == [] then []
    else if key(s[0]) == k then [s[0]] + WithKey(s[1..], key, k)
    else WithKey(s[1..], key, k)
  }

  lemma {:induction false} WithKeyAppend<T>(s: seq<T>, t: seq<T>, key: T -> int, k: int)
    ensures WithKey(s + t, key, k) == WithKey(s, key, k) + WithKey(t, key, k)
    decreases |s|
  {
    if s == [] {
      assert s + t == t;
    } else {
      assert (s + t)[0] == s[0];
      assert (s + t)[1..] == s[1..] + t;
      WithKeyAppend(s[1..], t, key, k);
    }
  }

  lemma {:induction false} WithKeyNone<T>(s: seq<T>, key: T -> int, k: int)
    requires forall j :: 0 <= j < |s| ==> key(s[j]) != k
    ensures WithKey(s, key, k) == []
    decreases |s|
  {
    if s != [] {
      WithKeyNone(s[1..], key, k);
    }
  }

  /** Where `x` goes in `r`: before the first element with a larger key. */
  function InsertPos<T>(x: T, r: seq<T>, key: T -> int): (i: nat)
    ensures i <= |r|
    ensures forall j :: 0 <= j < i ==> key(r[j]) <= key(x)
    ensures i < |r| ==> key(r[i]) > key(x)
    decreases |r|
  {
    if r == [] || key(r[0]) > key(x) then 0 else 1 + InsertPos(x, r[1..], key)
  }

  function Insert<T>(x: T, r: seq<T>, key: T -> int): (r': seq<T>)
    requires SortedBy(r, key)
    ensures SortedBy(r', key)
    ensures multiset(r') == multiset(r) + multiset{x}
  {
    var i := InsertPos(x, r, key);
    InsertAtPos(x, r, key, i);
    r[..i] + [x] + r[i..]
  }

  /** Putting `x` after the keys up to its own and before the larger ones keeps the order and adds `x`. */
  lemma InsertAtPos<T>(x: T, r: seq<T>, key: T -> int, i: nat)
    requires SortedBy(r, key) && i <= |r|
    requires forall j :: 0 <= j < i ==> key(r[j]) <= key(x)
    requires i < |r| ==> key(r[i]) > key(x)
    ensures SortedBy(r[..i] + [x] + r[i..], key)
    ensures multiset(r[..i] + [x] + r[i..]) == multiset(r) + multiset{x}
  {
    InsertSorted(x, r, key, i);
    assert r == r[..i] + r[i..];
  }

  lemma InsertSorted<T>(x: T, r: seq<T>, key: T -> int, i: nat)
    requires SortedBy(r, key) && i <= |r|
    requires forall j :: 0 <= j < i ==> key(r[j]) <= key(x)
    requires i < |r| ==> key(r[i]) > key(x)
    ensures SortedBy(r[..i] + [x] + r[i..], key)
  {
    var out := r[..i] + [x] + r[i..];
    forall a, b | 0 <= a < b < |out| ensures key(out[a]) <= key(out[b]) {
      var ka := if a < i then key(r[a]) else if a == i then key(x) else key(r[a - 1]);
      var kb := if b < i then key(r[b]) else if b == i then key(x) else key(r[b - 1]);
      assert key(out[a]) == ka && key(out[b]) == kb;
      if a == i && b > i {
        assert key(r[i]) <= key(r[b - 1]);
      }
    }
  }

  function Sort<T>(s: seq<T>, key: T -> int): (r: seq<T>)
    ensures SortedBy(r, key)
    ensures multiset(r) == multiset(s)
    ensures |r| == |s|
    decreases |s|
  {
    if s == [] then []
    else
      assert s == s[..|s| - 1] + [s[|s| - 1]];
      Insert(s[|s| - 1], Sort(s[..|s| - 1], key), key)
  }

  /** The elements of key `k` among one element. */
  lemma WithKeyOne<T>(x: T, key: T -> int, k: int)
    ensures WithKey([x], key, k) == if key(x) == k then [x] else []
  {
    assert [x][1..] == [];
  }

  /** Inserting `x` appends it to the elements of its own key and leaves the other keys alone. */
  lemma InsertStable<T>(x: T, r: seq<T>, key: T -> int, k: int)
    requires SortedBy(r, key)
    ensures WithKey(Insert(x, r, key), key, k) == WithKey(r, key, k) + (if key(x) == k then [x] else [])
  {
    var i := InsertPos(x, r, key);
    forall j | i <= j < |r| ensures key(r[j]) > key(x) {
      assert key(r[i]) <= key(r[j]);
    }
    SplitStable(x, r, key, k, i);
  }

  /** `x` placed before a run of larger keys joins the end of its own key's elements. */
  lemma SplitStable<T>(x: T, r: seq<T>, key: T -> int, k: int, i: nat)
    requires i <= |r|
    requires forall j :: i <= j < |r| ==> key(r[j]) > key(x)
    ensures WithKey(r[..i] + [x] + r[i..], key, k) == WithKey(r, key, k) + (if key(x) == k then [x] else [])
  {
    var lo, hi := r[..i], r[i..];
    var mine := if key(x) == k then [x] else [];
    assert WithKey(r, key, k) == WithKey(lo, key, k) + WithKey(hi, key, k) by {
      assert r == lo + hi;
      WithKeyAppend(lo, hi, key, k);
    }
    assert WithKey(lo + [x] + hi, key, k) == WithKey(lo, key, k) + mine + WithKey(hi, key, k) by {
      WithKeyAppend(lo + [x], hi, key, k);
      WithKeyAppend(lo, [x], key, k);
      WithKeyOne(x, key, k);
    }
    if key(x) == k {
      assert WithKey(hi, key, k) == [] by {
        forall j | 0 <= j < |hi| ensures key(hi[j]) != k {
          assert hi[j] == r[i + j];
        }
        WithKeyNone(hi, key, k);
      }
    } else {
      assert mine == [];
    }
  }

  /** Equal keys keep their input order. */
  lemma {:induction false} SortStable<T>(s: seq<T>, key: T -> int, k: int)
    ensures WithKey(Sort(s, key), key, k) == WithKey(s, key, k)
    decreases |s|
  {
    if s != [] {
      var init, x := s[..|s| - 1], s[|s| - 1];
      var mine := if key(x) == k then [x] else [];
      calc {
        WithKey(Sort(s, key), key, k);
        == { SortLastStep(s, key, k); }
        WithKey(Sort(init, key), key, k) + mine;
        == { SortStable(init, key, k); }
        WithKey(init, key, k) + mine;
        == { WithKeySnoc(init, x, key, k); }
        WithKey(init + [x], key, k);
        == { assert init + [x] == s; }
        WithKey(s, key, k);
      }
    }
  }

  /** Sorting one more element adds it to the end of its key's elements. */
  lemma SortLastStep<T>(s: seq<T>, key: T -> int, k: int)
    requires s != []
    ensures WithKey(Sort(s, key), key, k)
         == WithKey(Sort(s[..|s| - 1], key), key, k) + (if key(s[|s| - 1]) == k then [s[|s| - 1]] else [])
  {
    InsertStable(s[|s| - 1], Sort(s[..|s| - 1], key), key, k);
  }

  lemma WithKeySnoc<T>(s: seq<T>, x: T, key: T -> int, k: int)
    ensures WithKey(s + [x], key, k) == WithKey(s, key, k) + (if key(x) == k then [x] else [])
  {
    WithKeyAppend(s, [x], key, k);
    WithKeyOne(x, key, k);
  }
}

=== FILE: store.dfy ===
/**
 * The Firestore collections in which the two monitors keep "already notified"
 * records, and the loop shape both monitors share: announce each entity, and
 * write its record only after the announcement went out.
 */
module NotificationStore {
  import opened Wrappers
  import opened Seqs

  /** One notification record: when it was written, and the monitor's own fields. */
  datatype Doc<P> = Doc(notifiedAt: int, fields: P)

  /** A collection, or `Offline` when Firestore was never initialised (`!db || !isInitialized`). */
  datatype Store<P> = Offline | Online(docs: map<string, Doc<P>>)

  /**
   * Firestore accepts `collection.doc(id)` as a document of this collection only
   * for a non-empty id without '/'; any other id throws (or names a document
   * elsewhere), so the record never lands in the collection.
   */
  predicate ValidDocId(id: string)
  {
    id != "" && forall k :: 0 <= k < |id| ==> id[k] != '/'
  }

  // ---------------------------------------------------------------- cleanup

  datatype SweepResult<P> = SweepResult(store: Store<P>, deleted: nat)

  /**
   * The cleanup jobs: query the records with `notifiedAt < cutoff` and delete them
   * in one batch. A failed query or commit (`ok == false`) deletes nothing.
   */
  function Sweep<P>(s: Store<P>, cutoff: int, ok: bool): (r: SweepResult<P>)
    ensures s.Offline? || !ok ==> r == SweepResult(s, 0)
    ensures s.Online? && ok ==> r.store.Online?
    ensures s.Online? && ok ==> forall k :: k in r.store.docs <==> k in s.docs && s.docs[k].notifiedAt >= cutoff
    ensures s.Online? && ok ==> forall k :: k in r.store.docs ==> r.store.docs[k] == s.docs[k]
    ensures s.Online? && ok ==> r.deleted + |r.store.docs| == |s.docs|
  {
    match s
    case Offline => SweepResult(s, 0)
    case Online(docs) =>
      if !ok then SweepResult(s, 0)
      else
        var stale := set k | k in docs && docs[k].notifiedAt < cutoff;
        var kept := map k | k in docs && docs[k].notifiedAt >= cutoff :: docs[k];
        assert kept.Keys + stale == docs.Keys;
        assert kept.Keys * stale == {};
        SweepResult(Online(kept), |stale|)
  }

  /** Sweeping twice with the same cut-off deletes nothing the first sweep left. */
  lemma SweepIdempotent<P>(s: Store<P>, cutoff: int)
    ensures Sweep(Sweep(s, cutoff, true).store, cutoff, true).store == Sweep(s, cutoff, true).store
  {
    if s.Online? {
      var once := Sweep(s, cutoff, true).store;
      var twice := Sweep(once, cutoff, true).store;
      assert twice.docs == once.docs;
    }
  }

  // ---------------------------------------------------------------- delivery

  /** How a monitor records an entity: the document id, and the fields written given the existing ones. */
  datatype Recorder<!G, !P> = Recorder(docId: G -> string, fields: (G, Option<P>) -> P)

  /** What the outside world did with each entity: did the channel send succeed, did the store write succeed. */
  datatype Oracle<!G> = Oracle(sendOk: G -> bool, writeOk: G -> bool)

  /** An entity's record is written: its send went out, its write went through, its id is usable. */
  predicate Recorded<G, P>(g: G, rec: Recorder<G, P>, o: Oracle<G>)
  {
    o.sendOk(g) && o.writeOk(g) && ValidDocId(rec.docId(g))
  }

  /** Some entity of `gs` wrote the record with id `k`. */
  predicate WrittenKey<G, P>(gs: seq<G>, k: string, rec: Recorder<G, P>, o: Oracle<G>)
  {
    exists i :: 0 <= i < |gs| && Recorded(gs[i], rec, o) && rec.docId(gs[i]) == k
  }

  /** The record write after a successful send (`markGameAsNotified`/`markLobbyAsNotified`). */
  function Record<G, P>(s: Store<P>, g: G, now: int, rec: Recorder<G, P>, writeOk: bool): (r: Store<P>)
    ensures s.Offline? <==> r.Offline?
    ensures s.Online? && writeOk && ValidDocId(rec.docId(g)) ==>
              r.docs == s.docs[rec.docId(g) := Doc(now, rec.fields(g, FieldsAt(s.docs, rec.docId(g))))]
    ensures s.Online? && !(writeOk && ValidDocId(rec.docId(g))) ==> r == s
  {
    match s
    case Offline => s
    case Online(docs) =>
      var id := rec.docId(g);
      if writeOk && ValidDocId(id) then Online(docs[id := Doc(now, rec.fields(g, FieldsAt(docs, id)))])
      else s
  }

  /** The fields of the existing record `id`, if any. */
  function FieldsAt<P>(docs: map<string, Doc<P>>, id: string): Option<P>
  {
    if id in docs then Some(docs[id].fields) else None
  }

  datatype Delivery<G, P> = Delivery(delivered: seq<G>, store: Store<P>)

  /**
   * The per-entity loop of both monitors: send, then record; a failed send is
   * caught and the loop goes on with the next entity.
   */
  function DeliverAll<G(==), P>(gs: seq<G>, s: Store<P>, now: int, rec: Recorder<G, P>, o: Oracle<G>): (r: Delivery<G, P>)
    ensures r.delivered == Filter(gs, o.sendOk)
    ensures s.Offline? <==> r.store.Offline?
    ensures s.Online? ==> forall k :: k in r.store.docs <==> k in s.docs || WrittenKey(gs, k, rec, o)
    ensures s.Online? ==> forall k :: k in s.docs && !WrittenKey(gs, k, rec, o) ==> r.store.docs[k] == s.docs[k]
    ensures s.Online? ==> forall k :: WrittenKey(gs, k, rec, o) ==> r.store.docs[k].notifiedAt == now
    decreases |gs|
  {
    if gs == [] then Delivery([], s)
    else
      var g := gs[0];
      var s1 := if o.sendOk(g) then Record(s, g, now, rec, o.writeOk(g)) else s;
      var rest := DeliverAll(gs[1..], s1, now, rec, o);
      WrittenKeyCons(gs, rec, o);
      Delivery(if o.sendOk(g) then [g] + rest.delivered else rest.delivered, rest.store)
  }

  /** When no send goes out, nothing is delivered and nothing is recorded. */
  lemma {:induction false} NoSendNoChange<G, P>(gs: seq<G>, s: Store<P>, now: int, rec: Recorder<G, P>, o: Oracle<G>)
    requires forall g :: !o.sendOk(g)
    ensures DeliverAll(gs, s, now, rec, o) == Delivery([], s)
    decreases |gs|
  {
    if gs != [] {
      NoSendNoChange(gs[1..], s, now, rec, o);
    }
  }

  /**
   * Whatever holds of every record a monitor builds from the delivered entities
   * holds of every record this run wrote.
   */
  lemma {:induction false} DeliverAllWritesBuiltFields<G, P>(
    gs: seq<G>, s: Store<P>, now: int, rec: Recorder<G, P>, o: Oracle<G>, good: (string, P) -> bool)
    requires s.Online?
    requires forall i, prev: Option<P> :: 0 <= i < |gs| && Recorded(gs[i], rec, o) ==> good(rec.docId(gs[i]), rec.fields(gs[i], prev))
    ensures forall k :: WrittenKey(gs, k, rec, o) ==> good(k, DeliverAll(gs, s, now, rec, o).store.docs[k].fields)
    decreases |gs|
  {
    if gs != [] {
      var g := gs[0];
      var s1 := if o.sendOk(g) then Record(s, g, now, rec, o.writeOk(g)) else s;
      forall i, prev: Option<P> | 0 <= i < |gs[1..]| && Recorded(gs[1..][i], rec, o)
        ensures good(rec.docId(gs[1..][i]), rec.fields(gs[1..][i], prev)) {
        assert gs[1..][i] == gs[i + 1];
      }
      DeliverAllWritesBuiltFields(gs[1..], s1, now, rec, o, good);
      var r := DeliverAll(gs, s, now, rec, o);
      forall k | WrittenKey(gs, k, rec, o) ensures good(k, r.store.docs[k].fields) {
        WrittenKeyCons(gs, rec, o);
        if !WrittenKey(gs[1..], k, rec, o) {
          assert good(k, rec.fields(g, FieldsAt(s.docs, k)));
        }
      }
    }
  }

  /** A key is written by `gs` iff it is written by its tail or by its head. */
  lemma WrittenKeyCons<G, P>(gs: seq<G>, rec: Recorder<G, P>, o: Oracle<G>)
    requires gs != []
    ensures forall k :: WrittenKey(gs, k, rec, o) <==>
      (WrittenKey(gs[1..], k, rec, o) || (Recorded(gs[0], rec, o) && rec.docId(gs[0]) == k))
  {
    forall k ensures WrittenKey(gs, k, rec, o) ==>
      (WrittenKey(gs[1..], k, rec, o) || (Recorded(gs[0], rec, o) && rec.docId(gs[0]) == k)) {
      if WrittenKey(gs, k, rec, o) {
        var i :| 0 <= i < |gs| && Recorded(gs[i], rec, o) && rec.docId(gs[i]) == k;
        if i > 0 {
          assert gs[1..][i - 1] == gs[i];
        }
      }
    }
    forall k | WrittenKey(gs[1..], k, rec, o) ensures WrittenKey(gs, k, rec, o) {
      var i :| 0 <= i < |gs[1..]| && Recorded(gs[1..][i], rec, o) && rec.docId(gs[1..][i]) == k;
      assert gs[i + 1] == gs[1..][i];
    }
  }
}

=== FILE: text.dfy ===
/**
 * Character classes and string helpers with the semantics of the JavaScript
 * built-ins the bot uses: `\d` and `\s` in regular expressions, `parseInt(s, 10)`,
 * `Number.prototype.toString()` on integers, `padStart(2, '0')`,
 * `toLowerCase`/`toUpperCase`, `startsWith`, `join` and `split`.
 */
module Text {
  import opened Wrappers

  // ---------------------------------------------------------------- characters

  /** `\d`: the ASCII decimal digits only. */
  predicate IsDigit(c: char)
  {
    '0' <= c <= '9'
  }

  /** `\s` (and the white space `parseInt` skips): ECMAScript WhiteSpace and LineTerminator. */
  predicate IsSpace(c: char)
  {
    var n := c as int;
    n == 0x09 || n == 0x0A || n == 0x0B || n == 0x0C || n == 0x0D || n == 0x20
    || n == 0xA0 || n == 0x1680 || (0x2000 <= n <= 0x200A) || n == 0x2028
    || n == 0x2029 || n == 0x202F || n == 0x205F || n == 0x3000 || n == 0xFEFF
  }

  /** Lower-casing of one character; only ASCII letters change. */
  function LowerChar(c: char): char
  {
    if 'A' <= c <= 'Z' then (c as int + 32) as char else c
  }

  /** Upper-casing of one character; only ASCII letters change. */
  function UpperChar(c: char): char
  {
    if 'a' <= c <= 'z' then (c as int - 32) as char else c
  }

  function ToLower(s: string): (r: string)
    ensures |r| == |s|
    ensures forall i :: 0 <= i < |s| ==> r[i] == LowerChar(s[i])
  {
    if s == [] then [] else [LowerChar(s[0])] + ToLower(s[1..])
  }

  function ToUpper(s: string): (r: string)
    ensures |r| == |s|
    ensures forall i :: 0 <= i < |s| ==> r[i] == UpperChar(s[i])
  {
    if s == [] then [] else [UpperChar(s[0])] + ToUpper(s[1..])
  }

  predicate StartsWith(s: string, prefix: string)
  {
    |prefix| <= |s| && s[..|prefix|] == prefix
  }

  // ---------------------------------------------------------------- decimal numbers

  function DigitValue(c: char): nat
    requires IsDigit(c)
  {
    c as int - '0' as int
  }

  function DigitChar(d: nat): (c: char)
    requires d < 10
    ensures IsDigit(c) && DigitValue(c) == d
  {
    ('0' as int + d) as char
  }

  predicate AllDigits(s: string)
  {
    forall i :: 0 <= i < |s| ==> IsDigit(s[i])
  }

  /** The value of a string of decimal digits (the empty string reads as 0). */
  function DigitsValue(s: string): nat
    requires AllDigits(s)
  {
    if s == [] then 0 else DigitsValue(s[..|s| - 1]) * 10 + DigitValue(s[|s| - 1])
  }

  /** Decimal rendering of a natural number, without leading zeros. */
  function NatToString(n: nat): (s: string)
    ensures 1 <= |s| && AllDigits(s)
    ensures |s| > 1 ==> s[0] != '0'
  {
    if n < 10 then [DigitChar(n)] else NatToString(n / 10) + [DigitChar(n % 10)]
  }

  /** `String(n)` for an integer-valued number. */
  function IntToString(i: int): string
  {
    if i < 0 then "-" + NatToString(-i) else NatToString(i)
  }

  /** `String(n).padStart(2, '0')`. */
  function Pad2(n: nat): (s: string)
    ensures |s| >= 2 && AllDigits(s)
  {
    var d := NatToString(n);
    if |d| < 2 then "0" + d else d
  }

  /** Reading back a rendered number gives the number. */
  lemma {:induction false} NatToStringRoundTrip(n: nat)
    ensures DigitsValue(NatToString(n)) == n
  {
    if n >= 10 {
      var s := NatToString(n);
      assert s[..|s| - 1] == NatToString(n / 10);
      NatToStringRoundTrip(n / 10);
    }
  }

  /** Rendering the value of a digit string without leading zeros gives the string back. */
  lemma {:induction false} DigitsRoundTrip(s: string)
    requires AllDigits(s) && 1 <= |s| && (|s| > 1 ==> s[0] != '0')
    ensures NatToString(DigitsValue(s)) == s
  {
    if |s| > 1 {
      var init := s[..|s| - 1];
      DigitsRoundTrip(init);
      DigitsValuePositive(init);
      assert DigitsValue(s) / 10 == DigitsValue(init);
      assert DigitsValue(s) % 10 == DigitValue(s[|s| - 1]);
      assert init + [s[|s| - 1]] == s;
    }
  }

  lemma {:induction false} DigitsValuePositive(s: string)
    requires AllDigits(s) && 1 <= |s| && s[0] != '0'
    ensures DigitsValue(s) >= 1
  {
    if |s| > 1 {
      DigitsValuePositive(s[..|s| - 1]);
    }
  }

  /** `Pad2` renders the minutes 0..99 as exactly two digits that read back as the number. */
  lemma Pad2RoundTrip(n: nat)
    requires n < 100
    ensures |Pad2(n)| == 2
    ensures DigitsValue(Pad2(n)) == n
  {
    NatToStringRoundTrip(n);
    var d := NatToString(n);
    if n < 10 {
      assert d == [DigitChar(n)];
      assert Pad2(n) == ['0', DigitChar(n)];
      assert Pad2(n)[..1] == ['0'];
    } else {
      assert d == NatToString(n / 10) + [DigitChar(n % 10)];
      assert NatToString(n / 10) == [DigitChar(n / 10)];
    }
  }

  // ---------------------------------------------------------------- scanning

  /** The end of the run of digits starting at `i`. */
  function DigitRunEnd(s: string, i: nat): (j: nat)
    requires i <= |s|
    ensures i <= j <= |s|
    ensures AllDigits(s[i..j])
    ensures j == |s| || !IsDigit(s[j])
    decreases |s| - i
  {
    if i < |s| && IsDigit(s[i]) then DigitRunEnd(s, i + 1) else i
  }

  /** The end of the run of `\s` characters starting at `i`. */
  function SpaceRunEnd(s: string, i: nat): (j: nat)
    requires i <= |s|
    ensures i <= j <= |s|
    ensures forall k :: i <= k < j ==> IsSpace(s[k])
    ensures j == |s| || !IsSpace(s[j])
    decreases |s| - i
  {
    if i < |s| && IsSpace(s[i]) then SpaceRunEnd(s, i + 1) else i
  }

  /** A digit run that stops before a non-digit is the run `DigitRunEnd` finds. */
  lemma DigitRunEndIs(s: string, i: nat, j: nat)
    requires i <= j <= |s|
    requires forall k :: i <= k < j ==> IsDigit(s[k])
    requires j == |s| || !IsDigit(s[j])
    ensures DigitRunEnd(s, i) == j
  {
  }

  /** A space run that stops before a non-space is the run `SpaceRunEnd` finds. */
  lemma SpaceRunEndIs(s: string, i: nat, j: nat)
    requires i <= j <= |s|
    requires forall k :: i <= k < j ==> IsSpace(s[k])
    requires j == |s| || !IsSpace(s[j])
    ensures SpaceRunEnd(s, i) == j
  {
  }

  /**
   * `parseInt(s, 10)`: leading white space, an optional sign, then the longest
   * run of digits; `None` (NaN) when there is no digit.
   */
  function ParseInt(s: string): (r: Option<int>)
    ensures r.None? <==> (var t := SpaceRunEnd(s, 0);
                          var u := if t < |s| && (s[t] == '-' || s[t] == '+') then t + 1 else t;
                          DigitRunEnd(s, u) == u)
  {
    var t := SpaceRunEnd(s, 0);
    var neg := t < |s| && s[t] == '-';
    var u := if t < |s| && (s[t] == '-' || s[t] == '+') then t + 1 else t;
    var e := DigitRunEnd(s, u);
    if e == u then None
    else
      var v: int := DigitsValue(s[u..e]);
      Some(if neg then -v else v)
  }

  /** `parseInt` reads a rendered natural number back exactly. */
  lemma ParseIntOfNatToString(n: nat)
    ensures ParseInt(NatToString(n)) == Some(n)
  {
    var s := NatToString(n);
    NatToStringRoundTrip(n);
    assert SpaceRunEnd(s, 0) == 0;
    DigitRunEndAll(s, 0);
    assert s[0..|s|] == s;
  }

  /** Over a string made of digits only, the digit run reaches the end. */
  lemma {:induction false} DigitRunEndAll(s: string, i: nat)
    requires i <= |s| && AllDigits(s)
    ensures DigitRunEnd(s, i) == |s|
    decreases |s| - i
  {
    if i < |s| {
      DigitRunEndAll(s, i + 1);
    }
  }

  // ---------------------------------------------------------------- join / split

  /** `parts.join(sep)`. */
  function Join(parts: seq<string>, sep: string): string
  {
    if |parts| == 0 then ""
    else if |parts| == 1 then parts[0]
    else parts[0] + sep + Join(parts[1..], sep)
  }

  /** The index of the first `c` in `s` at or after `i`, or `|s|`. */
  function IndexOf(s: string, c: char, i: nat): (j: nat)
    requires i <= |s|
    ensures i <= j <= |s|
    ensures forall k :: i <= k < j ==> s[k] != c
    ensures j < |s| ==> s[j] == c
    decreases |s| - i
  {
    if i == |s| || s[i] == c then i else IndexOf(s, c, i + 1)
  }

  /** `s.split(c)` for a one-character separator: the pieces between separators. */
  function Split(s: string, c: char): (r: seq<string>)
    ensures |r| >= 1
    ensures (forall k :: 0 <= k < |s| ==> s[k] != c) ==> r == [s]
    decreases |s|
  {
    var j := IndexOf(s, c, 0);
    if j == |s| then [s] else [s[..j]] + Split(s[j + 1..], c)
  }

  /** A stretch of `s` that agrees with `x` character by character is `x`. */
  lemma SliceIs(s: string, lo: nat, x: string)
    requires lo + |x| <= |s|
    requires forall j :: 0 <= j < |x| ==> s[lo + j] == x[j]
    ensures s[lo..lo + |x|] == x
  {
    forall j | 0 <= j < |x| ensures s[lo..lo + |x|][j] == x[j] {
      assert s[lo..lo + |x|][j] == s[lo + j];
    }
  }

  /** Splitting `a + [c] + b` where `a` holds no `c` yields `a` first and then the pieces of `b`. */
  lemma SplitAt(a: string, c: char, b: string)
    requires forall k :: 0 <= k < |a| ==> a[k] != c
    ensures Split(a + [c] + b, c) == [a] + Split(b, c)
  {
    var s := a + [c] + b;
    assert forall k :: 0 <= k < |a| ==> s[k] != c;
    assert s[|a|] == c;
    assert IndexOf(s, c, 0) == |a| by { IndexOfFirst(s, c, 0, |a|); }
    assert s[..|a|] == a;
    assert s[|a| + 1..] == b;
  }

  /** Splitting at a separator that occurs in no part undoes joining with it. */
  lemma {:induction false} SplitJoin(parts: seq<string>, c: char)
    requires |parts| >= 1
    requires forall i, k :: 0 <= i < |parts| && 0 <= k < |parts[i]| ==> parts[i][k] != c
    ensures Split(Join(parts, [c]), c) == parts
    decreases |parts|
  {
    if |parts| > 1 {
      SplitJoin(parts[1..], c);
      SplitAt(parts[0], c, Join(parts[1..], [c]));
      assert Join(parts, [c]) == parts[0] + [c] + Join(parts[1..], [c]);
      assert parts == [parts[0]] + parts[1..];
    }
  }

  lemma {:induction false} IndexOfFirst(s: string, c: char, i: nat, j: nat)
    requires i <= j < |s| && s[j] == c
    requires forall k :: i <= k < j ==> s[k] != c
    ensures IndexOf(s, c, i) == j
    decreases j - i
  {
    if i < j {
      IndexOfFirst(s, c, i + 1, j);
    }
  }
}

=== FILE: time_util.dfy ===
/**
 * The time helpers of the scheduling flow: `parseTime` (12- and 24-hour input
 * to an hour and a minute) and `getTimeOptions` (the 25 half-hour slots offered
 * in step 2, evening hours first).
 */
module TimeUtil {
  import opened Wrappers
  import opened Text
  import Config

  // ---------------------------------------------------------------- 12-hour clock

  datatype Period = AM | PM

  /** The `(am|pm)` group (case-insensitive) at `i`, if there is one. */
  function PeriodAt(s: string, i: nat): Option<Period>
  {
    if i + 1 < |s| && LowerChar(s[i + 1]) == 'm' then
      if LowerChar(s[i]) == 'a' then Some(AM)
      else if LowerChar(s[i]) == 'p' then Some(PM)
      else None
    else None
  }

  /** parseTime's conversion: pm adds 12 except at 12, 12 am is hour 0, anything else is kept. */
  function To24(hours: nat, period: Option<Period>): (h: nat)
    ensures period == Some(PM) && hours != 12 ==> h == hours + 12
    ensures period == Some(AM) && hours == 12 ==> h == 0
  {
    if period == Some(PM) && hours != 12 then hours + 12
    else if period == Some(AM) && hours == 12 then 0
    else hours
  }

  /** The label's period: `hour >= 12 ? 'PM' : 'AM'`. */
  function PeriodOf(hour: nat): Period
  {
    if hour >= 12 then PM else AM
  }

  /** The label's hour: `hour === 0 ? 12 : hour > 12 ? hour - 12 : hour`. */
  function DisplayHour(hour: nat): nat
  {
    if hour == 0 then 12 else if hour > 12 then hour - 12 else hour
  }

  function PeriodText(p: Period): string
  {
    match p
    case AM => "AM"
    case PM => "PM"
  }

  /** The 12-hour rendering of every hour of the day reads back, through parseTime's conversion, as that hour. */
  lemma TwelveHourRoundTrip(hour: nat)
    requires hour < 24
    ensures 1 <= DisplayHour(hour) <= 12
    ensures To24(DisplayHour(hour), Some(PeriodOf(hour))) == hour
  {
  }

  // ---------------------------------------------------------------- parseTime

  /** A match of `(\d+):?(\d+)?\s*(am|pm)`: hours, optional minutes, period. */
  datatype PeriodMatch = PeriodMatch(hours: nat, minutes: Option<nat>, period: Period)

  /**
   * The match of `(\d+):?(\d+)?\s*(am|pm)` (case-insensitive) starting at `p`.
   * The first group takes the whole digit run: a shorter one hands the rest of
   * the run to the optional second group and ends in the same place. The colon
   * is taken when present; dropping it leaves ':' before `(am|pm)`, which fails.
   */
  function PeriodMatchAt(s: string, p: nat): Option<PeriodMatch>
    requires p <= |s|
  {
    if p == |s| || !IsDigit(s[p]) then None
    else
      var e1 := DigitRunEnd(s, p);
      var h := DigitsValue(s[p..e1]);
      if e1 < |s| && s[e1] == ':' then
        if e1 + 1 < |s| && IsDigit(s[e1 + 1]) then
          var e2 := DigitRunEnd(s, e1 + 1);
          var per := PeriodAt(s, SpaceRunEnd(s, e2));
          if per.Some? then Some(PeriodMatch(h, Some(DigitsValue(s[e1 + 1..e2])), per.value)) else None
        else
          var per := PeriodAt(s, SpaceRunEnd(s, e1 + 1));
          if per.Some? then Some(PeriodMatch(h, None, per.value)) else None
      else
        var per := PeriodAt(s, SpaceRunEnd(s, e1));
        if per.Some? then Some(PeriodMatch(h, None, per.value)) else None
  }

  function FirstPeriodMatch(s: string, p: nat): Option<PeriodMatch>
    requires p <= |s|
    decreases |s| - p
  {
    if p == |s| then None
    else if PeriodMatchAt(s, p).Some? then PeriodMatchAt(s, p)
    else FirstPeriodMatch(s, p + 1)
  }

  /** The match of `(\d+):(\d+)` starting at `p`: a shorter first group leaves a digit where ':' must be. */
  function ClockMatchAt(s: string, p: nat): Option<(nat, nat)>
    requires p <= |s|
  {
    if p == |s| || !IsDigit(s[p]) then None
    else
      var e1 := DigitRunEnd(s, p);
      if e1 + 1 < |s| && s[e1] == ':' && IsDigit(s[e1 + 1]) then
        Some((DigitsValue(s[p..e1]), DigitsValue(s[e1 + 1..DigitRunEnd(s, e1 + 1)])))
      else None
  }

  function FirstClockMatch(s: string, p: nat): Option<(nat, nat)>
    requires p <= |s|
    decreases |s| - p
  {
    if p == |s| then None
    else if ClockMatchAt(s, p).Some? then ClockMatchAt(s, p)
    else FirstClockMatch(s, p + 1)
  }

  /** The index of the first digit at or after `p`, or |s|. */
  function FirstDigit(s: string, p: nat): (q: nat)
    requires p <= |s|
    ensures p <= q <= |s|
    ensures forall k :: p <= k < q ==> !IsDigit(s[k])
    ensures q < |s| ==> IsDigit(s[q])
    decreases |s| - p
  {
    if p == |s| || IsDigit(s[p]) then p else FirstDigit(s, p + 1)
  }

  /** `parseTime`: `Ok((hours, minutes))`, or the error it throws exactly when the input has no digit. */
  function ParseTime(s: string): (r: Result<(nat, nat)>)
    ensures r.Err? <==> forall k :: 0 <= k < |s| ==> !IsDigit(s[k])
    ensures r.Err? ==> r.message == "Could not parse time: " + s
  {
    NoMatchWithoutDigit(s);
    var pm := FirstPeriodMatch(s, 0);
    if pm.Some? then
      Ok((To24(pm.value.hours, Some(pm.value.period)), pm.value.minutes.GetOr(0)))
    else
      var hm := FirstClockMatch(s, 0);
      if hm.Some? then Ok(hm.value)
      else
        // `(\d+)\s*(am|pm)?` matches at the first digit; its digit run is the hour.
        var p := FirstDigit(s, 0);
        if p == |s| then Err("Could not parse time: " + s)
        else
          var e1 := DigitRunEnd(s, p);
          Ok((To24(DigitsValue(s[p..e1]), PeriodAt(s, SpaceRunEnd(s, e1))), 0))
  }

  // ---------------------------------------------------------------- parseTime properties

  lemma {:induction false} NoDigitNoPeriodMatch(s: string, p: nat)
    requires p <= |s|
    requires forall k :: p <= k < |s| ==> !IsDigit(s[k])
    ensures FirstPeriodMatch(s, p) == None && FirstClockMatch(s, p) == None
    decreases |s| - p
  {
    if p < |s| {
      NoDigitNoPeriodMatch(s, p + 1);
    }
  }

  /** Without a digit neither the am/pm form nor the 24-hour form matches. */
  lemma NoMatchWithoutDigit(s: string)
    ensures (forall k :: 0 <= k < |s| ==> !IsDigit(s[k])) ==> FirstPeriodMatch(s, 0) == None && FirstClockMatch(s, 0) == None
  {
    if forall k :: 0 <= k < |s| ==> !IsDigit(s[k]) {
      NoDigitNoPeriodMatch(s, 0);
    }
  }

  lemma {:induction false} NoColonNoClockMatch(s: string, p: nat)
    requires p <= |s|
    requires forall k :: p <= k < |s| ==> s[k] != ':'
    ensures FirstClockMatch(s, p) == None
    decreases |s| - p
  {
    if p < |s| {
      NoColonNoClockMatch(s, p + 1);
    }
  }

  /** A bare hour such as "20" is read as that hour, on the hour. */
  lemma ParseTimeBareHour(h: nat)
    ensures ParseTime(NatToString(h)) == Ok((h, 0))
  {
    var s := NatToString(h);
    NatToStringRoundTrip(h);
    forall k | 0 <= k < |s| ensures LowerChar(s[k]) != 'a' && LowerChar(s[k]) != 'p' && s[k] != ':' {
      assert IsDigit(s[k]);
    }
    NoLettersNoPeriodMatch(s, 0);
    NoColonNoClockMatch(s, 0);
    DigitRunEndAll(s, 0);
    assert s[0..|s|] == s;
  }

  /** "8pm", "12 AM", … (an hour and a period, any case, any white space between) convert to the 24-hour clock, on the hour. */
  lemma ParseTimePeriodOnly(h: nat, sp: string, per: string, period: Period)
    requires forall k :: 0 <= k < |sp| ==> IsSpace(sp[k])
    requires |per| == 2 && LowerChar(per[1]) == 'm'
    requires period == AM ==> LowerChar(per[0]) == 'a'
    requires period == PM ==> LowerChar(per[0]) == 'p'
    ensures ParseTime(NatToString(h) + sp + per) == Ok((To24(h, Some(period)), 0))
  {
    var a := NatToString(h);
    var s := a + (sp + per);
    assert s == NatToString(h) + sp + per;
    NatToStringRoundTrip(h);
    HourPeriodLayout(a, sp, per, period);
    assert PeriodMatchAt(s, 0) == Some(PeriodMatch(h, None, period));
    ParseTimeOfPeriodMatch(s, PeriodMatch(h, None, period));
  }

  /** The runs of "<h><sp><per>": the hour's digits, no colon, the spaces, then the period. */
  lemma HourPeriodLayout(a: string, sp: string, per: string, period: Period)
    requires AllDigits(a) && 1 <= |a|
    requires forall k :: 0 <= k < |sp| ==> IsSpace(sp[k])
    requires |per| == 2 && LowerChar(per[1]) == 'm'
    requires period == AM ==> LowerChar(per[0]) == 'a'
    requires period == PM ==> LowerChar(per[0]) == 'p'
    ensures var s := a + (sp + per);
            IsDigit(s[0]) && DigitRunEnd(s, 0) == |a| && s[0..|a|] == a && s[|a|] != ':'
            && SpaceRunEnd(s, |a|) == |a| + |sp| && PeriodAt(s, |a| + |sp|) == Some(period)
  {
    PeriodStartsWithNoDigit(sp, per, period);
    HourRun(a, sp + per);
    assert (sp + per)[0] != ':' by {
      if |sp| > 0 {
        assert (sp + per)[0] == sp[0];
      } else {
        assert (sp + per)[0] == per[0];
      }
    }
    SpacesThenPeriod(a, sp, per, period);
  }

  /** "<a><rest>" with `rest` not starting with a digit: the digit run is `a`. */
  lemma HourRun(a: string, rest: string)
    requires AllDigits(a) && 1 <= |a|
    requires rest != [] && !IsDigit(rest[0])
    ensures var s := a + rest;
            IsDigit(s[0]) && DigitRunEnd(s, 0) == |a| && s[0..|a|] == a && s[|a|] == rest[0]
  {
    var s := a + rest;
    forall k | 0 <= k < |a| ensures s[k] == a[k] && IsDigit(s[k]) {
      assert s[k] == a[k];
    }
    assert s[0..|a|] == a;
    assert s[|a|] == rest[0];
    DigitRunEndIs(s, 0, |a|);
  }

  /** After the hour of "<a><sp><per>" come the spaces and then the period. */
  lemma SpacesThenPeriod(a: string, sp: string, per: string, period: Period)
    requires forall k :: 0 <= k < |sp| ==> IsSpace(sp[k])
    requires |per| == 2 && LowerChar(per[1]) == 'm'
    requires period == AM ==> LowerChar(per[0]) == 'a'
    requires period == PM ==> LowerChar(per[0]) == 'p'
    ensures var s := a + (sp + per);
            SpaceRunEnd(s, |a|) == |a| + |sp| && PeriodAt(s, |a| + |sp|) == Some(period)
  {
    var rest := sp + per;
    var s := a + rest;
    forall k | |a| <= k < |a| + |sp| ensures IsSpace(s[k]) {
      assert s[k] == rest[k - |a|] == sp[k - |a|];
    }
    assert s[|a| + |sp|] == rest[|sp|] == per[0];
    assert s[|a| + |sp| + 1] == rest[|sp| + 1] == per[1];
    SpaceRunEndIs(s, |a|, |a| + |sp|);
  }

  /** No 'a', 'A', 'p' or 'P' in the input: the am/pm form never matches. */
  predicate NoPeriodLetters(s: string)
  {
    forall k :: 0 <= k < |s| ==> LowerChar(s[k]) != 'a' && LowerChar(s[k]) != 'p'
  }

  lemma {:induction false} NoLettersNoPeriodMatch(s: string, p: nat)
    requires p <= |s| && NoPeriodLetters(s)
    ensures FirstPeriodMatch(s, p) == None
    decreases |s| - p
  {
    if p < |s| {
      NoLettersNoPeriodMatch(s, p + 1);
    }
  }

  /** The runs of "<h>:<m><rest>". */
  lemma ClockLayout(a: string, b: string, rest: string)
    requires AllDigits(a) && AllDigits(b) && 1 <= |a| && 1 <= |b|
    requires rest == [] || !IsDigit(rest[0])
    ensures var s := a + ":" + b + rest;
            DigitRunEnd(s, 0) == |a| && s[|a|] == ':' && IsDigit(s[|a| + 1])
            && DigitRunEnd(s, |a| + 1) == |a| + 1 + |b|
            && s[0..|a|] == a && s[|a| + 1..|a| + 1 + |b|] == b
  {
    ClockRunEnds(a, b, rest);
    ClockSlices(a, b, rest);
  }

  lemma ClockRunEnds(a: string, b: string, rest: string)
    requires AllDigits(a) && AllDigits(b) && 1 <= |a| && 1 <= |b|
    requires rest == [] || !IsDigit(rest[0])
    ensures var s := a + ":" + b + rest;
            DigitRunEnd(s, 0) == |a| && s[|a|] == ':' && IsDigit(s[|a| + 1])
            && DigitRunEnd(s, |a| + 1) == |a| + 1 + |b|
  {
    var s := a + ":" + b + rest;
    var e := |a| + 1 + |b|;
    ClockChars(a, b, rest);
    forall k | 0 <= k < |a| ensures IsDigit(s[k]) {
      assert s[k] == a[k];
    }
    forall k | |a| + 1 <= k < e ensures IsDigit(s[k]) {
      assert s[|a| + 1 + (k - |a| - 1)] == b[k - |a| - 1];
    }
    DigitRunEndIs(s, 0, |a|);
    DigitRunEndIs(s, |a| + 1, e);
  }

  lemma ClockSlices(a: string, b: string, rest: string)
    ensures var s := a + ":" + b + rest;
            s[0..|a|] == a && s[|a| + 1..|a| + 1 + |b|] == b
  {
    var s := a + ":" + b + rest;
    ClockChars(a, b, rest);
    SliceIs(s, 0, a);
    SliceIs(s, |a| + 1, b);
  }

  /** The characters of "<a>:<b><rest>" up to the first one of `rest`. */
  lemma ClockChars(a: string, b: string, rest: string)
    ensures var s := a + ":" + b + rest;
            (forall j :: 0 <= j < |a| ==> s[j] == a[j]) && s[|a|] == ':'
            && (forall j :: 0 <= j < |b| ==> s[|a| + 1 + j] == b[j])
            && (|a| + 1 + |b| < |s| ==> s[|a| + 1 + |b|] == rest[0])
  {
    var p1 := a + ":";
    var p2 := p1 + b;
    var s := p2 + rest;
    forall j | 0 <= j < |a| ensures s[j] == a[j] {
      assert s[j] == p2[j] == p1[j];
    }
    assert s[|a|] == p2[|a|] == p1[|a|];
    forall j | 0 <= j < |b| ensures s[|p1| + j] == b[j] {
      assert s[|p1| + j] == p2[|p1| + j];
    }
  }

  /** "H:MM" without a period reads as the hour and minute written. */
  lemma ParseTimeClock(h: nat, m: nat)
    ensures ParseTime(NatToString(h) + ":" + Pad2(m)) == Ok((h, m))
  {
    var a, b := NatToString(h), Pad2(m);
    NatToStringRoundTrip(h);
    Pad2Value(m);
    ClockFormMatches(a, b);
    ClockHasNoPeriod(a, b);
  }

  /** The 24-hour form matches "<a>:<b>" at its start, with the digit runs as hours and minutes. */
  lemma ClockFormMatches(a: string, b: string)
    requires AllDigits(a) && AllDigits(b) && 1 <= |a| && 1 <= |b|
    ensures FirstClockMatch(a + ":" + b, 0) == Some((DigitsValue(a), DigitsValue(b)))
  {
    var s := a + ":" + b;
    assert s == a + ":" + b + "";
    ClockLayout(a, b, "");
    assert ClockMatchAt(s, 0) == Some((DigitsValue(a), DigitsValue(b)));
  }

  /** "<a>:<b>" made of digits holds no letter of "am" or "pm". */
  lemma ClockHasNoPeriod(a: string, b: string)
    requires AllDigits(a) && AllDigits(b)
    ensures FirstPeriodMatch(a + ":" + b, 0) == None
  {
    var s := a + ":" + b;
    forall k | 0 <= k < |s| ensures LowerChar(s[k]) != 'a' && LowerChar(s[k]) != 'p' {
      if k < |a| {
        assert s[k] == a[k];
      } else if k == |a| {
        assert s[k] == ':';
      } else {
        assert s[k] == b[k - |a| - 1];
      }
    }
    NoLettersNoPeriodMatch(s, 0);
  }

  lemma Pad2Value(m: nat)
    ensures DigitsValue(Pad2(m)) == m
  {
    NatToStringRoundTrip(m);
    var d := NatToString(m);
    if |d| < 2 {
      assert Pad2(m) == "0" + d;
      DigitsValueLeadingZero(d);
    }
  }

  lemma {:induction false} DigitsValueLeadingZero(d: string)
    requires AllDigits(d)
    ensures AllDigits("0" + d) && DigitsValue("0" + d) == DigitsValue(d)
    decreases |d|
  {
    if d != [] {
      var z := "0" + d;
      assert z[..|z| - 1] == "0" + d[..|d| - 1];
      DigitsValueLeadingZero(d[..|d| - 1]);
    }
  }

  /** parseTime's answer once the am/pm form matched. */
  lemma ParseTimeOfPeriodMatch(s: string, pm: PeriodMatch)
    requires FirstPeriodMatch(s, 0) == Some(pm)
    ensures ParseTime(s) == Ok((To24(pm.hours, Some(pm.period)), pm.minutes.GetOr(0)))
  {
  }

  /** The am/pm form at 0 of "<h>:<m><sp><per>" is determined by its runs. */
  lemma PeriodMatchOfClock(s: string, e1: nat, e2: nat, q: nat, period: Period)
    requires 0 < e1 && e1 + 1 < e2 <= q <= |s|
    requires IsDigit(s[0]) && DigitRunEnd(s, 0) == e1 && s[e1] == ':' && IsDigit(s[e1 + 1])
    requires DigitRunEnd(s, e1 + 1) == e2 && SpaceRunEnd(s, e2) == q && PeriodAt(s, q) == Some(period)
    ensures FirstPeriodMatch(s, 0) == Some(PeriodMatch(DigitsValue(s[0..e1]), Some(DigitsValue(s[e1 + 1..e2])), period))
  {
  }

  /** The runs of "<h>:<m><sp><per>" after the minutes. */
  lemma PeriodLayout(a: string, b: string, sp: string, per: string, period: Period)
    requires forall k :: 0 <= k < |sp| ==> IsSpace(sp[k])
    requires |per| == 2 && LowerChar(per[1]) == 'm'
    requires period == AM ==> LowerChar(per[0]) == 'a'
    requires period == PM ==> LowerChar(per[0]) == 'p'
    ensures var s := a + ":" + b + (sp + per);
            var e2 := |a| + 1 + |b|;
            SpaceRunEnd(s, e2) == e2 + |sp| && PeriodAt(s, e2 + |sp|) == Some(period)
  {
    var rest := sp + per;
    var s := a + ":" + b + rest;
    var e2 := |a| + 1 + |b|;
    assert s[e2..] == rest;
    forall k | e2 <= k < e2 + |sp| ensures IsSpace(s[k]) {
      assert s[k] == s[e2..][k - e2] == sp[k - e2];
    }
    assert s[e2 + |sp|] == s[e2..][|sp|] == per[0];
    assert s[e2 + |sp| + 1] == s[e2..][|sp| + 1] == per[1];
    SpaceRunEndIs(s, e2, e2 + |sp|);
  }

  /** The am/pm form matches "<a>:<b><sp><per>" at its start, with the digit runs as hours and minutes. */
  lemma PeriodFormMatches(a: string, b: string, sp: string, per: string, period: Period)
    requires AllDigits(a) && AllDigits(b) && 1 <= |a| && 1 <= |b|
    requires forall k :: 0 <= k < |sp| ==> IsSpace(sp[k])
    requires |per| == 2 && LowerChar(per[1]) == 'm'
    requires period == AM ==> LowerChar(per[0]) == 'a'
    requires period == PM ==> LowerChar(per[0]) == 'p'
    ensures FirstPeriodMatch(a + ":" + b + (sp + per), 0)
         == Some(PeriodMatch(DigitsValue(a), Some(DigitsValue(b)), period))
  {
    var s := a + ":" + b + (sp + per);
    var e1, e2 := |a|, |a| + 1 + |b|;
    PeriodStartsWithNoDigit(sp, per, period);
    assert IsDigit(s[0]) && DigitRunEnd(s, 0) == e1 && s[e1] == ':' && IsDigit(s[e1 + 1])
           && DigitRunEnd(s, e1 + 1) == e2 && s[0..e1] == a && s[e1 + 1..e2] == b by {
      ClockBeforePeriod(a, b, sp + per);
    }
    assert SpaceRunEnd(s, e2) == e2 + |sp| && PeriodAt(s, e2 + |sp|) == Some(period) by {
      PeriodLayout(a, b, sp, per, period);
    }
    PeriodMatchOfClock(s, e1, e2, e2 + |sp|, period);
  }

  lemma PeriodStartsWithNoDigit(sp: string, per: string, period: Period)
    requires forall k :: 0 <= k < |sp| ==> IsSpace(sp[k])
    requires |per| == 2
    requires period == AM ==> LowerChar(per[0]) == 'a'
    requires period == PM ==> LowerChar(per[0]) == 'p'
    ensures !IsDigit((sp + per)[0])
  {
    if |sp| > 0 {
      assert (sp + per)[0] == sp[0];
    } else {
      assert (sp + per)[0] == per[0];
    }
  }

  /** "<a>:<b>" followed by anything not starting with a digit: both digit runs and the colon between them. */
  lemma ClockBeforePeriod(a: string, b: string, rest: string)
    requires AllDigits(a) && AllDigits(b) && 1 <= |a| && 1 <= |b|
    requires rest == [] || !IsDigit(rest[0])
    ensures var s := a + ":" + b + rest;
            var e1, e2 := |a|, |a| + 1 + |b|;
            IsDigit(s[0]) && DigitRunEnd(s, 0) == e1 && s[e1] == ':' && IsDigit(s[e1 + 1])
            && DigitRunEnd(s, e1 + 1) == e2 && s[0..e1] == a && s[e1 + 1..e2] == b
  {
    var s := a + ":" + b + rest;
    ClockLayout(a, b, rest);
    assert s[0] == s[0..|a|][0];
  }

  /** "H:MM am", "H:MMpm", … (any case, any white space before the period) convert to the 24-hour clock. */
  lemma ParseTimeWithPeriod(h: nat, m: nat, sp: string, per: string, period: Period)
    requires forall k :: 0 <= k < |sp| ==> IsSpace(sp[k])
    requires |per| == 2 && LowerChar(per[1]) == 'm'
    requires period == AM ==> LowerChar(per[0]) == 'a'
    requires period == PM ==> LowerChar(per[0]) == 'p'
    ensures ParseTime(NatToString(h) + ":" + Pad2(m) + sp + per) == Ok((To24(h, Some(period)), m))
  {
    var a, b := NatToString(h), Pad2(m);
    var s := a + ":" + b + (sp + per);
    assert s == NatToString(h) + ":" + Pad2(m) + sp + per;
    assert FirstPeriodMatch(s, 0) == Some(PeriodMatch(h, Some(m), period)) by {
      PeriodFormMatches(a, b, sp, per, period);
      NatToStringRoundTrip(h);
      Pad2Value(m);
    }
    ParseTimeOfPeriodMatch(s, PeriodMatch(h, Some(m), period));
  }

  lemma Twelve()
    ensures NatToString(12) == "12"
  {
    assert NatToString(12) == NatToString(1) + [DigitChar(2)];
  }

  /** Half past midnight written in the 12-hour clock. */
  lemma ParseTimeHalfPastMidnight()
    ensures ParseTime("12:30am") == Ok((0, 30))
  {
    assert NatToString(12) + ":" + Pad2(30) + "" + "am" == "12:30am" by {
      Twelve();
      assert Pad2(30) == "30" by {
        assert NatToString(30) == NatToString(3) + [DigitChar(0)];
      }
    }
    ParseTimeWithPeriod(12, 30, "", "am", AM);
  }

  /** Noon written in the 12-hour clock. */
  lemma ParseTimeNoon()
    ensures ParseTime("12:00pm") == Ok((12, 0))
  {
    assert NatToString(12) + ":" + Pad2(0) + "" + "pm" == "12:00pm" by {
      Twelve();
      assert Pad2(0) == "00";
    }
    ParseTimeWithPeriod(12, 0, "", "pm", PM);
  }

  // ---------------------------------------------------------------- getTimeOptions

  datatype TimeOption = TimeOption(labelText: string, value: string, description: string)

  /** Evening hours first, then noon and early afternoon, then midnight. */
  const ORDERED_HOURS: seq<nat> := [14, 15, 16, 17, 18, 19, 20, 21, 22, 23, 12, 13, 0]
  const SLOT_MINUTES: seq<nat> := [0, 30]

  /** One option: value "HH:MM", description value + " UTC", label in the 12-hour clock. */
  function SlotOption(hour: nat, minute: nat): TimeOption
  {
    var value := Pad2(hour) + ":" + Pad2(minute);
    TimeOption(NatToString(DisplayHour(hour)) + ":" + Pad2(minute) + " " + PeriodText(PeriodOf(hour)) + " UTC",
               value, value + " UTC")
  }

  /** The k-th slot of the nested loops, before the cap. */
  function Slot(k: nat): TimeOption
    requires k < 2 * |ORDERED_HOURS|
  {
    SlotOption(ORDERED_HOURS[k / 2], SLOT_MINUTES[k % 2])
  }

  /** The list `getTimeOptions` returns: the first 25 slots. */
  function TimeOptions(): (r: seq<TimeOption>)
    ensures |r| == Config.MAX_SELECT_OPTIONS
  {
    seq(Config.MAX_SELECT_OPTIONS, k requires 0 <= k < Config.MAX_SELECT_OPTIONS => Slot(k))
  }

  function Min(a: int, b: int): int
  {
    if a < b then a else b
  }

  /**
   * `getTimeOptions`: the nested loops over the ordered hours and the minutes
   * 0 and 30, stopping at 25 options.
   */
  method GetTimeOptions() returns (options: seq<TimeOption>)
    ensures |options| == Config.MAX_SELECT_OPTIONS
    ensures forall k :: 0 <= k < |options| ==> options[k] == Slot(k)
  {
    options := [];
    var i := 0;
    while i < |ORDERED_HOURS|
      invariant 0 <= i <= |ORDERED_HOURS|
      invariant |options| == Min(2 * i, Config.MAX_SELECT_OPTIONS)
      invariant forall k :: 0 <= k < |options| ==> options[k] == Slot(k)
    {
      var hour := ORDERED_HOURS[i];
      var j := 0;
      while j < |SLOT_MINUTES|
        invariant 0 <= j <= |SLOT_MINUTES|
        invariant |options| == Min(2 * i + j, Config.MAX_SELECT_OPTIONS)
        invariant forall k :: 0 <= k < |options| ==> options[k] == Slot(k)
      {
        if |options| >= Config.MAX_SELECT_OPTIONS {
          break;
        }
        assert |options| == 2 * i + j;
        SlotAt(i, j);
        NextSlot(options, SlotOption(hour, SLOT_MINUTES[j]));
        options := options + [SlotOption(hour, SLOT_MINUTES[j])];
        j := j + 1;
      }
      i := i + 1;
    }
  }

  /** Appending the next slot to the first slots gives the first slots again. */
  lemma NextSlot(options: seq<TimeOption>, next: TimeOption)
    requires |options| < 2 * |ORDERED_HOURS|
    requires forall k :: 0 <= k < |options| ==> options[k] == Slot(k)
    requires next == Slot(|options|)
    ensures forall k :: 0 <= k < |options + [next]| ==> (options + [next])[k] == Slot(k)
  {
    var grown := options + [next];
    forall k | 0 <= k < |grown| ensures grown[k] == Slot(k) {
      if k < |options| {
        assert grown[k] == options[k];
      } else {
        assert k == |options|;
      }
    }
  }

  /** The slot the inner loop adds for hour number `i` and minute number `j`. */
  lemma SlotAt(i: nat, j: nat)
    requires i < |ORDERED_HOURS| && j < |SLOT_MINUTES|
    ensures Slot(2 * i + j) == SlotOption(ORDERED_HOURS[i], SLOT_MINUTES[j])
  {
    assert (2 * i + j) / 2 == i && (2 * i + j) % 2 == j;
  }

  /**
   * The 25 options run 14:00, 14:30, …, 23:30, 12:00, …, 13:30, 00:00 (the
   * 26th slot, 00:30, is cut); each value is "HH:MM" with MM 00 or 30, each
   * description the value plus " UTC", each label the 12-hour reading.
   */
  lemma TimeOptionsShape(k: nat)
    requires k < Config.MAX_SELECT_OPTIONS
    ensures Slot(k).value == Pad2(ORDERED_HOURS[k / 2]) + ":" + Pad2(if k % 2 == 0 then 0 else 30)
    ensures |Slot(k).value| == 5 && DigitsValue(Slot(k).value[..2]) == ORDERED_HOURS[k / 2]
    ensures Slot(k).description == Slot(k).value + " UTC"
    ensures Slot(k).labelText == NatToString(DisplayHour(ORDERED_HOURS[k / 2])) + ":" + Pad2(SLOT_MINUTES[k % 2])
                                 + " " + PeriodText(PeriodOf(ORDERED_HOURS[k / 2])) + " UTC"
  {
    var h := ORDERED_HOURS[k / 2];
    Pad2RoundTrip(h);
    Pad2RoundTrip(SLOT_MINUTES[k % 2]);
    assert Slot(k).value[..2] == Pad2(h);
  }

  /** The first option is 14:00 and the last 00:00. */
  lemma TimeOptionsEnds()
    ensures Slot(0).value == "14:00" && Slot(24).value == "00:00"
  {
    assert Pad2(14) == "14" by {
      assert NatToString(14) == NatToString(1) + [DigitChar(4)];
    }
    assert Pad2(0) == "00";
  }
}

=== FILE: wc3stats.dfy ===
/**
 * The wc3stats game-list client: the response checks of `fetchActiveLobbies`
 * and the Island Troll Tribes filter `filterITTGames`.
 */
module Wc3Stats {
  import opened Wrappers
  import opened Js
  import opened Seqs
  import Text
  import Config

  /** One entry of the wc3stats `gamelist` body. */
  datatype Lobby = Lobby(id: Value, mapName: Value, host: Value, server: Value, created: Value)

  /** A JSON value where an array is expected: `Array.isArray` decides between the two. */
  datatype Listing = NotArray | Array(items: seq<Lobby>)

  /** The parts of the HTTP response the client inspects: `response.ok`, `data.status`, `data.body`. */
  datatype Response = Response(ok: bool, status: Value, body: Listing)

  /**
   * `fetchActiveLobbies`: the body of a successful response; an error for a
   * non-2xx status, a status other than the string "OK", or a body that is not
   * an array. `None` is a request that failed or did not parse as JSON.
   */
  function FetchActiveLobbies(resp: Option<Response>): (r: Result<seq<Lobby>>)
    ensures r.Ok? <==> resp.Some? && resp.value.ok && resp.value.status == Str("OK") && resp.value.body.Array?
    ensures r.Ok? ==> r.value == resp.value.body.items
  {
    match resp
    case None => Err("request failed")
    case Some(res) =>
      if !res.ok then Err("wc3stats API returned an error status")
      else if res.status != Str("OK") || !res.body.Array? then Err("Invalid API response structure")
      else Ok(res.body.items)
  }

  /** `(game.map || '')` as a string; `None` where `.toLowerCase()` would throw (a truthy non-string). */
  function MapText(l: Lobby): Option<string>
  {
    if !Truthy(l.mapName) then Some("")
    else if l.mapName.Str? then Some(l.mapName.s)
    else None
  }

  /** The lower-cased map name starts with `island.troll.tribes`. */
  predicate IsITTMap(m: string)
  {
    Text.StartsWith(Text.ToLower(m), Config.ITT_MAP_PREFIX)
  }

  /** The filter's reference predicate: the lobby's map is an Island Troll Tribes map. */
  predicate IsITTLobby(l: Lobby)
  {
    MapText(l).Some? && IsITTMap(MapText(l).value)
  }

  function IsITT(): Lobby -> bool
  {
    (l: Lobby) => IsITTLobby(l)
  }

  /** The callback of `filterITTGames` throws on this lobby. */
  predicate Throws(l: Lobby)
  {
    MapText(l).None?
  }

  /**
   * `filterITTGames`: a non-array yields no lobbies; otherwise the ITT lobbies
   * in their original order. A map that is a truthy non-string makes the
   * callback throw, and the whole call with it.
   */
  function FilterITTGames(games: Listing): (r: Result<seq<Lobby>>)
    ensures games.NotArray? ==> r == Ok([])
    ensures games.Array? ==> (r.Err? <==> exists i :: 0 <= i < |games.items| && Throws(games.items[i]))
    ensures games.Array? && r.Ok? ==> r.value == Filter(games.items, IsITT())
  {
    match games
    case NotArray => Ok([])
    case Array(items) => FilterItems(items)
  }

  function FilterItems(items: seq<Lobby>): (r: Result<seq<Lobby>>)
    ensures r.Err? <==> exists i :: 0 <= i < |items| && Throws(items[i])
    ensures r.Ok? ==> r.value == Filter(items, IsITT())
  {
    if items == [] then Ok([])
    else
      var m := MapText(items[0]);
      if m.None? then Err("map.toLowerCase is not a function")
      else
        var rest := FilterItems(items[1..]);
        assert forall i :: 0 < i < |items| ==> items[i] == items[1..][i - 1];
        if rest.Err? then rest
        else Ok(if IsITTMap(m.value) then [items[0]] + rest.value else rest.value)
  }

  /** A lobby survives the filter exactly when it was listed and its map is an ITT map. */
  lemma FilterITTGamesMembership(games: seq<Lobby>, l: Lobby)
    requires FilterITTGames(Array(games)).Ok?
    ensures l in FilterITTGames(Array(games)).value <==> l in games && IsITTLobby(l)
  {
  }

  /** The survivors keep the order of the listing. */
  lemma FilterITTGamesKeepsOrder(games: seq<Lobby>)
    requires FilterITTGames(Array(games)).Ok?
    ensures IsSubsequence(FilterITTGames(Array(games)).value, games)
  {
    FilterIsSubsequence(games, IsITT());
  }

  /** Filtering the survivors again keeps all of them. */
  lemma FilterITTGamesIdempotent(games: seq<Lobby>)
    requires FilterITTGames(Array(games)).Ok?
    ensures FilterITTGames(Array(FilterITTGames(Array(games)).value)) == FilterITTGames(Array(games))
  {
    var r := FilterITTGames(Array(games)).value;
    FilterIdempotent(games, IsITT());
    assert forall i :: 0 <= i < |r| ==> !Throws(r[i]);
  }

  lemma LowerOfUpper(c: char)
    ensures Text.LowerChar(Text.UpperChar(c)) == Text.LowerChar(c)
  {
  }

  /** The test ignores ASCII case: a map and its upper-cased spelling are filtered alike. */
  lemma {:induction false} IsITTMapIgnoresCase(m: string)
    ensures IsITTMap(Text.ToUpper(m)) <==> IsITTMap(m)
  {
    var u := Text.ToUpper(m);
    forall i | 0 <= i < |m| ensures Text.ToLower(u)[i] == Text.ToLower(m)[i] {
      LowerOfUpper(m[i]);
    }
    assert Text.ToLower(u) == Text.ToLower(m);
  }
}

=== FILE: wrappers.dfy ===
/** Failure-carrying result types shared by every module of the model. */
module Wrappers {

  /** A value that may be missing: JavaScript's `null`/`undefined` returns. */
  datatype Option<T> = None | Some(value: T) {

    /** The wrapped value, or `default` when missing (JavaScript's `x || default` on optionals). */
    function GetOr(default: T): T
    {
      match this
      case Some(v) => v
      case None => default
    }
  }

  /** The outcome of an operation that may throw; `Err` carries the error message. */
  datatype Result<T> = Ok(value: T) | Err(message: string)
}
